=== FILE: README.md ===
# zwoBlender core in Dafny

A Dafny model of the binary and textual core of zwoBlender, a Blender
add-on that reads and writes ZWO model files. The project contains:

- **Vertex layout and the mesh codec** (`VertexLayout`, `MeshBuffers`, `Mesh`).
  - An 11-bit vertex-flag word selects the fields of a vertex record and its stride.
  - A vertex buffer is a count, the flags and that many records.
  - A face buffer holds 16-bit or 32-bit index records, chosen by `IndexType`.
  - The geometry block holds the transformers.
  - The mesh entity chains these behind its Entity3D header. It decides how many vertex buffers follow from `MeshType`, a flag bit and `TransformerCount`.
  - The writer frames the mesh with a big-endian length that counts itself.
- **The Entity3D header** (`Entity3D`): material names, two flag words, and a chain of optional fields, each gated by a bit of the first flag word. It has two writers:
  - the writer as the source has it;
  - a mirror writer that inverts the reader.
- **The skeletal-animation block** (`SkeletalAnimation`).
  - Five header words, then a little-endian entry table (or 56 skipped bytes), then a pool of four-component curves.
  - A single cursor walks the pool. Each entry's type decides how many curves it takes and which frame keys of its rotation, position and scale maps it fills.
- **The compiled-XML (XMC) reader** (`Xmc`).
  - A little-endian header, 16-byte node records, 8-byte attribute records and a string pool of NUL-terminated strings.
  - Hash-to-name resolution with an eight-digit hexadecimal fallback, and XML escaping.
  - A depth-first walk. Its visited set stops it on cyclic node tables.
- **The hash-registry merge** (`HashRegistry`): new strings are folded into a registry from CRC-32 to string. An absent hash is added, a present hash is never overwritten, and a present hash holding a different string counts as a collision.
- **The exporter's discrete logic** (`Exporter`, and the mesh object it builds in `Mesh`):
  - deduplicating triangle corners by hash into a dense index table, and one face per triangle;
  - four bone slots per skinned vertex, and the vertex-flag word taken from the first vertex;
  - the texture-name extension cut, and bone children as positions in the bone list.

Readers take a byte sequence and a position. They return
`Result<Read<T>>`, which holds the value and the next position. An error
case models the exception the source raises: a truncated read, a missing
attribute, or an index past the curve pool. Writers return
`Result<seq<byte>>`. Floats are opaque four-byte words. Strings read from
the file are byte sequences. `Bytes` holds the big- and little-endian word
codecs the readers and writers share.

## Model

| member | source | states |
|---|---|---|
| VertexLayout.StrideFormula | zwoLib/zwo/zwoMesh.py:164-214 | The stride the reader multiplies by the vertex count is the size of the field list it builds. It is 12, plus 12 for bit 0x1, 4 each for 0x2 and 0x4, 8 per set UV bit among 0x8–0x40 and 8 per set bone bit among 0x80–0x400. It always lies between 12 and 96. |
| VertexLayout.HighBitsIgnored | zwoLib/zwo/zwoMesh.py:164-214 | Flag bits above 0x400 change neither the field list nor the stride. |
| VertexLayout.LayoutOrdered | zwoLib/zwo/zwoMesh.py:164-214 | The position comes first. Every later field comes after the fields of lower bits: normal, color0, color1, uv0..uv3, then (boneIndexK, boneWeightK) for increasing K. |
| VertexLayout.NormalUvExample | zwoLib/zwo/zwoMesh.py:164-182 | Flags 0x9 give position, normal and uv0 in 32 bytes. |
| MeshBuffers.DecodeVertexBuffer | zwoLib/zwo/zwoMesh.py:159-220 | A decoded buffer holds exactly VertexCount records. |
| MeshBuffers.VertexBufferExtent | zwoLib/zwo/zwoMesh.py:159-220 | The vertex-buffer reader fails exactly when the stream ends before the two header words or before VertexCount strides. Otherwise it consumes 8 bytes plus VertexCount strides. |
| MeshBuffers.DecodedRecordsConform | zwoLib/zwo/zwoMesh.py:164-220 | Every record read has exactly the fields its buffer's flags select, each of its field's width. |
| MeshBuffers.RecordRoundTrip | zwoLib/zwo/zwoMesh.py:219-220 | Slicing the encoding of a record that has a layout's fields gives the record back. |
| MeshBuffers.WriterRecordLength | zwoLib/zwo/zwoMesh.py:231-243 | The writer's record for a vertex is 24 bytes plus 4 per colour, 8 per UV set and 8 per bone, whatever the flags say. |
| MeshBuffers.WriterRecordStride | zwoLib/zwo/zwoMesh.py:164-243 | When the flags describe the vertex (normal bit set, colour, UV and bone counts matching the bits), the written record is exactly the reader's stride. |
| MeshBuffers.WriterRecordNormalGap | zwoLib/zwo/zwoMesh.py:168-233 | With bit 0x1 clear and the other bits matching, the written record is 12 bytes longer than the stride, because the normal is always written. |
| MeshBuffers.WriterConforms | zwoLib/zwo/zwoMesh.py:227-243 | What the writer emits for a vertex the flags describe has the reader's layout field for field. |
| MeshBuffers.WriterRecordsOk | zwoLib/zwo/zwoMesh.py:231-243 | The vertex loop succeeds exactly when every vertex can be emitted: a weight for every bone index, and every index within 32 bits. |
| MeshBuffers.VertexBufferRoundTrip | zwoLib/zwo/zwoMesh.py:159-243 | Suppose the flags describe every vertex. Then the reader recovers what was written: `len(Vertices)` as the count, the flags, and every vertex's values. It stops at the end of the written buffer. |
| MeshBuffers.DecodeFaceBuffer | zwoLib/zwo/zwoMesh.py:265-273 | A decoded face buffer holds FaceCount faces of three indices each. |
| MeshBuffers.FaceBufferExtent | zwoLib/zwo/zwoMesh.py:265-273 | The face-buffer reader fails exactly when the stream ends before the three header words or before the records. It consumes 12 bytes plus 16 per face for IndexType 1, or 8 per face for any other IndexType. |
| MeshBuffers.PutIndicesOk | zwoLib/zwo/zwoMesh.py:282-289 | The index fields are written exactly when each number fits the width. |
| MeshBuffers.FaceBufferWritable | zwoLib/zwo/zwoMesh.py:277-289 | A face buffer can be written exactly when the face count fits 32 bits and every index and material index fits the width IndexType selects. |
| MeshBuffers.FaceRoundTrip | zwoLib/zwo/zwoMesh.py:292-316 | A written three-index face record parses back as the face, at either width. |
| MeshBuffers.FaceBufferRoundTrip | zwoLib/zwo/zwoMesh.py:265-289 | A written face list of triangles reads back unchanged, counted by its own length, with the reader stopping at its end. |
| MeshBuffers.DecodeGeometry | zwoLib/zwo/zwoMesh.py:102-115 | The geometry reader keeps TransformerCount unknown words and TransformerCount local transformers. |
| MeshBuffers.GeometryExtent | zwoLib/zwo/zwoMesh.py:102-115 | The geometry reader fails exactly when the stream ends before the count, the TransformerCount words or the TransformerCount triples. It consumes all of them. |
| MeshBuffers.GeometryLayoutsAgree | zwoLib/zwo/zwoMesh.py:103-124 | For an integer `unk` (what the exporter sets), the writer emits one unk word and repeats the same triple TransformerCount times. The reader consumes the writer's byte count exactly when TransformerCount is 1. |
| MeshBuffers.GeometryRoundTrip | zwoLib/zwo/zwoMesh.py:102-124 | With one transformer, the written geometry reads back as one unk word and one (local, world, box) triple. |
| Mesh.ShiftBitTwo | zwoLib/zwo/zwoMesh.py:36 | The test `>> 2 & 1` is the mask 0x4. |
| Mesh.DecodeBody | zwoLib/zwo/zwoMesh.py:28-46 | unk3 and unk4 are read exactly for MeshType 2. The buffer count is TransformerCount for MeshType 2 with bit 2 of VertexBufferFlag clear, and 1 otherwise. |
| Mesh.DecodeMesh | zwoLib/zwo/zwoMesh.py:21-53 | After the Entity3D header the reader follows `flags1`. Geometry, buffers and faces are read exactly when bit 0x1 is set, AnimFrame exactly when 0x20 is set, and the instance mark follows the header's instance. |
| Mesh.EncodeEntityHead | zwoLib/zwo/zwoMesh.py:58-73 | The head opens with the HeaderType byte. Types 5 and 6 then give the name's length, the name and Type, and type 6 adds five words. It fails exactly when a name too long for its length word must be written. |
| Mesh.EncodeFloats | zwoLib/zwo/zwoMesh.py:80-82 | The floats are written exactly when both unk3 and unk4 exist. They come out in that order. |
| Mesh.EncodeMesh | zwoLib/zwo/zwoMesh.py:54-91 | The output opens with a big-endian word equal to its own total length (body plus four), then the HeaderType byte, then the head and the contents. It succeeds exactly when every part is written and the length fits 32 bits. |
| Mesh.MeshRoundTrip | zwoLib/zwo/zwoMesh.py:21-91 | Take a mesh with these properties: MaterialCount equals the number of material names; no `flags2` bit 0x10000 or 0x20000 and no `flags1` bit 0x20, so the Entity3D writer emits no value1, value2 or unk5 word that the reader never takes; the geometry bit set; one transformer; one vertex buffer whose flags describe its vertices; and triangle faces. After the writer, the reader recovers: the Entity3D header as the Entity3D reader sees it; the geometry; VertexBufferFlag and unk2; the floats exactly for MeshType 2; the buffer's count, flags and records; and the face buffer. It stops at the end of the output. |
| Mesh.GeometryBitClearStopsEarly | zwoLib/zwo/zwoMesh.py:27-77 | The writer emits the geometry whatever `flags1` says. A reader finding bit 0x1 clear stops after the Entity3D header, leaving at least 16 written bytes unread. |
| Mesh.ExporterMeshAsWritten | zwoExporter.py:243-298 | The mesh object `make_mesh` assembles never has unk2 (nor unk3 and unk4). |
| Mesh.ExportedMeshUnwritable | zwoExporter.py:243-298 | Writing any mesh object the exporter builds fails. When the names fit their length words, the failure is the missing attribute unk2. |
| Mesh.ExporterMesh | zwoExporter.py:243-298 | The corrected object is the same mesh with unk2, unk3 and unk4 set to zero. |
| Mesh.ExportedMeshHeader | zwoExporter.py:243-250 | The exporter's written mesh frames itself with its own length. It opens with HeaderType 5 when skinned and 6 otherwise, followed by the object's name and entity Type 5. |
| Mesh.ExportedTriangles | zwoExporter.py:136-234 | Geometry exported from triangles has flags 0xB (0x78B when skinned) that describe every vertex, and three-index faces. |
| Mesh.ExportedMeshReadsBack | zwoExporter.py:237-298 | The corrected exporter mesh reads back as follows: `flags1` 1 with the material names; MeshType 6 when skinned and 2 otherwise; one transformer whose unk is 1000; floats only when unskinned; one vertex buffer with every exported vertex and the exported flags; and the faces with TrianglesType 1 and IndexType 0. |
| Entity3D.DerivedGates | zwoLib/zwo/zwoEntity3D.py:28-54 | In a decoded header, each gate boolean the reader derives from the flag words is exactly the presence of the field it guards: HasParentSibling for Param1/Param2, HasExtraInt for the extra word, HasInstance for the instance. Without HasGeometry, MeshType stays 0. The header's byte span is the count, the strings, three words, then the fields those gates admit. |
| Entity3D.DerivedGatesConsume | zwoLib/zwo/zwoEntity3D.py:28-54 | Of the derived booleans, only the four gates decide what the tail reads. The tail equals the one read under a flag word holding those four gates alone, so readExtra, HasAnimFrame, Flag88, Flag8C and the two `flags2` booleans consume nothing. |
| Entity3D.DecodeTail | zwoLib/zwo/zwoEntity3D.py:40-54 | Param1/Param2, the extra word and the instance are present exactly when bits 0x4, 0x40 and 0x2 are set. MeshType stays 0 without bit 0x1. The tail spans exactly the bytes of those fields. |
| Entity3D.DecodeEntity3D | zwoLib/zwo/zwoEntity3D.py:19-54 | A decoded header has as many materials as its count, and its optional fields are gated by their bits. |
| Entity3D.OnlyGatesConsume | zwoLib/zwo/zwoEntity3D.py:28-54 | Only bits 0x1, 0x2, 0x4 and 0x40 of `flags1` decide what the tail reads. Two `flags1` words that agree on those bits give the same tail and the same next position. |
| Entity3D.HeaderExtent | zwoLib/zwo/zwoEntity3D.py:19-54 | A decoded header spans exactly its size: the count, each string with its length word, three words and the tail. |
| Entity3D.EncodeStrsOk | zwoLib/zwo/zwoEntity3D.py:58-61 | The material strings are written exactly when each fits its length word. |
| Entity3D.HeaderRoundTrip | zwoLib/zwo/zwoEntity3D.py:19-54 | The mirror writer's output reads back as the header it was given and is consumed completely. |
| Entity3D.WriterParts | zwoLib/zwo/zwoEntity3D.py:57-93 | The writer's output in order: the count from MaterialCount; the strings; the three words; value1, value2 and unk5 gated by their bits; Param1/Param2; unk2 for EntityType and again for the extra word; MeshType; and Param1 with Transformer1 for the instance. |
| Entity3D.WriterLength | zwoLib/zwo/zwoEntity3D.py:57-93 | The written length is the length the reader takes plus four bytes for each of value1, value2 and unk5 whose bit is set. The two agree exactly when none of the three bits is set. |
| Entity3D.WriterMirrors | zwoLib/zwo/zwoEntity3D.py:57-90 | Suppose the count matches the list and value1, value2 and unk5 are not written. Then the writer emits exactly what the mirror writer emits for the fields a reader would store. |
| Entity3D.WriterLayoutRoundTrip | zwoLib/zwo/zwoEntity3D.py:57-90 | Under the same conditions, the reader takes the writer's output apart completely. It lands unk1 in `unk`, unk2 in EntityType and the extra word, and Param1 in the instance name. |
| Entity3D.CountMismatchTruncates | zwoLib/zwo/zwoEntity3D.py:58-61 | The count is written from MaterialCount, not from the list. One promised material with none listed leaves the reader four bytes short. |
| Entity3D.TruncatedAfterOneEmptyName | zwoLib/zwo/zwoEntity3D.py:20-54 | A count of one, an empty name and three zero words make the reader run past the end. |
| Entity3D.RewriteLosesEntityType | zwoLib/zwo/zwoEntity3D.py:79-82 | A header read with EntityType 5 and written back reads as EntityType 0. The mirror writer gives it back unchanged. |
| Entity3D.EncodingDecodes | zwoLib/zwo/zwoEntity3D.py:19-54 | The mirror writer's output, on its own, decodes to the header. |
| Entity3D.RewriteInstanceFails | zwoLib/zwo/zwoEntity3D.py:87-90 | An instanced header that was read cannot be written back: the writer reads Transformer1, which nothing assigns. |
| SkeletalAnimation.ReadPrefix | zwoLib/zwo/zwoSkeletalAnimation.py:18-40 | The entry table is read exactly when bit 0x2 of Flags is clear, with EntryCount records. The pool holds CurveCount curves. |
| SkeletalAnimation.PrefixExtent | zwoLib/zwo/zwoSkeletalAnimation.py:18-40 | The prefix spans 20 header bytes, then 12 bytes per entry or 56 skipped bytes, then 4 + 16·CurveCount bytes. |
| SkeletalAnimation.ReadEntryHeads | zwoLib/zwo/zwoSkeletalAnimation.py:30-33 | The table is read exactly when its 12·EntryCount bytes are present, and it holds EntryCount records. |
| SkeletalAnimation.EntryHeadsAt | zwoLib/zwo/zwoSkeletalAnimation.py:86-90 | Entry i is the i-th twelve-byte record: three little-endian words. |
| SkeletalAnimation.ReadCurves | zwoLib/zwo/zwoSkeletalAnimation.py:39-40 | The pool is read exactly when its 16·CurveCount bytes are present. |
| SkeletalAnimation.CurvesAt | zwoLib/zwo/zwoSkeletalAnimation.py:40 | Curve i is the i-th sixteen-byte slice. |
| SkeletalAnimation.OddStep | zwoLib/zwo/zwoSkeletalAnimation.py:50-54 | An odd type needs three curves from the cursor and advances it by three. An even type takes nothing. |
| SkeletalAnimation.Run | zwoLib/zwo/zwoSkeletalAnimation.py:56-62 | The keyed run of types 3 and 5 fails exactly when frames 1..n-1 run past the pool. |
| SkeletalAnimation.AlternateSteps | zwoLib/zwo/zwoSkeletalAnimation.py:63-69 | Type 7's loop fails exactly when the pool runs out. It moves the cursor two curves per frame and leaves the scale map alone. |
| SkeletalAnimation.AlternateRotations | zwoLib/zwo/zwoSkeletalAnimation.py:63-69 | Frame j of type 7's loop takes rotation curve c + 2(j - i). Other frames keep their keys. |
| SkeletalAnimation.AlternatePositions | zwoLib/zwo/zwoSkeletalAnimation.py:63-69 | Frame j of type 7's loop takes the first three components of curve c + 2(j - i) + 1. Other frames keep their keys. |
| SkeletalAnimation.EntryCursor | zwoLib/zwo/zwoSkeletalAnimation.py:50-69 | An entry fails exactly when its reach runs past the pool. Otherwise it moves the cursor by its consumption: 3 for an odd type, plus FrameCount - 1 for types 3 and 5 (one back when FrameCount is 0), plus 2(FrameCount - 1) for type 7. |
| SkeletalAnimation.AlternatingKeys | zwoLib/zwo/zwoSkeletalAnimation.py:50-69 | For type 7, rotation and position have keys 0..n-1, with rot[i] = curve[c+3+2(i-1)] and pos[i] = curve[c+4+2(i-1)]. Scale has key 0 alone. |
| SkeletalAnimation.RunKeys | zwoLib/zwo/zwoSkeletalAnimation.py:50-62 | Type 3 fills rotation keys 0..n-1 with rot[i] = curve[c+3+i-1], and type 5 does the same for position. The other maps keep frame 0 alone. |
| SkeletalAnimation.PlainKeys | zwoLib/zwo/zwoSkeletalAnimation.py:50-54 | Any other odd type fills frame 0 of each map from three curves. An even type fills nothing and leaves the cursor. |
| SkeletalAnimation.ComponentCounts | zwoLib/zwo/zwoSkeletalAnimation.py:50-69 | Rotations keep four components; positions and scales keep three. |
| SkeletalAnimation.EntriesFit | zwoLib/zwo/zwoSkeletalAnimation.py:43-69 | The pass succeeds exactly when every entry fits from where the previous one left the cursor. It then ends at the sum of the consumptions, with one entry per record. |
| SkeletalAnimation.EntriesContent | zwoLib/zwo/zwoSkeletalAnimation.py:43-69 | Entry k of a successful pass carries record k and the keys its type takes from the shared cursor. |
| SkeletalAnimation.OnlyTypesMatter | zwoLib/zwo/zwoSkeletalAnimation.py:45-48 | CurveStartIndex and CurvesPerFrame do not affect the result: tables with the same types give the same keys and final cursor. |
| SkeletalAnimation.ReadOptional | zwoLib/zwo/zwoSkeletalAnimation.py:71-75 | A transformer curve is read exactly when its bit is set, and it is the next `size` bytes. |
| SkeletalAnimation.DecodeAnimation | zwoLib/zwo/zwoSkeletalAnimation.py:13-75 | The first and second transformer curves are present exactly when bits 0x1 and 0x4 of Flags are set. |
| SkeletalAnimation.AnimationLayout | zwoLib/zwo/zwoSkeletalAnimation.py:18-75 | The block spans the prefix plus one transformer curve per set bit. With the table read, there is one entry per record. With it skipped, there are none. |
| SkeletalAnimation.AsWrittenAgreesWithTable | zwoLib/zwo/zwoSkeletalAnimation.py:30-45 | With the table read, the reader as written and the corrected reader agree. |
| SkeletalAnimation.SkippedTableFails | zwoLib/zwo/zwoSkeletalAnimation.py:34-45 | With the table skipped, the reader as written always fails on the missing entry list. |
| SkeletalAnimation.SkippedTableExample | zwoLib/zwo/zwoSkeletalAnimation.py:18-45 | A block with Flags 2 and no curves makes the reader as written fail. The corrected reader gives an animation with no entries. |
| Xmc.I16 | zwoLib/utils/xmc.py:19-25 | A node's 16-bit fields are signed: from -32768 to 32767. |
| Xmc.ReadSection | zwoLib/utils/xmc.py:121-152 | A section is read exactly when its records are all present. A zero count reads nothing. |
| Xmc.ParseExtent | zwoLib/utils/xmc.py:93-154 | Parsing fails exactly when the header or an announced section runs past the end. Otherwise it consumes 12 + 16·nodes + 8·attributes + pool bytes and keeps that many of each. |
| Xmc.NodeRoundTrip | zwoLib/utils/xmc.py:19-25 | A node record decodes as tag hash, then five signed 16-bit fields; the two padding bytes are ignored. |
| Xmc.AttributeRoundTrip | zwoLib/utils/xmc.py:39 | An attribute record decodes as name hash, then value offset. |
| Xmc.ParseRoundTrip | zwoLib/utils/xmc.py:93-154 | Parsing an encoded document gives the document back and consumes the whole encoding. |
| Xmc.GetString | zwoLib/utils/xmc.py:75-91 | An offset at or past the pool's end gives the empty string. Otherwise the result is the pool from the offset up to the first NUL, or up to the end. |
| Xmc.TerminatedString | zwoLib/utils/xmc.py:80-89 | A string stored with its terminator reads back whole, whatever surrounds it. |
| Xmc.Hex8 | zwoLib/utils/xmc.py:161 | Eight upper-case hexadecimal digits whose value is the hash. |
| Xmc.HexNValue | zwoLib/utils/xmc.py:161 | k zero-padded digits read back as the number modulo 16^k. |
| Xmc.ResolveName | zwoLib/utils/xmc.py:156-161 | A hash in the dictionary resolves to its entry. Any other hash resolves to the prefix, `_` and eight hexadecimal digits whose value is the hash. |
| Xmc.InRange | zwoLib/utils/xmc.py:170-173 | The attribute indices kept are exactly those in first .. first+count-1 that fall inside the table, in increasing order. |
| Xmc.AttributesInRange | zwoLib/utils/xmc.py:163-184 | A node's attributes are the resolved records at those indices, in order. |
| Xmc.EscapeIsOnePass | zwoLib/utils/xmc.py:261-267 | Because `&` is replaced first, the five passes equal escaping each character once: no inserted entity is escaped again. |
| Xmc.EscapeRemovesMarkup | zwoLib/utils/xmc.py:261-267 | Escaped text holds no `<`, `>`, `"` or `'`. |
| Xmc.EscapePlain | zwoLib/utils/xmc.py:261-267 | Text without the five special characters comes back unchanged. |
| Xmc.Build | zwoLib/utils/xmc.py:186-229 | The walk ends on every node table. It hands back the visited set it was given. It renders nothing exactly for an index outside the table. |
| Xmc.BuildIsRender | zwoLib/utils/xmc.py:193-229 | The walk with its shared, mutated set equals a reference rendering whose set is the path of ancestors. A node reached along two paths renders in full both times. Only a node that is its own ancestor becomes a circular-reference comment. |
| Xmc.ChildrenIsRender | zwoLib/utils/xmc.py:214-224 | The child loop equals the reference rendering of the in-range children in order. |
| Xmc.ToXml | zwoLib/utils/xmc.py:231-242 | The text opens with the XML declaration, and is the declaration alone exactly when there are no nodes. |
| Xmc.SelfReference | zwoLib/utils/xmc.py:193-229 | A node that lists itself as its only child renders with a circular-reference comment in place of the child. |
| HashRegistry.Step | zwoLib/utils/combineHashes.py:19-27 | One string: an absent hash is added with the string; existing entries never change; `added` grows exactly for a new hash; `collisions` grows exactly for a present hash holding a different string. |
| HashRegistry.Merge | zwoLib/utils/combineHashes.py:18-27 | The merged keys are the old keys plus the strings' hashes, and old entries are untouched. The size grows by exactly the added count. added + collisions never exceeds the number of strings. |
| HashRegistry.Combine | zwoLib/utils/combineHashes.py:13-31 | From zero counters: every old entry is kept, and every string's hash is registered. Nothing else is. The final size is the old size plus `new_hash_count`, and `new_hash_count + collision_count <= total_strings`. |
| HashRegistry.FirstWins | zwoLib/utils/combineHashes.py:18-22 | A new hash ends up holding the first string that produced it. |
| HashRegistry.CollisionsAreMismatches | zwoLib/utils/combineHashes.py:24-27 | The collision count is exactly the number of strings whose hash the final registry maps to a different string. |
| HashRegistry.PresentAddsNothing | zwoLib/utils/combineHashes.py:20-27 | Strings whose hashes are all present change neither the registry nor the added count. |
| HashRegistry.RegisteredIsNoOp | zwoLib/utils/combineHashes.py:24-27 | Strings already registered under their own hash change nothing and count nothing. |
| HashRegistry.RemergeIsStable | zwoLib/utils/combineHashes.py:18-27 | Merging the same strings again adds nothing, leaves the registry as it was, and reports the same collisions. |
| HashRegistry.SameBatchCollision | zwoLib/utils/combineHashes.py:18-27 | Of two different new strings with one hash in a batch, the first is added and the second is counted as a collision. |
| Exporter.AddCorner | zwoExporter.py:188-198 | A known hash reuses its index and leaves the table unchanged. A new hash takes the next index, and the counter grows by one only then. The table stays dense. |
| Exporter.FirstWith | zwoExporter.py:191-196 | The reference for the stored vertex: it exists exactly when some vertex has the hash. |
| Exporter.CornersCorrect | zwoExporter.py:144-198 | The corner loop keeps the table dense and only extends it. It resolves every corner to its hash's entry, and stores the first corner with each new hash. |
| Exporter.Faces | zwoExporter.py:136-201 | One face per triangle, its material copied, with one index per corner. |
| Exporter.FacesCorrect | zwoExporter.py:136-201 | Across all triangles the table stays dense, every face index resolves to its corner's hash, and each new hash stores its first corner overall. |
| Exporter.InOrder | zwoExporter.py:204-205 | Sorting by index lists the stored vertices in the order their hashes were first seen. |
| Exporter.Deduplicate | zwoExporter.py:136-205 | The result has one face per triangle, its material copied. Every face index is a valid vertex index whose vertex has the corner's hash. The vertices have pairwise distinct hashes. Vertex i is the first corner, in loop order, with its hash. |
| Exporter.DedupNonEmpty | zwoExporter.py:205-208 | The vertex list is empty exactly when no triangle has a corner, which is when the sample vertex is missing. |
| Exporter.SortByWeight | zwoExporter.py:163-164 | The influences are a permutation of the input, heaviest first. |
| Exporter.KeepBones | zwoExporter.py:163-164 | Exactly the influences whose group names a bone are kept, with their multiplicities. |
| Exporter.Ranked | zwoExporter.py:163-164 | The filtered list is heaviest first and is exactly the bone influences. |
| Exporter.FourSlots | zwoExporter.py:165-169 | Exactly four slots: the list is cut after four, or padded with (0, 0.0). |
| Exporter.IndexOf | zwoExporter.py:175 | `list.index`: the first position holding the name. |
| Exporter.Normalised | zwoExporter.py:171-179 | Each weight is divided by the total, and the sum is divided with them. |
| Exporter.SlotsMeaning | zwoExporter.py:171-179 | With positive total, slot i holds the i-th ranked bone's first index and weight over the total; padding holds index 0 and weight 0. The weights sum to one. |
| Exporter.BoneSlots | zwoExporter.py:160-183 | Always four indices and four weights, summing to one. With weight, slot i holds the i-th heaviest bone influence. Without weight, the indices are all 0 and the last weight takes everything. |
| Exporter.SlotsAreHeaviest | zwoExporter.py:163-166 | A bone influence left out of the four slots is no heavier than any kept one. |
| Exporter.MakeVertex | zwoExporter.py:148-183 | A vertex has the corner's position and normal, colour [0, 255, 255, 255] and the corner's UV. It has four bone slots exactly when there is an armature. |
| Exporter.ExportedFlags | zwoExporter.py:208-234 | The flags from any exported vertex are 0xB, or 0x78B when skinned. 0x1 is always set, because the normal list never equals the tuple. The flags describe every other exported vertex. |
| Exporter.ExportedDescribed | zwoExporter.py:205-234 | The flags derived from the first deduplicated vertex describe every vertex of the list. |
| Exporter.MakeTriangles | zwoExporter.py:136-183 | Each triangle keeps its material, and each corner becomes the vertex built from it. |
| Exporter.ExportGeometry | zwoExporter.py:115-234 | The export succeeds exactly when the mesh has a UV layer and a corner. The flags are 0xB or 0x78B and describe every vertex. There is one face per triangle with its material, and every index is below the vertex count. |
| Exporter.StripExtension | zwoExporter.py:327-328 | The stripped name holds no `.`, is a prefix of the name, and is followed by nothing or by a `.`. |
| Exporter.StripExtensionStable | zwoExporter.py:327-328 | A name without a `.` is kept, and stripping twice is stripping once. |
| Exporter.FirstImageNode | zwoExporter.py:316-320 | The first image-texture node, or none exactly when there is no such node. |
| Exporter.MakeMaterial | zwoExporter.py:303-330 | Name and flag 3 are always set. The texture name is the first image node's image without its extension. With no such image, the reused material's name is kept. |
| Exporter.Positions | zwoExporter.py:343 | Each name maps to its last position in the list. |
| Exporter.ChildIndices | zwoExporter.py:350 | The children's positions, failing exactly when a child is not in the map. |
| Exporter.MakeBones | zwoExporter.py:345-352 | One bone per armature bone, with its name and matrix, `ChildCount = len(ChildIndices)`, and each child's position. |
| Exporter.MakeSkeleton | zwoExporter.py:333-354 | Entity Type 6, HeaderType 5, and `BonesCount = len(Bones)`. Every child index points at a bone of that name. It fails exactly when a child is not in the bone list. |

## Left out

- The base entity header (zwoEntity) is not part of this model. `Mesh.DecodeMesh` starts where that header ends. The animation block starts after the two entity headers.
- zwoHelpers is not part of this model. The byte sizes of a transformer, an oriented bounding box and an animation transformer curve are parameters (`tsize`, `Sizes`), and their bytes are opaque.
- Floats are opaque four-byte words throughout, so float arithmetic is not modelled: the UV flip, weight normalisation as floating point, and matrix and quaternion decomposition.
- Bone weights in the exporter are exact reals, turned into words by a parameter. Rounding is not modelled.
- Strings are byte sequences. The cp1252 reading code page, the cp932 writing code page and XMC's UTF-8 decoding with replacement are not modelled. `Xmc.Text` maps one byte to one character.
- Mesh.EncodeEntityHead: the length word counts bytes, whereas the source writes `len(str)`, a character count. The two agree only for single-byte characters.
- Mesh.ExportedMeshHeader: the name's length word is its byte count, whereas the source writes `len(str)` (zwoMesh.py:61, 66); the stated header holds only for a name of single-byte characters.
- Mesh.ExportedMeshReadsBack: the material names' length words are byte counts, whereas zwoEntity3D.py:60 writes `len(str)`; the names read back as stated only when each is made of single-byte characters.
- Entity3D.EncodeStrsOk: "fits its length word" is measured in bytes, whereas zwoEntity3D.py:60 packs `len(m)`, a character count; the two agree only for single-byte characters.
- Entity3D.WriterParts: the length words of the material names, Param1, Param2 and the instance name are byte counts, whereas zwoEntity3D.py:60, 74, 76 and 88 write `len(str)`; the stated layout is the source's only for names of single-byte characters.
- Entity3D.WriterLength: each length word counts bytes, whereas the source writes `len(str)`, a character count of a string it then encodes in cp932, so for a name holding a multi-byte character the source's reader takes a different span. The length equation holds only for names of single-byte characters.
- Entity3D.WriterMirrors: the writer and the mirror both write byte-count length words, whereas the source writes `len(str)`; the source's writer matches the reader's inverse only for names of single-byte characters.
- Entity3D.WriterLayoutRoundTrip: the length words are byte counts, whereas the source writes `len(str)`; the source's reader takes the writer's output apart as stated only when each name's character count equals its byte count.
- CRC-32 is a parameter with results below 2^32, both in the registry merge and in the exporter's vertex hash. The exporter's hash of the vertex's text form is a parameter over the vertex key, so hash collisions between different vertices are allowed but not characterised.
- The registry is keyed by the hash value rather than its decimal text. The text is a one-to-one function of the value. Reading and writing the JSON files, the hard-coded paths and the progress messages are left out.
- Blender data extraction is not modelled. This covers modifiers, loop triangles, vertex groups, `calc_loop_triangles`, the material node graph and `calculate_obb`. A triangle arrives as its material index and its corners' data, and an armature as its bone names and children.
- The registration of new materials in `materials_list` (zwoExporter.py:130-132) is not modelled. The mesh's material names are an input.
- The exporter imports its mesh and Entity3D classes as `.zwoLib.zwoMesh` and `.zwoLib.zwoEntity3D` (zwoExporter.py:3-6). Those modules are taken to be zwoLib/zwo/zwoMesh.py and zwoLib/zwo/zwoEntity3D.py, whose defaults and writers this model follows. `Mesh.ExporterMeshAsWritten` and `Mesh.ExportedMeshUnwritable` rest on that identity.
- Xmc.Build: Python's recursion limit is not modelled. `build_xml_recursive` recurses once per tree level, so a node chain about 1000 deep raises RecursionError in the source, whereas `Build` returns the full text.
- The default fields of a fresh zwoMaterial and zwoEntity are not modelled. The five words of a type-6 entity head are an input (`EntityWords`), because zwoEntity is not part of this model.
- The importer's recursive bone walk (zwoImporter.py:269-294) is not modelled; it is Blender-bound. It has no cycle guard, and its `not BoneDict.get(name)` test treats a bone registered at index 0 as unvisited.
- `load_crc_dictionary`, `main` and `debug_print` in xmc.py are left out. So are the printing and logging elsewhere, and the numpy machinery, which is replaced by explicit slicing at computed offsets.
- MeshBuffers.GeometryLayoutsAgree: the writer's geometry (`GeometryOut`) holds one integer `unk`, as the exporter sets it. A geometry that was read holds a TransformerCount-tuple there, which the source writes element by element. That case is not modelled.
- Mesh.ExporterMeshAsWritten: requires fewer than 2^32 material names. The count field is a 32-bit word in the model, whereas the source would fail only when packing it.
- Mesh.ExporterMesh: requires fewer than 2^32 material names, as above.
- Mesh.MeshRoundTrip: proved only for one transformer and one vertex buffer, for a MaterialCount equal to the number of names, and with `flags2` bits 0x10000 and 0x20000 and `flags1` bit 0x20 clear. With more transformers the geometry layouts disagree (`MeshBuffers.GeometryLayoutsAgree`). With a different count, or any of those three bits set, the Entity3D writer emits a layout the reader does not take back: the count comes from MaterialCount (`Entity3D.CountMismatchTruncates`), and value1, value2 and unk5 are written but never read (`Entity3D.WriterLength`). So an AnimFrame mesh does not round-trip: its reader takes AnimFrame after the face buffer, while the writer put unk5 inside the header. The material names' length words are byte counts, whereas zwoEntity3D.py:60 writes `len(str)`, so the round trip is the source's only for names of single-byte characters.
- Exporter.SortByWeight: states the heaviest-first order and the permutation, but not that equal weights keep their input order, as Python's stable sort does.
- Exporter.ExportGeometry: states the flags, the layout and the index bounds. The hash properties of the vertices are stated by `Exporter.Deduplicate`, which it calls.

## Findings

| source | as written | input that shows it | evidently intended | confidence | as-written member | corrected member |
|---|---|---|---|---|---|---|
| zwoLib/zwo/zwoEntity3D.py:79-82 | The writer emits `unk2` where the reader stored EntityType, and `unk2` again for the extra word; a header that was read keeps `unk2` at its initial 0 | a header with EntityType 5, no materials and no optional fields, read and written back | the writer emits the EntityType (and the extra word) it read, mirroring the reader | medium, not executed | Entity3D.RewriteLosesEntityType | Entity3D.HeaderRoundTrip |
| zwoLib/zwo/zwoSkeletalAnimation.py:34-45 | With Flags bit 0x2 set the table is skipped but `self.Entries` is never assigned, so the pass over the entries raises | Flags 2, every count 0, the 56 skipped bytes and a zero curve count | a skipped table means no entries | high, not executed | SkeletalAnimation.SkippedTableExample | SkeletalAnimation.DecodeAnimation |
| zwoExporter.py:243-298 | `make_mesh` never assigns the mesh's `unk2` (nor `unk3`/`unk4` for MeshType 2) and `zwoMesh.__init__` does not set them, so `__br_write__` raises at its write of `unk2` | any mesh object `make_mesh` returns | the exporter gives unk2, unk3 and unk4 a value (zero) so that the mesh can be written | medium, not executed; rests on the modules the exporter imports being the zwoLib/zwo/zwoMesh.py and zwoLib/zwo/zwoEntity3D.py modelled here | Mesh.ExportedMeshUnwritable | Mesh.ExportedMeshReadsBack |

=== FILE: bytes.dfy ===
/** Byte-level primitives shared by every codec: bytes, opaque float words,
    fixed-width integers in either endianness, and a failure-compatible
    Result type for truncated streams and values that do not fit. */
module Bytes {

  newtype byte = x: int | 0 <= x < 256

  /** A 32-bit float, kept as the four bytes it occupies in the stream. */
  type Word = w: seq<byte> | |w| == 4 witness [0, 0, 0, 0]

  const ZERO_WORD: Word := [0, 0, 0, 0]

  const U16_LIMIT: nat := 0x1_0000
  const U32_LIMIT: nat := 0x1_0000_0000

  type u32 = x: nat | x < U32_LIMIT

  datatype Endian = Big | Little

  datatype Error =
    | Truncated          // fewer bytes left than a read asks for
    | OutOfRange         // a value does not fit the field it is written to
    | MissingField       // a flag promises a field the object does not carry
    | IndexError         // an index past the end of a list
    | MissingAttribute   // an attribute the code reads was never assigned

  datatype Result<+T> = Ok(value: T) | Err(error: Error) {
    predicate IsFailure() { Err? }

    function PropagateFailure<U>(): Result<U>
      requires Err?
    {
      Err(error)
    }

    function Extract(): T
      requires Ok?
    {
      value
    }
  }

  datatype Option<+T> = None | Some(value: T)

  /** A decoded value together with the position just after it. */
  datatype Read<+T> = Read(value: T, next: nat)

  /** The bit selected by a one-bit mask, as Python's `x & mask != 0`. */
  predicate Bit(x: nat, mask: nat)
    requires mask > 0
  {
    (x / mask) % 2 == 1
  }

  function Ind(b: bool): nat { if b then 1 else 0 }

  /** The length of `count` back-to-back blocks of `n` bytes. Spelled out
      by recursion so that reading a block of records never puts a product
      of two unknowns in front of the solver; `BlocksProduct` gives the
      closed form. */
  function Blocks(count: nat, n: nat): nat
  {
    if count == 0 then 0 else n + Blocks(count - 1, n)
  }

  lemma {:induction false} BlocksProduct(count: nat, n: nat)
    ensures Blocks(count, n) == count * n
  {
    if count > 0 {
      BlocksProduct(count - 1, n);
      assert count * n == n + (count - 1) * n;
    }
  }

  lemma {:induction false} MulLe(m: nat, a: nat, b: nat)
    requires a <= b
    ensures m * a <= m * b
  {
    var c := b - a;
    assert m * b == m * a + m * c;
  }

  /** Euclidean division has one quotient. */
  lemma {:induction false} DivUnique(x: nat, m: nat, d: nat)
    requires m > 0 && m * d <= x < m * d + m
    ensures x / m == d
  {
    var q := x / m;
    assert m * q <= x < m * q + m;
    if q < d {
      MulLe(m, q + 1, d);
    } else if q > d {
      MulLe(m, d + 1, q);
    }
  }

  /** A bit below `2 * m * k` reads the same in `x % (2 * m * k)` as in `x`;
      used with `m * k == 2048`, that is for bits 0..10. */
  lemma {:induction false} LowBit(x: nat, m: nat, k: nat)
    requires m > 0 && m * k == 2048 && k % 2 == 0
    ensures Bit(x % 2048, m) == Bit(x, m)
  {
    var q, r := x / 2048, x % 2048;
    ShiftedQuotient(x, m, k, q, r);
    var e, h := r / m, k / 2;
    assert k * q + e == 2 * (h * q) + e;
    EvenShift(h * q, e);
  }

  /** Dividing `2048 * q + r` by a divisor `m` of 2048 splits into the two parts. */
  lemma {:induction false} ShiftedQuotient(x: nat, m: nat, k: nat, q: nat, r: nat)
    requires m > 0 && m * k == 2048 && x == 2048 * q + r && r < 2048
    ensures x / m == k * q + r / m
  {
    var e := r / m;
    assert m * e <= r < m * e + m;
    assert m * (k * q + e) == 2048 * q + m * e by {
      assert m * (k * q + e) == (m * k) * q + m * e;
    }
    DivUnique(x, m, k * q + e);
  }

  lemma {:induction false} EvenShift(a: nat, e: nat)
    ensures (2 * a + e) % 2 == e % 2
  {
  }

  // ---------------------------------------------------------------
  // Fixed-width unsigned integers

  function BigU32(n: u32): (r: seq<byte>)
  {
    var q1 := n / 256;
    var q2 := q1 / 256;
    [(q2 / 256) as byte, (q2 % 256) as byte, (q1 % 256) as byte, (n % 256) as byte]
  }

  function BigU16(n: nat): (r: seq<byte>)
    requires n < U16_LIMIT
  {
    [(n / 0x100) as byte, (n % 256) as byte]
  }

  function Reverse(s: seq<byte>): (r: seq<byte>)
    ensures |r| == |s|
    ensures forall i :: 0 <= i < |s| ==> r[i] == s[|s| - 1 - i]
  {
    if |s| == 0 then [] else Reverse(s[1..]) + [s[0]]
  }

  function EncodeU32(n: u32, e: Endian): (r: seq<byte>)
    ensures |r| == 4
  {
    if e == Big then BigU32(n) else Reverse(BigU32(n))
  }

  function EncodeU16(n: nat, e: Endian): (r: seq<byte>)
    requires n < U16_LIMIT
    ensures |r| == 2
  {
    if e == Big then BigU16(n) else Reverse(BigU16(n))
  }

  function ValueU32(b: seq<byte>, e: Endian): (r: nat)
    requires |b| == 4
    ensures r < U32_LIMIT
  {
    if e == Big then
      (((b[0] as nat) * 256 + b[1] as nat) * 256 + b[2] as nat) * 256 + b[3] as nat
    else
      (((b[3] as nat) * 256 + b[2] as nat) * 256 + b[1] as nat) * 256 + b[0] as nat
  }

  function ValueU16(b: seq<byte>, e: Endian): (r: nat)
    requires |b| == 2
    ensures r < U16_LIMIT
  {
    if e == Big then (b[0] as nat) * 0x100 + b[1] as nat
    else (b[1] as nat) * 0x100 + b[0] as nat
  }

  /** Two's-complement reading of a 16-bit value, as `struct`'s `h`. */
  function Signed16(n: nat): (r: int)
    requires n < U16_LIMIT
    ensures -0x8000 <= r < 0x8000
    ensures r % U16_LIMIT == n
  {
    if n < 0x8000 then n else n - U16_LIMIT
  }

  lemma {:induction false} U32RoundTrip(n: u32, e: Endian)
    ensures ValueU32(EncodeU32(n, e), e) == n
  {
  }

  lemma {:induction false} U16RoundTrip(n: nat, e: Endian)
    requires n < U16_LIMIT
    ensures ValueU16(EncodeU16(n, e), e) == n
  {
  }

  // ---------------------------------------------------------------
  // Encoders that fail, as `struct.pack` does, on a value that does not fit

  function PutU32(n: nat, e: Endian): (r: Result<seq<byte>>)
    ensures r.Ok? <==> n < U32_LIMIT
    ensures r.Ok? ==> |r.value| == 4 && ValueU32(r.value, e) == n
  {
    if n < U32_LIMIT then
      U32RoundTrip(n, e);
      Ok(EncodeU32(n, e))
    else Err(OutOfRange)
  }

  function PutU16(n: nat, e: Endian): (r: Result<seq<byte>>)
    ensures r.Ok? <==> n < U16_LIMIT
    ensures r.Ok? ==> |r.value| == 2 && ValueU16(r.value, e) == n
  {
    if n < U16_LIMIT then
      U16RoundTrip(n, e);
      Ok(EncodeU16(n, e))
    else Err(OutOfRange)
  }

  /** A length-prefixed byte string: a big-endian uint32 count, then the bytes. */
  function PutStr(s: seq<byte>): (r: Result<seq<byte>>)
    ensures r.Ok? <==> |s| < U32_LIMIT
    ensures r.Ok? ==> |r.value| == 4 + |s| && r.value[4..] == s
  {
    var n :- PutU32(|s|, Big);
    Ok(n + s)
  }

  // ---------------------------------------------------------------
  // Cursor reads over an immutable buffer

  function ReadBytes(s: seq<byte>, pos: nat, n: nat): (r: Result<Read<seq<byte>>>)
    ensures r.Ok? <==> pos + n <= |s|
    ensures r.Ok? ==> r.value.next == pos + n && r.value.value == s[pos..pos + n]
  {
    if pos + n <= |s| then Ok(Read(s[pos..pos + n], pos + n)) else Err(Truncated)
  }

  function ReadWord(s: seq<byte>, pos: nat): (r: Result<Read<Word>>)
    ensures r.Ok? <==> pos + 4 <= |s|
    ensures r.Ok? ==> r.value.next == pos + 4 && r.value.value == s[pos..pos + 4]
  {
    if pos + 4 <= |s| then Ok(Read(s[pos..pos + 4], pos + 4)) else Err(Truncated)
  }

  function ReadU32(s: seq<byte>, pos: nat, e: Endian): (r: Result<Read<u32>>)
    ensures r.Ok? <==> pos + 4 <= |s|
    ensures r.Ok? ==> r.value.next == pos + 4
    ensures r.Ok? ==> EncodeU32(r.value.value, e) == s[pos..pos + 4]
  {
    if pos + 4 <= |s| then
      var v := ValueU32(s[pos..pos + 4], e);
      U32Inverse(s[pos..pos + 4], e);
      Ok(Read(v, pos + 4))
    else Err(Truncated)
  }

  function ReadU16(s: seq<byte>, pos: nat, e: Endian): (r: Result<Read<nat>>)
    ensures r.Ok? <==> pos + 2 <= |s|
    ensures r.Ok? ==> r.value.next == pos + 2 && r.value.value < U16_LIMIT
    ensures r.Ok? ==> EncodeU16(r.value.value, e) == s[pos..pos + 2]
  {
    if pos + 2 <= |s| then
      var v := ValueU16(s[pos..pos + 2], e);
      U16Inverse(s[pos..pos + 2], e);
      Ok(Read(v, pos + 2))
    else Err(Truncated)
  }

  /** A big-endian uint32 length followed by that many bytes. */
  function ReadStr(s: seq<byte>, pos: nat): (r: Result<Read<seq<byte>>>)
    ensures r.Ok? ==> pos + 4 <= r.value.next <= |s|
    ensures r.Ok? ==> r.value.next == pos + 4 + |r.value.value|
    ensures r.Ok? ==> s[pos + 4..r.value.next] == r.value.value
    ensures r.Ok? ==> ValueU32(s[pos..pos + 4], Big) == |r.value.value|
  {
    var n :- ReadU32(s, pos, Big);
    U32RoundTrip(n.value, Big);
    ReadBytes(s, n.next, n.value)
  }

  lemma {:induction false} BigU32Inverse(b: seq<byte>)
    requires |b| == 4
    ensures BigU32(ValueU32(b, Big)) == b
  {
    var v := ValueU32(b, Big);
    var q1 := ((b[0] as nat) * 256 + b[1] as nat) * 256 + b[2] as nat;
    var q2 := (b[0] as nat) * 256 + b[1] as nat;
    assert v / 256 == q1 && v % 256 == b[3] as nat;
    assert q1 / 256 == q2 && q1 % 256 == b[2] as nat;
    assert q2 / 256 == b[0] as nat && q2 % 256 == b[1] as nat;
  }

  lemma {:induction false} U32Inverse(b: seq<byte>, e: Endian)
    requires |b| == 4
    ensures EncodeU32(ValueU32(b, e), e) == b
  {
    if e == Big {
      BigU32Inverse(b);
    } else {
      var rb := Reverse(b);
      assert ValueU32(b, Little) == ValueU32(rb, Big);
      BigU32Inverse(rb);
      assert Reverse(rb) == b;
    }
  }

  lemma {:induction false} U16Inverse(b: seq<byte>, e: Endian)
    requires |b| == 2
    ensures EncodeU16(ValueU16(b, e), e) == b
  {
  }

  // ---------------------------------------------------------------
  // Reading back what was written

  /** Restates a read with an equal value and an equal end position. */
  lemma {:induction false} ReadAs<T>(r: Result<Read<T>>, v: T, w: T, a: nat, b: nat)
    requires r == Ok(Read(v, a))
    requires v == w && a == b
    ensures r == Ok(Read(w, b))
  {
  }

  /** `out` occurs in `s` at offset `p`, byte by byte. */
  predicate At(s: seq<byte>, p: nat, out: seq<byte>)
    decreases |out|
  {
    if |out| == 0 then p <= |s|
    else p < |s| && s[p] == out[0] && At(s, p + 1, out[1..])
  }

  /** An occurrence is a slice of the stream. */
  lemma {:induction false} AtSlice(s: seq<byte>, p: nat, out: seq<byte>)
    ensures At(s, p, out) <==> p + |out| <= |s| && s[p..p + |out|] == out
    decreases |out|
  {
    if |out| > 0 {
      AtSlice(s, p + 1, out[1..]);
      if p + |out| <= |s| {
        assert s[p..p + |out|] == [s[p]] + s[p + 1..p + 1 + |out[1..]|];
        assert out == [out[0]] + out[1..];
        if s[p..p + |out|] == out {
          assert s[p] == s[p..p + |out|][0];
        }
      }
    }
  }

  /** Each half of an occurrence occurs where it should. */
  lemma {:induction false} AtSplit(s: seq<byte>, p: nat, a: seq<byte>, b: seq<byte>)
    requires At(s, p, a + b)
    ensures At(s, p, a) && At(s, p + |a|, b)
  {
    AtSlice(s, p, a + b);
    AtSlice(s, p, a);
    AtSlice(s, p + |a|, b);
    var w := s[p..p + |a| + |b|];
    assert s[p..p + |a|] == w[..|a|];
    assert s[p + |a|..p + |a| + |b|] == w[|a|..];
    assert (a + b)[..|a|] == a && (a + b)[|a|..] == b;
  }

  /** Every buffer occurs in itself framed by any prefix and suffix. */
  lemma {:induction false} AtFramed(pre: seq<byte>, out: seq<byte>, post: seq<byte>)
    ensures At(pre + out + post, |pre|, out)
  {
    AtSlice(pre + out + post, |pre|, out);
    assert (pre + out + post)[|pre|..|pre| + |out|] == out;
  }

  lemma {:induction false} ReadU32At(s: seq<byte>, p: nat, n: u32, e: Endian)
    requires At(s, p, EncodeU32(n, e))
    ensures ReadU32(s, p, e) == Ok(Read(n, p + 4))
  {
    AtSlice(s, p, EncodeU32(n, e));
    U32RoundTrip(n, e);
  }

  /** A word followed by anything: the word reads back and the rest
      starts right after it. */
  lemma {:induction false} ReadU32Then(s: seq<byte>, p: nat, n: u32, e: Endian, rest: seq<byte>)
    requires At(s, p, EncodeU32(n, e) + rest)
    ensures ReadU32(s, p, e) == Ok(Read(n, p + 4))
    ensures At(s, p + 4, rest)
  {
    AtSplit(s, p, EncodeU32(n, e), rest);
    ReadU32At(s, p, n, e);
  }

  /** Two words followed by anything. */
  lemma {:induction false} ReadTwoU32(s: seq<byte>, p: nat, a: u32, b: u32, e: Endian, rest: seq<byte>)
    requires At(s, p, EncodeU32(a, e) + EncodeU32(b, e) + rest)
    ensures ReadU32(s, p, e) == Ok(Read(a, p + 4))
    ensures ReadU32(s, p + 4, e) == Ok(Read(b, p + 8))
    ensures At(s, p + 8, rest)
  {
    var x, y := EncodeU32(a, e), EncodeU32(b, e);
    assert x + y + rest == x + (y + rest);
    ReadU32Then(s, p, a, e, y + rest);
    ReadU32Then(s, p + 4, b, e, rest);
  }

  /** Three words followed by anything. */
  lemma {:induction false} ReadThreeU32(s: seq<byte>, p: nat, a: u32, b: u32, c: u32, e: Endian, rest: seq<byte>)
    requires At(s, p, EncodeU32(a, e) + EncodeU32(b, e) + EncodeU32(c, e) + rest)
    ensures ReadU32(s, p, e) == Ok(Read(a, p + 4))
    ensures ReadU32(s, p + 4, e) == Ok(Read(b, p + 8))
    ensures ReadU32(s, p + 8, e) == Ok(Read(c, p + 12))
    ensures At(s, p + 12, rest)
  {
    var x, y, z := EncodeU32(a, e), EncodeU32(b, e), EncodeU32(c, e);
    assert x + y + z + rest == x + y + (z + rest);
    ReadTwoU32(s, p, a, b, e, z + rest);
    ReadU32Then(s, p + 8, c, e, rest);
  }

  lemma {:induction false} ReadU16At(s: seq<byte>, p: nat, n: nat, e: Endian)
    requires n < U16_LIMIT && At(s, p, EncodeU16(n, e))
    ensures ReadU16(s, p, e) == Ok(Read(n, p + 2))
  {
    AtSlice(s, p, EncodeU16(n, e));
    U16RoundTrip(n, e);
  }

  lemma {:induction false} ReadBytesAt(s: seq<byte>, p: nat, b: seq<byte>)
    requires At(s, p, b)
    ensures ReadBytes(s, p, |b|) == Ok(Read(b, p + |b|))
  {
    AtSlice(s, p, b);
  }

  /** A length-prefixed string reads back from wherever it was written. */
  lemma {:induction false} ReadStrAt(s: seq<byte>, p: nat, b: seq<byte>)
    requires |b| < U32_LIMIT && At(s, p, EncodeU32(|b|, Big) + b)
    ensures PutStr(b) == Ok(EncodeU32(|b|, Big) + b)
    ensures ReadStr(s, p) == Ok(Read(b, p + 4 + |b|))
  {
    AtSplit(s, p, EncodeU32(|b|, Big), b);
    ReadU32At(s, p, |b|, Big);
    ReadBytesAt(s, p + 4, b);
  }

  /** Whatever `PutStr` wrote reads back as the same string. */
  lemma {:induction false} ReadStrBack(s: seq<byte>, p: nat, b: seq<byte>, out: seq<byte>)
    requires PutStr(b) == Ok(out) && At(s, p, out)
    ensures ReadStr(s, p) == Ok(Read(b, p + |out|))
  {
    assert out == EncodeU32(|b|, Big) + b;
    ReadStrAt(s, p, b);
  }

  lemma {:induction false} Assoc(a: seq<byte>, b: seq<byte>, c: seq<byte>)
    ensures a + (b + c) == a + b + c
  {
  }
}

=== FILE: entity3d.dfy ===
/** The Entity3D header that opens every 3D entity (zwoLib/zwo/zwoEntity3D.py):
    a list of material names, two flag words, an unknown word, and a chain
    of optional fields, each present exactly when its bit of the first
    flag word is set. Big-endian throughout. */
module Entity3D {
  import opened Bytes

  // ---------------------------------------------------------------
  // Flag bits

  const GEOMETRY: nat := 0x1
  const INSTANCE: nat := 0x2
  const PARENT_SIBLING: nat := 0x4
  const READ_EXTRA: nat := 0x8
  const FLAG_8C: nat := 0x10
  const ANIM_FRAME: nat := 0x20
  const EXTRA_INT: nat := 0x40
  const DISABLE_SOMETHING: nat := 0x10000
  const ENABLE_SOMETHING: nat := 0x20000

  /** The booleans the reader derives from the two flag words. */
  datatype Derived = Derived(
    hasGeometry: bool,
    hasInstance: bool,
    hasParentSibling: bool,
    readExtra: bool,
    hasAnimFrame: bool,
    hasExtraInt: bool,
    disableSomething: bool,
    enableSomething: bool,
    flag88: bool,
    flag8C: bool)

  function Pow2(k: nat): (r: nat)
    ensures r > 0
  {
    if k == 0 then 1 else 2 * Pow2(k - 1)
  }

  /** `(x >> k) & 1`. */
  function ShiftBit(x: nat, k: nat): nat
  {
    (x / Pow2(k)) % 2
  }

  /** The booleans derived from the two flag words; `flag88` and `flag8C`
      are bits 3 and 4 spelt as shifts, so `flag88` repeats `readExtra`.
      `DerivedGates` and `DerivedGatesConsume` say what the gates decide. */
  function DerivedOf(flags1: nat, flags2: nat): Derived
  {
    Derived(
      Bit(flags1, GEOMETRY), Bit(flags1, INSTANCE), Bit(flags1, PARENT_SIBLING),
      Bit(flags1, READ_EXTRA), Bit(flags1, ANIM_FRAME), Bit(flags1, EXTRA_INT),
      Bit(flags2, DISABLE_SOMETHING), Bit(flags2, ENABLE_SOMETHING),
      ShiftBit(flags1, 3) == 1, ShiftBit(flags1, 4) == 1)
  }

  // ---------------------------------------------------------------
  // The header as the reader stores it

  datatype Params = Params(param1: seq<byte>, param2: seq<byte>)

  /** InstancedObjectName and the WorldTransformer's bytes. */
  datatype Instance = Instance(name: seq<byte>, transformer: seq<byte>)

  /** The flag-gated fields after the three words. `meshType` keeps its
      initial 0 when the geometry bit is clear. */
  datatype Tail = Tail(
    params: Option<Params>,
    entityType: u32,
    extra: Option<u32>,
    meshType: u32,
    instance: Option<Instance>)

  datatype Header = Header(
    materialCount: u32,
    materials: seq<seq<byte>>,
    flags1: u32,
    flags2: u32,
    unk: u32,
    tail: Tail)

  /** Every optional field is present exactly when its bit is set, and an
      instance's transformer has the transformer size. */
  predicate TailFits(t: Tail, flags1: nat, tsize: nat)
  {
    && (t.params.Some? <==> Bit(flags1, PARENT_SIBLING))
    && (t.extra.Some? <==> Bit(flags1, EXTRA_INT))
    && (!Bit(flags1, GEOMETRY) ==> t.meshType == 0)
    && (t.instance.Some? <==> Bit(flags1, INSTANCE))
    && (t.instance.Some? ==> |t.instance.value.transformer| == tsize)
  }

  predicate WellFormed(h: Header, tsize: nat)
  {
    |h.materials| == h.materialCount && TailFits(h.tail, h.flags1, tsize)
  }

  function StrsSize(ms: seq<seq<byte>>): nat
  {
    if |ms| == 0 then 0 else 4 + |ms[0]| + StrsSize(ms[1..])
  }

  function TailSize(t: Tail, flags1: nat): nat
  {
    (if t.params.Some? then 8 + |t.params.value.param1| + |t.params.value.param2| else 0)
    + 4
    + (if t.extra.Some? then 4 else 0)
    + (if Bit(flags1, GEOMETRY) then 4 else 0)
    + (if t.instance.Some? then 4 + |t.instance.value.name| + |t.instance.value.transformer| else 0)
  }

  /** Bytes a header occupies in the stream. */
  function HeaderSize(h: Header): nat
  {
    4 + StrsSize(h.materials) + 12 + TailSize(h.tail, h.flags1)
  }

  // ---------------------------------------------------------------
  // Reading

  /** `n` length-prefixed strings, back to back. */
  function ReadStrs(s: seq<byte>, pos: nat, n: nat): (r: Result<Read<seq<seq<byte>>>>)
    ensures r.Ok? ==> |r.value.value| == n
    decreases n
  {
    if n == 0 then Ok(Read([], pos))
    else
      var first :- ReadStr(s, pos);
      var rest :- ReadStrs(s, first.next, n - 1);
      Ok(Read([first.value] + rest.value, rest.next))
  }

  function ReadParams(s: seq<byte>, pos: nat, present: bool): (r: Result<Read<Option<Params>>>)
    ensures r.Ok? ==> (r.value.value.Some? <==> present)
    ensures r.Ok? && present ==> r.value.next == pos + 8 + |r.value.value.value.param1| + |r.value.value.value.param2|
    ensures r.Ok? && !present ==> r.value.next == pos
  {
    if !present then Ok(Read(None, pos))
    else
      var a :- ReadStr(s, pos);
      var b :- ReadStr(s, a.next);
      Ok(Read(Some(Params(a.value, b.value)), b.next))
  }

  function ReadOptU32(s: seq<byte>, pos: nat, present: bool): (r: Result<Read<Option<u32>>>)
    ensures r.Ok? ==> (r.value.value.Some? <==> present)
    ensures r.Ok? ==> r.value.next == pos + (if present then 4 else 0)
  {
    if !present then Ok(Read(None, pos))
    else
      var v :- ReadU32(s, pos, Big);
      Ok(Read(Some(v.value), v.next))
  }

  function ReadInstance(s: seq<byte>, pos: nat, present: bool, tsize: nat): (r: Result<Read<Option<Instance>>>)
    ensures r.Ok? ==> (r.value.value.Some? <==> present)
    ensures r.Ok? && present ==> |r.value.value.value.transformer| == tsize
    ensures r.Ok? && present ==> r.value.next == pos + 4 + |r.value.value.value.name| + tsize
    ensures r.Ok? && !present ==> r.value.next == pos
  {
    if !present then Ok(Read(None, pos))
    else
      var name :- ReadStr(s, pos);
      var t :- ReadBytes(s, name.next, tsize);
      Ok(Read(Some(Instance(name.value, t.value)), t.next))
  }

  function MeshTypeOf(o: Option<u32>): u32
  {
    if o.Some? then o.value else 0
  }

  /** The optional chain: Param1 and Param2, EntityType, the extra word,
      MeshType, then the instance name and transformer. Only four bits of
      `flags1` are consulted and `flags2` not at all. */
  function DecodeTail(s: seq<byte>, pos: nat, flags1: nat, tsize: nat): (r: Result<Read<Tail>>)
    ensures r.Ok? ==> TailFits(r.value.value, flags1, tsize)
    ensures r.Ok? ==> r.value.next == pos + TailSize(r.value.value, flags1)
  {
    var p :- ReadParams(s, pos, Bit(flags1, PARENT_SIBLING));
    var t :- ReadU32(s, p.next, Big);
    var x :- ReadOptU32(s, t.next, Bit(flags1, EXTRA_INT));
    var m :- ReadOptU32(s, x.next, Bit(flags1, GEOMETRY));
    var i :- ReadInstance(s, m.next, Bit(flags1, INSTANCE), tsize);
    Ok(Read(Tail(p.value, t.value, x.value, MeshTypeOf(m.value), i.value), i.next))
  }

  /** `tsize` is the byte size of a transformer, whose layout is not part
      of this model. */
  function DecodeEntity3D(s: seq<byte>, pos: nat, tsize: nat): (r: Result<Read<Header>>)
    ensures r.Ok? ==> WellFormed(r.value.value, tsize)
  {
    var count :- ReadU32(s, pos, Big);
    var mats :- ReadStrs(s, count.next, count.value);
    var f1 :- ReadU32(s, mats.next, Big);
    var f2 :- ReadU32(s, f1.next, Big);
    var unk :- ReadU32(s, f2.next, Big);
    var tail :- DecodeTail(s, unk.next, f1.value, tsize);
    Ok(Read(Header(count.value, mats.value, f1.value, f2.value, unk.value, tail.value), tail.next))
  }

  /** Only the four gate bits of `flags1` decide what the tail consumes:
      two flag words that agree on bits 0x1, 0x2, 0x4 and 0x40 give the
      same tail and the same next position. */
  lemma {:induction false} OnlyGatesConsume(s: seq<byte>, pos: nat, f: nat, g: nat, tsize: nat)
    requires Bit(f, PARENT_SIBLING) == Bit(g, PARENT_SIBLING) && Bit(f, EXTRA_INT) == Bit(g, EXTRA_INT)
    requires Bit(f, GEOMETRY) == Bit(g, GEOMETRY) && Bit(f, INSTANCE) == Bit(g, INSTANCE)
    ensures DecodeTail(s, pos, f, tsize) == DecodeTail(s, pos, g, tsize)
  {
  }

  /** The flag word that sets only the four gates the reader acts on. */
  function GateWord(d: Derived): nat
  {
    (if d.hasGeometry then GEOMETRY else 0) + (if d.hasInstance then INSTANCE else 0)
    + (if d.hasParentSibling then PARENT_SIBLING else 0) + (if d.hasExtraInt then EXTRA_INT else 0)
  }

  lemma {:induction false} GateWordBits(d: Derived)
    ensures Bit(GateWord(d), GEOMETRY) == d.hasGeometry
    ensures Bit(GateWord(d), INSTANCE) == d.hasInstance
    ensures Bit(GateWord(d), PARENT_SIBLING) == d.hasParentSibling
    ensures Bit(GateWord(d), EXTRA_INT) == d.hasExtraInt
  {
  }

  /** Of the booleans derived from the two flag words, only the four gates
      decide what the tail reads: the tail is the one the gates alone
      would give, so `readExtra`, `hasAnimFrame`, the two `flags2`
      booleans and the two shifted bits consume nothing. */
  lemma {:induction false} DerivedGatesConsume(s: seq<byte>, pos: nat, flags1: nat, flags2: nat, tsize: nat)
    ensures DecodeTail(s, pos, flags1, tsize) == DecodeTail(s, pos, GateWord(DerivedOf(flags1, flags2)), tsize)
  {
    var d := DerivedOf(flags1, flags2);
    GateWordBits(d);
    OnlyGatesConsume(s, pos, flags1, GateWord(d), tsize);
  }

  /** Each gate the reader derives is exactly the presence of the field
      it guards, and the header spans the fields the gates admit. */
  lemma {:induction false} DerivedGates(s: seq<byte>, pos: nat, tsize: nat)
    requires DecodeEntity3D(s, pos, tsize).Ok?
    ensures var h := DecodeEntity3D(s, pos, tsize).value.value;
      var d := DerivedOf(h.flags1, h.flags2);
      && (h.tail.params.Some? <==> d.hasParentSibling)
      && (h.tail.extra.Some? <==> d.hasExtraInt)
      && (h.tail.instance.Some? <==> d.hasInstance)
      && (!d.hasGeometry ==> h.tail.meshType == 0)
      && DecodeEntity3D(s, pos, tsize).value.next == pos + 4 + StrsSize(h.materials) + 12
           + (if d.hasParentSibling then 8 + |h.tail.params.value.param1| + |h.tail.params.value.param2| else 0)
           + 4
           + (if d.hasExtraInt then 4 else 0)
           + (if d.hasGeometry then 4 else 0)
           + (if d.hasInstance then 4 + |h.tail.instance.value.name| + tsize else 0)
  {
    HeaderExtent(s, pos, tsize);
  }

  lemma {:induction false} ReadStrsExtent(s: seq<byte>, pos: nat, n: nat)
    requires ReadStrs(s, pos, n).Ok?
    ensures ReadStrs(s, pos, n).value.next == pos + StrsSize(ReadStrs(s, pos, n).value.value)
    decreases n
  {
    if n > 0 {
      var first := ReadStr(s, pos).value;
      ReadStrsExtent(s, first.next, n - 1);
      var rest := ReadStrs(s, first.next, n - 1).value;
      assert ([first.value] + rest.value)[1..] == rest.value;
    }
  }

  lemma {:induction false} HeaderExtentSteps(s: seq<byte>, pos: nat, tsize: nat, count: u32, mats: seq<seq<byte>>, q: nat)
    requires ReadU32(s, pos, Big) == Ok(Read(count, pos + 4))
    requires ReadStrs(s, pos + 4, count) == Ok(Read(mats, q))
    requires DecodeEntity3D(s, pos, tsize).Ok?
    ensures q == pos + 4 + StrsSize(mats) ==>
      DecodeEntity3D(s, pos, tsize).value.next == pos + HeaderSize(DecodeEntity3D(s, pos, tsize).value.value)
  {
    hide ReadU32, ReadStrs, DecodeTail, ReadStr, EncodeU32, TailSize, StrsSize;
  }

  /** A decoded header spans exactly `HeaderSize` bytes. */
  lemma {:induction false} HeaderExtent(s: seq<byte>, pos: nat, tsize: nat)
    requires DecodeEntity3D(s, pos, tsize).Ok?
    ensures DecodeEntity3D(s, pos, tsize).value.next == pos + HeaderSize(DecodeEntity3D(s, pos, tsize).value.value)
  {
    var count := ReadU32(s, pos, Big).value.value;
    var mats := ReadStrs(s, pos + 4, count).value;
    ReadStrsExtent(s, pos + 4, count);
    HeaderExtentSteps(s, pos, tsize, count, mats.value, mats.next);
  }

  // ---------------------------------------------------------------
  // Writing what the reader stored

  function EncodeStrs(ms: seq<seq<byte>>): (r: Result<seq<byte>>)
    ensures r.Ok? ==> |r.value| == StrsSize(ms)
  {
    if |ms| == 0 then Ok([])
    else
      var a :- PutStr(ms[0]);
      var b :- EncodeStrs(ms[1..]);
      Ok(a + b)
  }

  function EncodeParams(o: Option<Params>): (r: Result<seq<byte>>)
  {
    if o.None? then Ok([])
    else
      var a :- PutStr(o.value.param1);
      var b :- PutStr(o.value.param2);
      Ok(a + b)
  }

  function EncodeOptU32(o: Option<u32>): seq<byte>
  {
    if o.None? then [] else EncodeU32(o.value, Big)
  }

  function EncodeInstance(o: Option<Instance>): (r: Result<seq<byte>>)
  {
    if o.None? then Ok([])
    else
      var name :- PutStr(o.value.name);
      Ok(name + o.value.transformer)
  }

  function EncodeTail(t: Tail, flags1: nat): (r: Result<seq<byte>>)
    ensures r.Ok? ==> |r.value| == TailSize(t, flags1)
  {
    var params :- EncodeParams(t.params);
    var inst :- EncodeInstance(t.instance);
    var mesh := EncodeOptU32(if Bit(flags1, GEOMETRY) then Some(t.meshType) else None);
    Ok(params + EncodeU32(t.entityType, Big) + EncodeOptU32(t.extra) + mesh + inst)
  }

  /** The writer that mirrors the reader field for field. */
  function EncodeHeader(h: Header): (r: Result<seq<byte>>)
    ensures r.Ok? ==> |r.value| == HeaderSize(h)
  {
    var count :- PutU32(|h.materials|, Big);
    var mats :- EncodeStrs(h.materials);
    var tail :- EncodeTail(h.tail, h.flags1);
    Ok(count + mats + EncodeU32(h.flags1, Big) + EncodeU32(h.flags2, Big) + EncodeU32(h.unk, Big) + tail)
  }

  /** The mirror writer fails only on a string whose length does not fit
      its 32-bit prefix. */
  predicate StrsFit(ms: seq<seq<byte>>)
  {
    forall i :: 0 <= i < |ms| ==> |ms[i]| < U32_LIMIT
  }

  lemma {:induction false} EncodeStrsOk(ms: seq<seq<byte>>)
    ensures EncodeStrs(ms).Ok? <==> StrsFit(ms)
    decreases |ms|
  {
    if |ms| > 0 {
      EncodeStrsOk(ms[1..]);
      assert StrsFit(ms) <==> |ms[0]| < U32_LIMIT && StrsFit(ms[1..]) by {
        if |ms[0]| < U32_LIMIT && StrsFit(ms[1..]) {
          forall i | 0 <= i < |ms|
            ensures |ms[i]| < U32_LIMIT
          {
            if i > 0 { assert ms[i] == ms[1..][i - 1]; }
          }
        }
        if StrsFit(ms) {
          forall i | 0 <= i < |ms[1..]|
            ensures |ms[1..][i]| < U32_LIMIT
          {
            assert ms[1..][i] == ms[i + 1];
          }
        }
      }
    }
  }

  // ---------------------------------------------------------------
  // Reading back what the mirror writer wrote

  lemma {:induction false} StrsCons(ms: seq<seq<byte>>, b: seq<byte>) returns (first: seq<byte>, rest: seq<byte>)
    requires |ms| > 0 && EncodeStrs(ms) == Ok(b)
    ensures PutStr(ms[0]) == Ok(first) && EncodeStrs(ms[1..]) == Ok(rest) && b == first + rest
  {
    first := PutStr(ms[0]).value;
    rest := EncodeStrs(ms[1..]).value;
  }

  lemma {:induction false} ReadStrsStep(s: seq<byte>, p: nat, ms: seq<seq<byte>>, first: seq<byte>, rest: seq<byte>)
    requires |ms| > 0
    requires PutStr(ms[0]) == Ok(first) && At(s, p, first)
    requires ReadStrs(s, p + |first|, |ms[1..]|) == Ok(Read(ms[1..], p + |first| + |rest|))
    ensures ReadStrs(s, p, |ms|) == Ok(Read(ms, p + |first + rest|))
  {
    hide PutStr, At, EncodeU32, ReadU32;
    ReadStrBack(s, p, ms[0], first);
    assert [ms[0]] + ms[1..] == ms;
  }

  lemma {:induction false} StrsRoundTrip(ms: seq<seq<byte>>, b: seq<byte>, s: seq<byte>, p: nat)
    requires EncodeStrs(ms) == Ok(b) && At(s, p, b)
    ensures ReadStrs(s, p, |ms|) == Ok(Read(ms, p + |b|))
    decreases |ms|
  {
    hide ReadStrs, EncodeStrs, PutStr, ReadStr, At, EncodeU32, ReadU32, StrsSize;
    if |ms| == 0 {
      NoStrs(ms, b, s, p);
    } else {
      var first, rest := StrsCons(ms, b);
      AtSplit(s, p, first, rest);
      StrsRoundTrip(ms[1..], rest, s, p + |first|);
      ReadStrsStep(s, p, ms, first, rest);
    }
  }

  lemma {:induction false} NoStrs(ms: seq<seq<byte>>, b: seq<byte>, s: seq<byte>, p: nat)
    requires |ms| == 0 && EncodeStrs(ms) == Ok(b)
    ensures ReadStrs(s, p, |ms|) == Ok(Read(ms, p + |b|))
  {
    assert b == [] && ms == [];
  }

  lemma {:induction false} ParamsRoundTrip(o: Option<Params>, b: seq<byte>, s: seq<byte>, p: nat)
    requires EncodeParams(o) == Ok(b) && At(s, p, b)
    ensures ReadParams(s, p, o.Some?) == Ok(Read(o, p + |b|))
  {
    if o.Some? {
      var x, y := PutStr(o.value.param1).value, PutStr(o.value.param2).value;
      assert b == x + y;
      hide PutStr, PutU32, EncodeU32, ReadU32, ReadBytes, At;
      AtSplit(s, p, x, y);
      ReadStrBack(s, p, o.value.param1, x);
      ReadStrBack(s, p + |x|, o.value.param2, y);
    }
  }

  lemma {:induction false} OptU32RoundTrip(o: Option<u32>, s: seq<byte>, p: nat)
    requires At(s, p, EncodeOptU32(o))
    ensures ReadOptU32(s, p, o.Some?) == Ok(Read(o, p + |EncodeOptU32(o)|))
  {
    if o.Some? {
      ReadU32At(s, p, o.value, Big);
    }
  }

  lemma {:induction false} InstanceRoundTrip(o: Option<Instance>, tsize: nat, b: seq<byte>, s: seq<byte>, p: nat)
    requires o.Some? ==> |o.value.transformer| == tsize
    requires EncodeInstance(o) == Ok(b) && At(s, p, b)
    ensures ReadInstance(s, p, o.Some?, tsize) == Ok(Read(o, p + |b|))
  {
    if o.Some? {
      var x := PutStr(o.value.name).value;
      assert b == x + o.value.transformer;
      AtSplit(s, p, x, o.value.transformer);
      ReadStrBack(s, p, o.value.name, x);
      ReadBytesAt(s, p + |x|, o.value.transformer);
    }
  }

  lemma {:induction false} DecodeTailSteps(s: seq<byte>, p: nat, flags1: nat, tsize: nat, t: Tail,
                                           mesh: Option<u32>, p1: nat, p2: nat, p3: nat, next: nat)
    requires ReadParams(s, p, Bit(flags1, PARENT_SIBLING)) == Ok(Read(t.params, p1))
    requires ReadU32(s, p1, Big) == Ok(Read(t.entityType, p1 + 4))
    requires ReadOptU32(s, p1 + 4, Bit(flags1, EXTRA_INT)) == Ok(Read(t.extra, p2))
    requires ReadOptU32(s, p2, Bit(flags1, GEOMETRY)) == Ok(Read(mesh, p3))
    requires MeshTypeOf(mesh) == t.meshType
    requires ReadInstance(s, p3, Bit(flags1, INSTANCE), tsize) == Ok(Read(t.instance, next))
    ensures DecodeTail(s, p, flags1, tsize) == Ok(Read(t, next))
  {
  }

  lemma {:induction false} TailParts(t: Tail, flags1: nat, b: seq<byte>) returns (params: seq<byte>, mesh: Option<u32>, inst: seq<byte>)
    requires EncodeTail(t, flags1) == Ok(b)
    ensures EncodeParams(t.params) == Ok(params) && EncodeInstance(t.instance) == Ok(inst)
    ensures mesh == (if Bit(flags1, GEOMETRY) then Some(t.meshType) else None)
    ensures b == params + EncodeU32(t.entityType, Big) + EncodeOptU32(t.extra) + EncodeOptU32(mesh) + inst
  {
    params := EncodeParams(t.params).value;
    inst := EncodeInstance(t.instance).value;
    mesh := if Bit(flags1, GEOMETRY) then Some(t.meshType) else None;
  }

  lemma {:induction false} TailRoundTrip(t: Tail, flags1: nat, tsize: nat, b: seq<byte>, s: seq<byte>, p: nat)
    requires TailFits(t, flags1, tsize)
    requires EncodeTail(t, flags1) == Ok(b) && At(s, p, b)
    ensures DecodeTail(s, p, flags1, tsize) == Ok(Read(t, p + |b|))
  {
    hide DecodeTail, EncodeTail, ReadParams, ReadOptU32, ReadInstance, EncodeParams, EncodeInstance, EncodeOptU32, EncodeU32, ReadU32, At, Bit, TailSize, PutStr, ReadStr, ReadBytes;
    var params, mesh, inst := TailParts(t, flags1, b);
    var et, ex, ms := EncodeU32(t.entityType, Big), EncodeOptU32(t.extra), EncodeOptU32(mesh);
    AtSplit(s, p, params + et + ex + ms, inst);
    AtSplit(s, p, params + et + ex, ms);
    AtSplit(s, p, params + et, ex);
    AtSplit(s, p, params, et);
    var p1 := p + |params|;
    ParamsRoundTrip(t.params, params, s, p);
    ReadU32At(s, p1, t.entityType, Big);
    OptU32RoundTrip(t.extra, s, p1 + 4);
    OptU32RoundTrip(mesh, s, p1 + 4 + |ex|);
    InstanceRoundTrip(t.instance, tsize, inst, s, p1 + 4 + |ex| + |ms|);
    DecodeTailSteps(s, p, flags1, tsize, t, mesh, p1, p1 + 4 + |ex|, p1 + 4 + |ex| + |ms|, p + |b|);
  }

  lemma {:induction false} HeaderParts(h: Header, b: seq<byte>) returns (mats: seq<byte>, tail: seq<byte>)
    requires EncodeHeader(h) == Ok(b)
    ensures |h.materials| < U32_LIMIT
    ensures EncodeStrs(h.materials) == Ok(mats) && EncodeTail(h.tail, h.flags1) == Ok(tail)
    ensures b == EncodeU32(|h.materials|, Big) + mats + EncodeU32(h.flags1, Big) + EncodeU32(h.flags2, Big) + EncodeU32(h.unk, Big) + tail
  {
    mats := EncodeStrs(h.materials).value;
    tail := EncodeTail(h.tail, h.flags1).value;
  }

  lemma {:induction false} DecodeHeaderSteps(s: seq<byte>, p: nat, tsize: nat, h: Header, q: nat, next: nat)
    requires ReadU32(s, p, Big) == Ok(Read(h.materialCount, p + 4))
    requires ReadStrs(s, p + 4, h.materialCount) == Ok(Read(h.materials, q))
    requires ReadU32(s, q, Big) == Ok(Read(h.flags1, q + 4))
    requires ReadU32(s, q + 4, Big) == Ok(Read(h.flags2, q + 8))
    requires ReadU32(s, q + 8, Big) == Ok(Read(h.unk, q + 12))
    requires DecodeTail(s, q + 12, h.flags1, tsize) == Ok(Read(h.tail, next))
    ensures DecodeEntity3D(s, p, tsize) == Ok(Read(h, next))
  {
  }

  /** The mirror writer's output reads back as the header it was given. */
  lemma {:induction false} HeaderRoundTrip(h: Header, tsize: nat, b: seq<byte>, s: seq<byte>, p: nat)
    requires WellFormed(h, tsize)
    requires EncodeHeader(h) == Ok(b) && At(s, p, b)
    ensures DecodeEntity3D(s, p, tsize) == Ok(Read(h, p + |b|))
  {
    hide DecodeEntity3D, EncodeHeader, DecodeTail, EncodeTail, ReadStrs, EncodeStrs, EncodeU32, ReadU32, At, Bit, PutU32, PutStr, ReadStr, HeaderSize, TailSize, StrsSize;
    var mats, tail := HeaderParts(h, b);
    var count, f1, f2, unk := EncodeU32(|h.materials|, Big), EncodeU32(h.flags1, Big), EncodeU32(h.flags2, Big), EncodeU32(h.unk, Big);
    AtSplit(s, p, count + mats + f1 + f2 + unk, tail);
    AtSplit(s, p, count + mats + f1 + f2, unk);
    AtSplit(s, p, count + mats + f1, f2);
    AtSplit(s, p, count + mats, f1);
    AtSplit(s, p, count, mats);
    var q := p + 4 + |mats|;
    ReadU32At(s, p, |h.materials|, Big);
    StrsRoundTrip(h.materials, mats, s, p + 4);
    ReadU32At(s, q, h.flags1, Big);
    ReadU32At(s, q + 4, h.flags2, Big);
    ReadU32At(s, q + 8, h.unk, Big);
    TailRoundTrip(h.tail, h.flags1, tsize, tail, s, q + 12);
    DecodeHeaderSteps(s, p, tsize, h, q, p + |b|);
  }

  // ---------------------------------------------------------------
  // The writer as written

  /** The attributes the writer reads from the object when it is called.
      An attribute the object may lack is an `Option`. */
  datatype Attributes = Attributes(
    materialCount: u32,
    materials: seq<seq<byte>>,
    flags1: u32,
    flags2: u32,
    unk1: u32,
    value1: u32,
    value2: u32,
    param1: Option<seq<byte>>,
    param2: Option<seq<byte>>,
    unk2: u32,
    meshType: u32,
    transformer1: Option<seq<byte>>,
    unk5: u32)

  /** `len(None)` raises. */
  function WriteParams(a: Option<seq<byte>>, b: Option<seq<byte>>): (r: Result<seq<byte>>)
  {
    if a.None? then Err(MissingField)
    else
      var x :- PutStr(a.value);
      if b.None? then Err(MissingField)
      else
        var y :- PutStr(b.value);
        Ok(x + y)
  }

  /** The instance name is taken from Param1, and the transformer from an
      attribute the reader never assigns. */
  function WriteInstance(name: Option<seq<byte>>, transformer: Option<seq<byte>>): (r: Result<seq<byte>>)
  {
    if name.None? then Err(MissingField)
    else
      var x :- PutStr(name.value);
      if transformer.None? then Err(MissingAttribute)
      else Ok(x + transformer.value)
  }

  function Gated(c: bool, b: seq<byte>): seq<byte>
  {
    if c then b else []
  }

  function WriteEntity3D(a: Attributes): (r: Result<seq<byte>>)
  {
    var mats :- EncodeStrs(a.materials);
    var params :- if Bit(a.flags1, PARENT_SIBLING) then WriteParams(a.param1, a.param2) else Ok([]);
    var inst :- if Bit(a.flags1, INSTANCE) then WriteInstance(a.param1, a.transformer1) else Ok([]);
    Ok(EncodeU32(a.materialCount, Big) + mats
       + EncodeU32(a.flags1, Big) + EncodeU32(a.flags2, Big) + EncodeU32(a.unk1, Big)
       + Gated(Bit(a.flags2, DISABLE_SOMETHING), EncodeU32(a.value1, Big))
       + Gated(Bit(a.flags2, ENABLE_SOMETHING), EncodeU32(a.value2, Big))
       + params
       + EncodeU32(a.unk2, Big)
       + Gated(Bit(a.flags1, EXTRA_INT), EncodeU32(a.unk2, Big))
       + Gated(Bit(a.flags1, GEOMETRY), EncodeU32(a.meshType, Big))
       + inst
       + Gated(Bit(a.flags1, ANIM_FRAME), EncodeU32(a.unk5, Big)))
  }

  /** What a reader makes of the writer's fields: unk1 lands in `unk`,
      unk2 in both EntityType and the extra word, Param1 in the instance
      name and Transformer1 in the world transformer. */
  function AsRead(a: Attributes): Header
  {
    Header(a.materialCount, a.materials, a.flags1, a.flags2, a.unk1,
      Tail(
        if Bit(a.flags1, PARENT_SIBLING) && a.param1.Some? && a.param2.Some?
        then Some(Params(a.param1.value, a.param2.value)) else None,
        a.unk2,
        if Bit(a.flags1, EXTRA_INT) then Some(a.unk2) else None,
        if Bit(a.flags1, GEOMETRY) then a.meshType else 0,
        if Bit(a.flags1, INSTANCE) && a.param1.Some? && a.transformer1.Some?
        then Some(Instance(a.param1.value, a.transformer1.value)) else None))
  }

  /** Words the writer emits that the reader never reads. */
  function UnreadWords(a: Attributes): nat
  {
    Ind(Bit(a.flags2, DISABLE_SOMETHING)) + Ind(Bit(a.flags2, ENABLE_SOMETHING)) + Ind(Bit(a.flags1, ANIM_FRAME))
  }

  /** The writer's output in its parts: the strings, the parameter pair
      and the instance are what the mirror writer emits for the header a
      reader would see. */
  lemma {:induction false} WriterParts(a: Attributes) returns (mats: seq<byte>, params: seq<byte>, inst: seq<byte>)
    requires WriteEntity3D(a).Ok?
    ensures EncodeStrs(a.materials) == Ok(mats)
    ensures EncodeParams(AsRead(a).tail.params) == Ok(params)
    ensures EncodeInstance(AsRead(a).tail.instance) == Ok(inst)
    ensures WriteEntity3D(a).value ==
      EncodeU32(a.materialCount, Big) + mats
      + EncodeU32(a.flags1, Big) + EncodeU32(a.flags2, Big) + EncodeU32(a.unk1, Big)
      + Gated(Bit(a.flags2, DISABLE_SOMETHING), EncodeU32(a.value1, Big))
      + Gated(Bit(a.flags2, ENABLE_SOMETHING), EncodeU32(a.value2, Big))
      + params
      + EncodeU32(a.unk2, Big)
      + Gated(Bit(a.flags1, EXTRA_INT), EncodeU32(a.unk2, Big))
      + Gated(Bit(a.flags1, GEOMETRY), EncodeU32(a.meshType, Big))
      + inst
      + Gated(Bit(a.flags1, ANIM_FRAME), EncodeU32(a.unk5, Big))
  {
    hide EncodeU32, PutU32, ReadU32, At;
    mats := EncodeStrs(a.materials).value;
    params := if Bit(a.flags1, PARENT_SIBLING) then WriteParams(a.param1, a.param2).value else [];
    inst := if Bit(a.flags1, INSTANCE) then WriteInstance(a.param1, a.transformer1).value else [];
  }

  /** The writer's output is the reader's layout plus one word for each of
      value1, value2 and unk5 whose bit is set; the two lengths agree
      exactly when none of the three bits is. */
  lemma {:induction false} WriterLength(a: Attributes, b: seq<byte>)
    requires WriteEntity3D(a) == Ok(b)
    ensures |b| == HeaderSize(AsRead(a)) + 4 * UnreadWords(a)
    ensures |b| == HeaderSize(AsRead(a)) <==>
      !Bit(a.flags2, DISABLE_SOMETHING) && !Bit(a.flags2, ENABLE_SOMETHING) && !Bit(a.flags1, ANIM_FRAME)
  {
    var mats, params, inst := WriterParts(a);
    hide WriteEntity3D, EncodeStrs, EncodeParams, EncodeInstance, EncodeU32, PutU32, PutStr, ReadU32, At, Bit;
    var h := AsRead(a);
    EncodeParamsSize(h.tail.params, params);
    EncodeInstanceSize(h.tail.instance, inst);
    var v1, v2 := Bit(a.flags2, DISABLE_SOMETHING), Bit(a.flags2, ENABLE_SOMETHING);
    var x, g, f := Bit(a.flags1, EXTRA_INT), Bit(a.flags1, GEOMETRY), Bit(a.flags1, ANIM_FRAME);
    assert TailSize(h.tail, a.flags1) == |params| + 4 + 4 * Ind(x) + 4 * Ind(g) + |inst|;
    assert |b| == 4 + |mats| + 12 + 4 * Ind(v1) + 4 * Ind(v2) + |params| + 4 + 4 * Ind(x) + 4 * Ind(g) + |inst| + 4 * Ind(f);
  }

  lemma {:induction false} EncodeParamsSize(o: Option<Params>, b: seq<byte>)
    requires EncodeParams(o) == Ok(b)
    ensures |b| == (if o.Some? then 8 + |o.value.param1| + |o.value.param2| else 0)
  {
  }

  lemma {:induction false} EncodeInstanceSize(o: Option<Instance>, b: seq<byte>)
    requires EncodeInstance(o) == Ok(b)
    ensures |b| == (if o.Some? then 4 + |o.value.name| + |o.value.transformer| else 0)
  {
  }

  /** The mirror writer's output in its parts, nested as it builds them. */
  lemma {:induction false} EncodeHeaderSteps(h: Header, mats: seq<byte>, params: seq<byte>, inst: seq<byte>)
    requires |h.materials| < U32_LIMIT
    requires EncodeStrs(h.materials) == Ok(mats)
    requires EncodeParams(h.tail.params) == Ok(params) && EncodeInstance(h.tail.instance) == Ok(inst)
    ensures EncodeHeader(h) == Ok(
      EncodeU32(|h.materials|, Big) + mats + EncodeU32(h.flags1, Big) + EncodeU32(h.flags2, Big) + EncodeU32(h.unk, Big)
      + (params + EncodeU32(h.tail.entityType, Big) + EncodeOptU32(h.tail.extra)
         + EncodeOptU32(if Bit(h.flags1, GEOMETRY) then Some(h.tail.meshType) else None) + inst))
  {
    hide EncodeStrs, EncodeParams, EncodeInstance, EncodeU32, ReadU32, At;
  }

  /** With value1, value2 and unk5 not written, the optional words the
      writer emits are the mirror writer's optional fields. */
  lemma {:induction false} QuietWriterParts(a: Attributes, b: seq<byte>) returns (mats: seq<byte>, params: seq<byte>, inst: seq<byte>)
    requires WriteEntity3D(a) == Ok(b)
    requires UnreadWords(a) == 0
    ensures EncodeStrs(a.materials) == Ok(mats)
    ensures EncodeParams(AsRead(a).tail.params) == Ok(params)
    ensures EncodeInstance(AsRead(a).tail.instance) == Ok(inst)
    ensures b ==
      EncodeU32(a.materialCount, Big) + mats
      + EncodeU32(a.flags1, Big) + EncodeU32(a.flags2, Big) + EncodeU32(a.unk1, Big)
      + params
      + EncodeU32(a.unk2, Big)
      + EncodeOptU32(AsRead(a).tail.extra)
      + EncodeOptU32(if Bit(a.flags1, GEOMETRY) then Some(AsRead(a).tail.meshType) else None)
      + inst
  {
    mats, params, inst := WriterParts(a);
    hide WriteEntity3D, EncodeStrs, EncodeParams, EncodeInstance, EncodeU32, PutU32, PutStr, ReadU32, At;
    var head := EncodeU32(a.materialCount, Big) + mats + EncodeU32(a.flags1, Big) + EncodeU32(a.flags2, Big) + EncodeU32(a.unk1, Big);
    assert !Bit(a.flags2, DISABLE_SOMETHING) && !Bit(a.flags2, ENABLE_SOMETHING) && !Bit(a.flags1, ANIM_FRAME);
    assert EncodeOptU32(AsRead(a).tail.extra) == Gated(Bit(a.flags1, EXTRA_INT), EncodeU32(a.unk2, Big));
    assert EncodeOptU32(if Bit(a.flags1, GEOMETRY) then Some(AsRead(a).tail.meshType) else None)
      == Gated(Bit(a.flags1, GEOMETRY), EncodeU32(a.meshType, Big));
    assert head + [] + [] == head;
  }

  /** When value1, value2 and unk5 are not written and the count matches
      the list, the writer emits exactly what the mirror writer emits for
      the header a reader would see. */
  lemma {:induction false} WriterMirrors(a: Attributes, b: seq<byte>)
    requires WriteEntity3D(a) == Ok(b)
    requires a.materialCount == |a.materials|
    requires UnreadWords(a) == 0
    ensures EncodeHeader(AsRead(a)) == Ok(b)
  {
    var mats, params, inst := QuietWriterParts(a, b);
    hide WriteEntity3D, EncodeHeader, EncodeTail, EncodeStrs, EncodeParams, EncodeInstance, EncodeU32, PutU32, PutStr, ReadU32, At, AsRead, Bit;
    var h := AsRead(a);
    var et, ex := EncodeU32(h.tail.entityType, Big), EncodeOptU32(h.tail.extra);
    var mesh := EncodeOptU32(if Bit(h.flags1, GEOMETRY) then Some(h.tail.meshType) else None);
    var head := EncodeU32(|h.materials|, Big) + mats + EncodeU32(h.flags1, Big) + EncodeU32(h.flags2, Big) + EncodeU32(h.unk, Big);
    EncodeHeaderSteps(h, mats, params, inst);
    Assoc(head, params + et + ex + mesh, inst);
    Assoc(head, params + et + ex, mesh);
    Assoc(head, params + et, ex);
    Assoc(head, params, et);
  }

  /** Layout agreement: under the same conditions the reader takes the
      writer's output apart field for field, but into the fields `AsRead`
      names rather than the ones the object held. */
  lemma {:induction false} WriterLayoutRoundTrip(a: Attributes, tsize: nat, b: seq<byte>, s: seq<byte>, p: nat)
    requires WriteEntity3D(a) == Ok(b)
    requires a.materialCount == |a.materials|
    requires UnreadWords(a) == 0
    requires Bit(a.flags1, INSTANCE) && a.transformer1.Some? ==> |a.transformer1.value| == tsize
    requires At(s, p, b)
    ensures DecodeEntity3D(s, p, tsize) == Ok(Read(AsRead(a), p + |b|))
  {
    WriterMirrors(a, b);
    var h := AsRead(a);
    if Bit(a.flags1, PARENT_SIBLING) {
      assert a.param1.Some? && a.param2.Some?;
    }
    if Bit(a.flags1, INSTANCE) {
      assert a.param1.Some? && a.transformer1.Some?;
    }
    assert WellFormed(h, tsize);
    HeaderRoundTrip(h, tsize, b, s, p);
  }

  /** The count is written from MaterialCount, not from the list: one
      promised material and none listed leaves the reader four bytes
      short. */
  lemma {:induction false} CountMismatchTruncates(tsize: nat) returns (b: seq<byte>)
    ensures WriteEntity3D(Attributes(1, [], 0, 0, 0, 0, 0, None, None, 0, 0, None, 0)) == Ok(b)
    ensures |b| == 20
    ensures DecodeEntity3D(b, 0, tsize) == Err(Truncated)
  {
    var a := Attributes(1, [], 0, 0, 0, 0, 0, None, None, 0, 0, None, 0);
    assert !Bit(0, PARENT_SIBLING) && !Bit(0, INSTANCE) && !Bit(0, EXTRA_INT) && !Bit(0, GEOMETRY) && !Bit(0, ANIM_FRAME);
    assert !Bit(0, DISABLE_SOMETHING) && !Bit(0, ENABLE_SOMETHING);
    assert EncodeStrs([]) == Ok([]);
    b := WriteEntity3D(a).value;
    var one, z := EncodeU32(1, Big), EncodeU32(0, Big);
    var mats, params, inst := WriterParts(a);
    assert b == one + z + z + z + z;
    TruncatedAfterOneEmptyName(one, z, b, tsize);
  }

  /** A count of one, an empty name and three zero words: the name takes
      the word meant for flags1, so the reader runs four bytes past the
      end. */
  lemma {:induction false} TruncatedAfterOneEmptyName(one: seq<byte>, z: seq<byte>, b: seq<byte>, tsize: nat)
    requires one == EncodeU32(1, Big) && z == EncodeU32(0, Big) && b == one + z + z + z + z
    ensures DecodeEntity3D(b, 0, tsize) == Err(Truncated)
  {
    hide EncodeU32, At;
    AtFramed([], b, []);
    assert [] + b + [] == b;
    AtSplit(b, 0, one + z + z + z, z);
    AtSplit(b, 0, one + z + z, z);
    AtSplit(b, 0, one + z, z);
    AtSplit(b, 0, one, z);
    ReadU32At(b, 0, 1, Big);
    assert PutStr([]) == Ok(z + []);
    assert z + [] == z;
    ReadStrBack(b, 4, [], z);
    ReadU32At(b, 8, 0, Big);
    ReadU32At(b, 12, 0, Big);
    ReadU32At(b, 16, 0, Big);
    var empty: seq<byte> := [];
    assert ReadStr(b, 4) == Ok(Read(empty, 8));
    assert ReadStrs(b, 8, 0) == Ok(Read([], 8));
    assert [empty] + [] == [empty];
    assert ReadStrs(b, 4, 1) == Ok(Read([empty], 8));
    assert DecodeTail(b, 20, 0, tsize) == Err(Truncated);
  }

  // ---------------------------------------------------------------
  // Writing back a header that was read

  /** The object's attributes right after reading `h`: the writer's
      unk1, value1, value2, unk2 and unk5 keep their initial 0, Param1 and
      Param2 their initial None unless read, and Transformer1 is never
      assigned. */
  function FromRead(h: Header): Attributes
  {
    Attributes(h.materialCount, h.materials, h.flags1, h.flags2, 0, 0, 0,
      if h.tail.params.Some? then Some(h.tail.params.value.param1) else None,
      if h.tail.params.Some? then Some(h.tail.params.value.param2) else None,
      0, h.tail.meshType, None, 0)
  }

  /** A header read with EntityType 5 and no optional fields is written
      back so that it reads as EntityType 0, whereas the mirror writer
      gives it back unchanged. */
  lemma {:induction false} RewriteLosesEntityType(tsize: nat) returns (h: Header, b: seq<byte>)
    ensures WellFormed(h, tsize) && h.tail.entityType == 5
    ensures WriteEntity3D(FromRead(h)) == Ok(b)
    ensures DecodeEntity3D(b, 0, tsize).Ok?
    ensures DecodeEntity3D(b, 0, tsize).value.value.tail.entityType == 0
    ensures EncodeHeader(h).Ok? && DecodeEntity3D(EncodeHeader(h).value, 0, tsize) == Ok(Read(h, HeaderSize(h)))
  {
    h := Header(0, [], 0, 0, 0, Tail(None, 5, None, 0, None));
    var a := FromRead(h);
    assert !Bit(0, PARENT_SIBLING) && !Bit(0, INSTANCE) && !Bit(0, EXTRA_INT) && !Bit(0, GEOMETRY) && !Bit(0, ANIM_FRAME);
    assert !Bit(0, DISABLE_SOMETHING) && !Bit(0, ENABLE_SOMETHING);
    assert EncodeStrs([]) == Ok([]);
    b := WriteEntity3D(a).value;
    assert EncodeHeader(h).Ok?;
    hide WriteEntity3D, EncodeHeader, DecodeEntity3D, EncodeStrs, EncodeU32, PutU32, PutStr, ReadU32, ReadStr, At;
    AtFramed([], b, []);
    assert [] + b + [] == b;
    WriterLayoutRoundTrip(a, tsize, b, b, 0);
    EncodingDecodes(h, tsize);
  }

  /** The mirror writer's output on its own decodes to the header. */
  lemma {:induction false} EncodingDecodes(h: Header, tsize: nat)
    requires WellFormed(h, tsize) && EncodeHeader(h).Ok?
    ensures DecodeEntity3D(EncodeHeader(h).value, 0, tsize) == Ok(Read(h, HeaderSize(h)))
  {
    hide DecodeEntity3D, EncodeStrs, EncodeU32, PutU32, PutStr, ReadU32, ReadStr, At;
    var e := EncodeHeader(h).value;
    AtFramed([], e, []);
    assert [] + e + [] == e;
    HeaderRoundTrip(h, tsize, e, e, 0);
  }

  /** An instanced header that was read cannot be written back: Param1
      is None unless the parent bit is also set, and Transformer1 is
      never assigned. */
  lemma {:induction false} RewriteInstanceFails(h: Header)
    requires Bit(h.flags1, INSTANCE) && StrsFit(h.materials)
    requires h.tail.params.Some? ==> |h.tail.params.value.param1| < U32_LIMIT && |h.tail.params.value.param2| < U32_LIMIT
    ensures WriteEntity3D(FromRead(h)).Err?
  {
    EncodeStrsOk(h.materials);
  }
}

=== FILE: exporter.dfy ===
/** The geometry side of the Blender exporter (zwoExporter.py): the corner
    vertices of every triangle are deduplicated by a 32-bit hash into a
    dense index table, each triangle becomes a face of those indices, bone
    influences are cut or padded to four slots, the vertex flags are
    derived from the first vertex, texture names lose their extension and
    each bone's children are given as positions in the bone list.

    Blender itself is not modelled: a triangle arrives as its material
    index and its corners' data, an armature as its bone names and
    children. Float fields are opaque words; bone weights are exact reals,
    turned into words by a parameter. */
module Exporter {
  import opened Bytes
  import opened VertexLayout
  import opened MeshBuffers

  // ---------------------------------------------------------------
  // Deduplication

  /** The exporter's table from vertex hash to (index, first vertex),
      together with the order in which hashes were first seen (the
      insertion order of the dictionary) and the next free index. */
  datatype Dedup<V> = Dedup(seen: map<nat, (nat, V)>, order: seq<nat>, next: nat)

  /** Indices are dense: the i-th hash first seen holds index i, every
      stored index is below the counter, and the counter is the number of
      distinct hashes. */
  predicate Dense<V>(d: Dedup<V>)
  {
    && |d.order| == d.next
    && |d.seen| == d.next
    && (forall i :: 0 <= i < |d.order| ==> d.order[i] in d.seen && d.seen[d.order[i]].0 == i)
    && (forall h :: h in d.seen ==> d.seen[h].0 < d.next && d.order[d.seen[h].0] == h)
  }

  /** `d2` keeps every entry of `d1` and extends its insertion order. */
  ghost predicate Extends<V>(d1: Dedup<V>, d2: Dedup<V>)
  {
    && (forall h :: h in d1.seen ==> h in d2.seen && d2.seen[h] == d1.seen[h])
    && |d1.order| <= |d2.order| && d2.order[..|d1.order|] == d1.order
  }

  function Empty<V>(): (d: Dedup<V>)
    ensures Dense(d) && d.next == 0
  {
    Dedup(map[], [], 0)
  }

  /** One corner: a hash already in the table reuses its index and leaves
      the table alone; a new hash takes the next index, which then
      advances by one. */
  function AddCorner<V>(d: Dedup<V>, v: V, h: nat): (r: (nat, Dedup<V>))
    ensures r.1.seen.Keys == d.seen.Keys + {h}
    ensures r.1.next == d.next + (if h in d.seen then 0 else 1)
    ensures h in d.seen ==> r.1 == d
    ensures h !in d.seen ==> r.0 == d.next && r.1.seen[h].1 == v
    ensures Dense(d) ==> Dense(r.1) && Extends(d, r.1) && r.0 < r.1.next && r.1.seen[h].0 == r.0
  {
    if h in d.seen then
      assert d.order[..|d.order|] == d.order;
      (d.seen[h].0, d)
    else
      NewEntry(d, v, h);
      (d.next, Dedup(d.seen[h := (d.next, v)], d.order + [h], d.next + 1))
  }

  lemma {:induction false} NewEntry<V>(d: Dedup<V>, v: V, h: nat)
    requires h !in d.seen
    ensures var d' := Dedup(d.seen[h := (d.next, v)], d.order + [h], d.next + 1);
      Dense(d) ==> Dense(d') && Extends(d, d')
  {
    var d' := Dedup(d.seen[h := (d.next, v)], d.order + [h], d.next + 1);
    if Dense(d) {
      forall i | 0 <= i < |d'.order|
        ensures d'.order[i] in d'.seen && d'.seen[d'.order[i]].0 == i
      {
        if i < |d.order| {
          assert d'.order[i] == d.order[i];
        }
      }
      assert d'.order[..|d.order|] == d.order;
    }
  }

  /** The first of `vs` whose hash is `h`, if any: the reference for what
      the table stores under `h`. */
  function FirstWith<V>(vs: seq<V>, hash: V -> u32, h: nat): (r: Option<V>)
    ensures r.Some? <==> exists k :: 0 <= k < |vs| && hash(vs[k]) as nat == h
  {
    if |vs| == 0 then None
    else if hash(vs[0]) as nat == h then Some(vs[0])
    else
      var r := FirstWith(vs[1..], hash, h);
      assert forall k :: 1 <= k < |vs| ==> vs[k] == vs[1..][k - 1];
      r
  }

  lemma {:induction false} FirstWithConcat<V>(a: seq<V>, b: seq<V>, hash: V -> u32, h: nat)
    ensures FirstWith(a + b, hash, h) == if FirstWith(a, hash, h).Some? then FirstWith(a, hash, h) else FirstWith(b, hash, h)
    decreases |a|
  {
    if |a| > 0 {
      assert (a + b)[0] == a[0];
      assert (a + b)[1..] == a[1..] + b;
      FirstWithConcat(a[1..], b, hash, h);
    } else {
      assert a + b == b;
    }
  }

  /** Each index in `idx` names the table entry of the matching vertex's
      hash. */
  predicate Resolves<V>(d: Dedup<V>, vs: seq<V>, idx: seq<nat>, hash: V -> u32)
  {
    && |idx| == |vs|
    && forall k :: 0 <= k < |vs| ==> hash(vs[k]) as nat in d.seen && d.seen[hash(vs[k]) as nat].0 == idx[k]
  }

  /** Every hash that `d2` has and `d1` lacks holds the first of `vs` with
      that hash. */
  ghost predicate FirstStored<V>(d1: Dedup<V>, d2: Dedup<V>, vs: seq<V>, hash: V -> u32)
  {
    forall h :: h in d2.seen && h !in d1.seen ==> FirstWith(vs, hash, h) == Some(d2.seen[h].1)
  }

  /** The hashes of `vs`. */
  function HashSet<V>(vs: seq<V>, hash: V -> u32): set<nat>
  {
    if |vs| == 0 then {} else {hash(vs[0]) as nat} + HashSet(vs[1..], hash)
  }

  /** The loop over one triangle's corners. */
  function Corners<V>(d: Dedup<V>, vs: seq<V>, hash: V -> u32): (r: (seq<nat>, Dedup<V>))
    ensures |r.0| == |vs|
    ensures r.1.seen.Keys == d.seen.Keys + HashSet(vs, hash)
    decreases |vs|
  {
    if |vs| == 0 then ([], d)
    else
      var first := AddCorner(d, vs[0], hash(vs[0]));
      var rest := Corners(first.1, vs[1..], hash);
      ([first.0] + rest.0, rest.1)
  }

  lemma {:induction false} TransitiveExtends<V>(d1: Dedup<V>, d2: Dedup<V>, d3: Dedup<V>)
    requires Extends(d1, d2) && Extends(d2, d3)
    ensures Extends(d1, d3)
  {
    assert d3.order[..|d1.order|] == d3.order[..|d2.order|][..|d1.order|];
  }

  lemma {:induction false} ResolvesExtends<V>(d1: Dedup<V>, d2: Dedup<V>, vs: seq<V>, idx: seq<nat>, hash: V -> u32)
    requires Resolves(d1, vs, idx, hash) && Extends(d1, d2)
    ensures Resolves(d2, vs, idx, hash)
  {
  }

  lemma {:induction false} CornersStep<V>(d: Dedup<V>, vs: seq<V>, hash: V -> u32)
    requires |vs| > 0
    ensures var first := AddCorner(d, vs[0], hash(vs[0]));
      var rest := Corners(first.1, vs[1..], hash);
      Corners(d, vs, hash) == ([first.0] + rest.0, rest.1)
  {
  }

  lemma {:induction false} FirstWithStep<V>(vs: seq<V>, hash: V -> u32, h: nat)
    requires |vs| > 0
    ensures FirstWith(vs, hash, h) == if hash(vs[0]) as nat == h then Some(vs[0]) else FirstWith(vs[1..], hash, h)
  {
  }

  /** The corner loop keeps the table dense and only extends it. */
  lemma {:induction false} CornersDense<V>(d: Dedup<V>, vs: seq<V>, hash: V -> u32)
    requires Dense(d)
    ensures Dense(Corners(d, vs, hash).1) && Extends(d, Corners(d, vs, hash).1)
    decreases |vs|
  {
    if |vs| == 0 {
      assert d.order[..|d.order|] == d.order;
    } else {
      CornersStep(d, vs, hash);
      var first := AddCorner(d, vs[0], hash(vs[0]));
      hide Corners, Extends, Dense;
      CornersDense(first.1, vs[1..], hash);
      TransitiveExtends(d, first.1, Corners(first.1, vs[1..], hash).1);
    }
  }

  lemma {:induction false} ExtendsAt<V>(d1: Dedup<V>, d2: Dedup<V>, h: nat)
    requires Extends(d1, d2) && h in d1.seen
    ensures h in d2.seen && d2.seen[h] == d1.seen[h]
  {
  }

  /** The corner loop resolves every corner to the entry of its hash. */
  lemma {:induction false} CornersResolve<V>(d: Dedup<V>, vs: seq<V>, hash: V -> u32)
    requires Dense(d)
    ensures Resolves(Corners(d, vs, hash).1, vs, Corners(d, vs, hash).0, hash)
    decreases |vs|
  {
    hide Dense, Extends;
    if |vs| > 0 {
      CornersStep(d, vs, hash);
      var first := AddCorner(d, vs[0], hash(vs[0]));
      var rest := Corners(first.1, vs[1..], hash);
      var r := Corners(d, vs, hash);
      hide Corners, AddCorner;
      CornersDense(first.1, vs[1..], hash);
      CornersResolve(first.1, vs[1..], hash);
      ExtendsAt(first.1, r.1, hash(vs[0]) as nat);
      forall k | 0 <= k < |vs|
        ensures hash(vs[k]) as nat in r.1.seen && r.1.seen[hash(vs[k]) as nat].0 == r.0[k]
      {
        if k > 0 {
          assert vs[k] == vs[1..][k - 1] && r.0[k] == rest.0[k - 1];
        }
      }
    }
  }

  /** Under each new hash the corner loop stores the first corner that
      produced it. */
  lemma {:induction false} CornersFirst<V>(d: Dedup<V>, vs: seq<V>, hash: V -> u32)
    requires Dense(d)
    ensures FirstStored(d, Corners(d, vs, hash).1, vs, hash)
    decreases |vs|
  {
    if |vs| > 0 {
      var h := hash(vs[0]) as nat;
      CornersStep(d, vs, hash);
      var first := AddCorner(d, vs[0], hash(vs[0]));
      var r := Corners(d, vs, hash);
      hide Corners, AddCorner;
      CornersDense(first.1, vs[1..], hash);
      CornersFirst(first.1, vs[1..], hash);
      forall g | g in r.1.seen && g !in d.seen
        ensures FirstWith(vs, hash, g) == Some(r.1.seen[g].1)
      {
        FirstWithStep(vs, hash, g);
      }
    }
  }

  /** The corner loop keeps the table dense, resolves every corner to the
      entry of its hash, and stores under each new hash the first corner
      that produced it. */
  lemma {:induction false} CornersCorrect<V>(d: Dedup<V>, vs: seq<V>, hash: V -> u32)
    requires Dense(d)
    ensures var r := Corners(d, vs, hash);
      && Dense(r.1) && Extends(d, r.1)
      && Resolves(r.1, vs, r.0, hash)
      && FirstStored(d, r.1, vs, hash)
  {
    CornersDense(d, vs, hash);
    CornersResolve(d, vs, hash);
    CornersFirst(d, vs, hash);
  }

  // ---------------------------------------------------------------
  // Faces

  /** A triangle as the exporter sees it: its material slot and the data
      of its corners in loop order. */
  datatype Triangle<V> = Triangle(materialIndex: nat, corners: seq<V>)

  /** All corners of all triangles, in the order the loops visit them. */
  function AllCorners<V>(ts: seq<Triangle<V>>): seq<V>
  {
    if |ts| == 0 then [] else ts[0].corners + AllCorners(ts[1..])
  }

  /** The loop over triangles: one face per triangle, its indices in
      corner order, its material copied from the triangle. */
  function Faces<V>(d: Dedup<V>, ts: seq<Triangle<V>>, hash: V -> u32): (r: (seq<Face>, Dedup<V>))
    ensures |r.0| == |ts|
    ensures forall t :: 0 <= t < |ts| ==>
      r.0[t].materialIndex == ts[t].materialIndex && |r.0[t].indices| == |ts[t].corners|
    decreases |ts|
  {
    if |ts| == 0 then ([], d)
    else
      var first := Corners(d, ts[0].corners, hash);
      var rest := Faces(first.1, ts[1..], hash);
      assert forall t :: 1 <= t < |ts| ==> ts[t] == ts[1..][t - 1];
      ([Face(first.0, ts[0].materialIndex)] + rest.0, rest.1)
  }

  /** Every face's indices resolve in the table to the entries of its
      corners' hashes. */
  predicate FacesResolve<V>(d: Dedup<V>, ts: seq<Triangle<V>>, fs: seq<Face>, hash: V -> u32)
    requires |fs| == |ts|
  {
    forall t :: 0 <= t < |ts| ==> Resolves(d, ts[t].corners, fs[t].indices, hash)
  }

  lemma {:induction false} FacesStep<V>(d: Dedup<V>, ts: seq<Triangle<V>>, hash: V -> u32)
    requires |ts| > 0
    ensures var first := Corners(d, ts[0].corners, hash);
      var rest := Faces(first.1, ts[1..], hash);
      Faces(d, ts, hash) == ([Face(first.0, ts[0].materialIndex)] + rest.0, rest.1)
  {
  }

  lemma {:induction false} FacesDense<V>(d: Dedup<V>, ts: seq<Triangle<V>>, hash: V -> u32)
    requires Dense(d)
    ensures Dense(Faces(d, ts, hash).1) && Extends(d, Faces(d, ts, hash).1)
    decreases |ts|
  {
    if |ts| == 0 {
      assert d.order[..|d.order|] == d.order;
    } else {
      FacesStep(d, ts, hash);
      var first := Corners(d, ts[0].corners, hash);
      hide Corners, Faces, Dense, Extends;
      CornersDense(d, ts[0].corners, hash);
      FacesDense(first.1, ts[1..], hash);
      TransitiveExtends(d, first.1, Faces(first.1, ts[1..], hash).1);
    }
  }

  lemma {:induction false} FacesResolves<V>(d: Dedup<V>, ts: seq<Triangle<V>>, hash: V -> u32)
    requires Dense(d)
    ensures FacesResolve(Faces(d, ts, hash).1, ts, Faces(d, ts, hash).0, hash)
    decreases |ts|
  {
    hide Dense, Extends;
    if |ts| > 0 {
      FacesStep(d, ts, hash);
      var first := Corners(d, ts[0].corners, hash);
      var rest := Faces(first.1, ts[1..], hash);
      var r := Faces(d, ts, hash);
      hide Corners, Faces;
      CornersDense(d, ts[0].corners, hash);
      CornersResolve(d, ts[0].corners, hash);
      FacesDense(first.1, ts[1..], hash);
      FacesResolves(first.1, ts[1..], hash);
      ResolvesExtends(first.1, rest.1, ts[0].corners, first.0, hash);
      forall t | 0 <= t < |ts|
        ensures Resolves(r.1, ts[t].corners, r.0[t].indices, hash)
      {
        if t > 0 {
          assert ts[t] == ts[1..][t - 1] && r.0[t] == rest.0[t - 1];
        }
      }
    }
  }

  lemma {:induction false} AllCornersStep<V>(ts: seq<Triangle<V>>)
    requires |ts| > 0
    ensures AllCorners(ts) == ts[0].corners + AllCorners(ts[1..])
  {
  }

  lemma {:induction false} FacesFirst<V>(d: Dedup<V>, ts: seq<Triangle<V>>, hash: V -> u32)
    requires Dense(d)
    ensures FirstStored(d, Faces(d, ts, hash).1, AllCorners(ts), hash)
    decreases |ts|
  {
    hide Dense, Extends;
    if |ts| > 0 {
      FacesStep(d, ts, hash);
      AllCornersStep(ts);
      var first := Corners(d, ts[0].corners, hash);
      var r := Faces(d, ts, hash);
      hide Corners, Faces, AllCorners;
      CornersDense(d, ts[0].corners, hash);
      CornersFirst(d, ts[0].corners, hash);
      FacesDense(first.1, ts[1..], hash);
      FacesFirst(first.1, ts[1..], hash);
      forall g | g in r.1.seen && g !in d.seen
        ensures FirstWith(AllCorners(ts), hash, g) == Some(r.1.seen[g].1)
      {
        FirstWithConcat(ts[0].corners, AllCorners(ts[1..]), hash, g);
        if g in first.1.seen {
          ExtendsAt(first.1, r.1, g);
        } else {
          HashSetMembers(ts[0].corners, hash, g);
        }
      }
    }
  }

  /** The triangle loop keeps the table dense, resolves every face, and
      stores under each new hash the first corner, over all triangles, that
      produced it. */
  lemma {:induction false} FacesCorrect<V>(d: Dedup<V>, ts: seq<Triangle<V>>, hash: V -> u32)
    requires Dense(d)
    ensures var r := Faces(d, ts, hash);
      && Dense(r.1) && Extends(d, r.1)
      && FacesResolve(r.1, ts, r.0, hash)
      && FirstStored(d, r.1, AllCorners(ts), hash)
  {
    FacesDense(d, ts, hash);
    FacesResolves(d, ts, hash);
    FacesFirst(d, ts, hash);
  }

  lemma {:induction false} HashSetMembers<V>(vs: seq<V>, hash: V -> u32, h: nat)
    ensures h in HashSet(vs, hash) <==> FirstWith(vs, hash, h).Some?
    decreases |vs|
  {
    if |vs| > 0 {
      HashSetMembers(vs[1..], hash, h);
    }
  }

  /** The vertex list: the stored vertices in the order their hashes were
      first seen. The source sorts the table's values by index; since the
      i-th hash first seen holds index i, that order is this one. */
  function InOrder<V>(d: Dedup<V>): (r: seq<V>)
    requires forall i :: 0 <= i < |d.order| ==> d.order[i] in d.seen
    ensures |r| == |d.order|
    ensures forall i :: 0 <= i < |r| ==> r[i] == d.seen[d.order[i]].1
    decreases |d.order|
  {
    if |d.order| == 0 then []
    else [d.seen[d.order[0]].1] + InOrder(Dedup(d.seen, d.order[1..], d.next))
  }

  /** The deduplicated geometry of a triangle list: the vertex list and
      the faces. Every face index is a valid vertex index whose vertex has
      the corner's hash; the vertices have distinct hashes, one per
      distinct corner hash; and the i-th vertex is the first corner, in
      loop order, with the i-th distinct hash. */
  function Deduplicate<V>(ts: seq<Triangle<V>>, hash: V -> u32): (r: (seq<V>, seq<Face>))
    ensures |r.1| == |ts|
    ensures forall t :: 0 <= t < |ts| ==>
      && r.1[t].materialIndex == ts[t].materialIndex
      && |r.1[t].indices| == |ts[t].corners|
      && forall k :: 0 <= k < |ts[t].corners| ==>
           && r.1[t].indices[k] < |r.0|
           && hash(r.0[r.1[t].indices[k]]) == hash(ts[t].corners[k])
    ensures forall i, j :: 0 <= i < j < |r.0| ==> hash(r.0[i]) != hash(r.0[j])
    ensures forall i :: 0 <= i < |r.0| ==> FirstWith(AllCorners(ts), hash, hash(r.0[i]) as nat) == Some(r.0[i])
  {
    var e := Faces(Empty<V>(), ts, hash);
    FacesCorrect(Empty<V>(), ts, hash);
    var d := e.1;
    var vs := InOrder(d);
    StoredHash(d, ts, hash);
    (vs, e.0)
  }

  /** Every stored vertex carries the hash it is stored under. */
  lemma {:induction false} StoredHash<V>(d: Dedup<V>, ts: seq<Triangle<V>>, hash: V -> u32)
    requires Dense(d) && FirstStored(Empty<V>(), d, AllCorners(ts), hash)
    ensures forall h :: h in d.seen ==> hash(d.seen[h].1) as nat == h
  {
    forall h | h in d.seen
      ensures hash(d.seen[h].1) as nat == h
    {
      FirstWithHash(AllCorners(ts), hash, h);
    }
  }

  lemma {:induction false} FirstWithHash<V>(vs: seq<V>, hash: V -> u32, h: nat)
    ensures FirstWith(vs, hash, h).Some? ==> hash(FirstWith(vs, hash, h).value) as nat == h
    decreases |vs|
  {
    if |vs| > 0 {
      FirstWithHash(vs[1..], hash, h);
    }
  }

  // ---------------------------------------------------------------
  // Bone influences

  /** A vertex's membership of a vertex group: the group's name and the
      weight. */
  datatype Influence = Influence(group: seq<char>, weight: real)

  predicate Descending(s: seq<Influence>)
  {
    forall i, j :: 0 <= i < j < |s| ==> s[i].weight >= s[j].weight
  }

  /** No entry of `s` is heavier than `w`. */
  predicate AtMost(s: seq<Influence>, w: real)
  {
    forall i :: 0 <= i < |s| ==> s[i].weight <= w
  }

  lemma {:induction false} AtMostSub(a: seq<Influence>, b: seq<Influence>, w: real)
    requires multiset(a) <= multiset(b) && AtMost(b, w)
    ensures AtMost(a, w)
  {
    forall i | 0 <= i < |a|
      ensures a[i].weight <= w
    {
      assert a[i] in multiset(a);
      var k :| 0 <= k < |b| && b[k] == a[i];
    }
  }

  lemma {:induction false} DescendingCons(y: Influence, t: seq<Influence>)
    requires Descending(t) && AtMost(t, y.weight)
    ensures Descending([y] + t)
  {
    forall i, j | 0 <= i < j < |[y] + t|
      ensures ([y] + t)[i].weight >= ([y] + t)[j].weight
    {
      assert ([y] + t)[j] == t[j - 1];
      if i > 0 {
        assert ([y] + t)[i] == t[i - 1];
      }
    }
  }

  lemma {:induction false} DescendingTail(s: seq<Influence>)
    requires Descending(s) && |s| > 0
    ensures Descending(s[1..]) && AtMost(s[1..], s[0].weight)
  {
    assert forall i :: 0 <= i < |s[1..]| ==> s[1..][i] == s[i + 1];
  }

  /** Insertion into a list of non-increasing weight; `x` goes before the
      entries of equal weight, which came after it in the input. */
  function Insert(x: Influence, s: seq<Influence>): (r: seq<Influence>)
    ensures multiset(r) == multiset(s) + multiset{x}
    decreases |s|
  {
    if |s| == 0 || x.weight >= s[0].weight then [x] + s
    else
      assert s == [s[0]] + s[1..];
      [s[0]] + Insert(x, s[1..])
  }

  lemma {:induction false} InsertDescending(x: Influence, s: seq<Influence>)
    requires Descending(s)
    ensures Descending(Insert(x, s))
    decreases |s|
  {
    if |s| == 0 || x.weight >= s[0].weight {
      if |s| > 0 {
        DescendingTail(s);
      }
      DescendingCons(x, s);
    } else {
      var rest := Insert(x, s[1..]);
      DescendingTail(s);
      InsertDescending(x, s[1..]);
      var b := s[1..] + [x];
      assert multiset(b) == multiset(rest);
      assert AtMost(b, s[0].weight) by {
        assert forall i :: 0 <= i < |s[1..]| ==> b[i] == s[1..][i];
      }
      AtMostSub(rest, b, s[0].weight);
      DescendingCons(s[0], rest);
    }
  }

  /** `sorted(groups, key=lambda g: 1 - g.weight)`: heaviest first, ties
      in input order. */
  function SortByWeight(gs: seq<Influence>): (r: seq<Influence>)
    ensures Descending(r)
    ensures multiset(r) == multiset(gs)
    decreases |gs|
  {
    if |gs| == 0 then []
    else
      assert gs == [gs[0]] + gs[1..];
      var rest := SortByWeight(gs[1..]);
      InsertDescending(gs[0], rest);
      Insert(gs[0], rest)
  }

  /** The influences whose group names a bone, in order. */
  function KeepBones(s: seq<Influence>, bones: seq<seq<char>>): (r: seq<Influence>)
    ensures forall i :: 0 <= i < |r| ==> r[i].group in bones
    ensures forall x :: multiset(r)[x] == if x.group in bones then multiset(s)[x] else 0
    decreases |s|
  {
    if |s| == 0 then []
    else
      var rest := KeepBones(s[1..], bones);
      assert s == [s[0]] + s[1..];
      if s[0].group in bones then [s[0]] + rest else rest
  }

  lemma {:induction false} KeepBonesDescending(s: seq<Influence>, bones: seq<seq<char>>)
    requires Descending(s)
    ensures Descending(KeepBones(s, bones))
    decreases |s|
  {
    if |s| > 0 {
      var rest := KeepBones(s[1..], bones);
      DescendingTail(s);
      KeepBonesDescending(s[1..], bones);
      if s[0].group in bones {
        assert multiset(rest) <= multiset(s[1..]);
        AtMostSub(rest, s[1..], s[0].weight);
        DescendingCons(s[0], rest);
      }
    }
  }

  /** The influences on a bone, heaviest first: the list the exporter
      builds by sorting and then keeping the groups that name a bone. */
  function Ranked(gs: seq<Influence>, bones: seq<seq<char>>): (r: seq<Influence>)
    ensures Descending(r)
    ensures forall i :: 0 <= i < |r| ==> r[i].group in bones
    ensures forall x :: multiset(r)[x] == if x.group in bones then multiset(gs)[x] else 0
  {
    KeepBonesDescending(SortByWeight(gs), bones);
    KeepBones(SortByWeight(gs), bones)
  }

  /** One of the four slots: a bone's name with its weight, or the padding
      entry `(0, 0.0)` whose name is no bone. */
  datatype Slot = Slot(bone: Option<seq<char>>, weight: real)

  const PADDING: Slot := Slot(None, 0.0)

  function ToSlots(s: seq<Influence>): (r: seq<Slot>)
    ensures |r| == |s| && forall i :: 0 <= i < |s| ==> r[i] == Slot(Some(s[i].group), s[i].weight)
  {
    if |s| == 0 then [] else [Slot(Some(s[0].group), s[0].weight)] + ToSlots(s[1..])
  }

  /** Exactly four slots: the list cut after four entries, or padded. */
  function FourSlots(ranked: seq<Influence>): (r: seq<Slot>)
    ensures |r| == 4
    ensures forall i :: 0 <= i < 4 ==>
      r[i] == if i < |ranked| then Slot(Some(ranked[i].group), ranked[i].weight) else PADDING
  {
    if |ranked| > 4 then ToSlots(ranked[..4])
    else ToSlots(ranked) + seq(4 - |ranked|, _ => PADDING)
  }

  function SlotSum(ss: seq<Slot>): real
  {
    if |ss| == 0 then 0.0 else ss[0].weight + SlotSum(ss[1..])
  }

  function Sum(ws: seq<real>): real
  {
    if |ws| == 0 then 0.0 else ws[0] + Sum(ws[1..])
  }

  /** `list.index`: the first position of `n`. */
  function IndexOf(names: seq<seq<char>>, n: seq<char>): (i: nat)
    requires n in names
    ensures i < |names| && names[i] == n
    ensures forall j :: 0 <= j < i ==> names[j] != n
  {
    if names[0] == n then 0
    else
      assert n in names[1..];
      1 + IndexOf(names[1..], n)
  }

  function SlotIndex(s: Slot, bones: seq<seq<char>>): nat
  {
    match s.bone
    case Some(n) => if n in bones then IndexOf(bones, n) else 0
    case None => 0
  }

  function SlotIndices(ss: seq<Slot>, bones: seq<seq<char>>): (r: seq<nat>)
    ensures |r| == |ss| && forall i :: 0 <= i < |ss| ==> r[i] == SlotIndex(ss[i], bones)
  {
    if |ss| == 0 then [] else [SlotIndex(ss[0], bones)] + SlotIndices(ss[1..], bones)
  }

  /** Each weight divided by the total. */
  function Normalised(ss: seq<Slot>, total: real): (r: seq<real>)
    requires total != 0.0
    ensures |r| == |ss| && forall i :: 0 <= i < |ss| ==> r[i] == ss[i].weight / total
    ensures Sum(r) == SlotSum(ss) / total
  {
    if |ss| == 0 then []
    else
      var rest := Normalised(ss[1..], total);
      assert Sum([ss[0].weight / total] + rest) == ss[0].weight / total + Sum(rest) by {
        assert ([ss[0].weight / total] + rest)[1..] == rest;
      }
      [ss[0].weight / total] + rest
  }

  /** A skinned vertex's bone indices and weights: always four of each,
      the weights summing to one. When the four slots carry weight, slot
      `i` holds the `i`-th heaviest influence on a bone, as that bone's
      first position in the bone list and its weight over the total, and
      padding slots hold index 0 and weight 0; otherwise the indices are
      all 0 and the last weight takes everything. */
  function BoneSlots(gs: seq<Influence>, bones: seq<seq<char>>): (r: (seq<nat>, seq<real>))
    ensures |r.0| == 4 && |r.1| == 4
    ensures Sum(r.1) == 1.0
    ensures var slots := FourSlots(Ranked(gs, bones));
      var total := SlotSum(slots);
      && (total > 0.0 ==> forall i :: 0 <= i < 4 ==>
            if i < |Ranked(gs, bones)| then
              && r.0[i] < |bones| && bones[r.0[i]] == Ranked(gs, bones)[i].group
              && (forall j :: 0 <= j < r.0[i] ==> bones[j] != bones[r.0[i]])
              && r.1[i] == Ranked(gs, bones)[i].weight / total
            else r.0[i] == 0 && r.1[i] == 0.0)
      && (total <= 0.0 ==> r == ([0, 0, 0, 0], [0.0, 0.0, 0.0, 1.0]))
  {
    var ranked := Ranked(gs, bones);
    var slots := FourSlots(ranked);
    var total := SlotSum(slots);
    if total > 0.0 then
      SlotsMeaning(ranked, bones, total);
      (SlotIndices(slots, bones), Normalised(slots, total))
    else
      FallbackSum();
      ([0, 0, 0, 0], [0.0, 0.0, 0.0, 1.0])
  }

  lemma {:induction false} FallbackSum()
    ensures Sum([0.0, 0.0, 0.0, 1.0]) == 1.0
  {
    assert [0.0, 0.0, 0.0, 1.0][1..] == [0.0, 0.0, 1.0];
    assert [0.0, 0.0, 1.0][1..] == [0.0, 1.0];
    assert [0.0, 1.0][1..] == [1.0];
  }

  /** What the four slots become when they carry weight. */
  lemma {:induction false} SlotsMeaning(ranked: seq<Influence>, bones: seq<seq<char>>, total: real)
    requires forall i :: 0 <= i < |ranked| ==> ranked[i].group in bones
    requires total > 0.0
    ensures var slots := FourSlots(ranked);
      var idx := SlotIndices(slots, bones);
      var ws := Normalised(slots, total);
      && (total == SlotSum(slots) ==> Sum(ws) == 1.0)
      && forall i :: 0 <= i < 4 ==>
           if i < |ranked| then
             && idx[i] < |bones| && bones[idx[i]] == ranked[i].group
             && (forall j :: 0 <= j < idx[i] ==> bones[j] != bones[idx[i]])
             && ws[i] == ranked[i].weight / total
           else idx[i] == 0 && ws[i] == 0.0
  {
    var slots := FourSlots(ranked);
    if total == SlotSum(slots) {
      assert SlotSum(slots) / total == 1.0;
    }
  }

  /** Any four slots past the first are no heavier than any kept one: the
      slots hold the heaviest influences on bones. */
  lemma {:induction false} SlotsAreHeaviest(gs: seq<Influence>, bones: seq<seq<char>>, x: Influence)
    requires x in multiset(gs) && x.group in bones
    ensures var ranked := Ranked(gs, bones);
      (forall i :: 0 <= i < |ranked| && i < 4 ==> ranked[i] != x) ==>
        forall i :: 0 <= i < |ranked| && i < 4 ==> ranked[i].weight >= x.weight
  {
    var ranked := Ranked(gs, bones);
    assert x in multiset(ranked);
    var k :| 0 <= k < |ranked| && ranked[k] == x;
    if forall i :: 0 <= i < |ranked| && i < 4 ==> ranked[i] != x {
      assert k >= 4;
    }
  }

  // ---------------------------------------------------------------
  // Vertices and flags

  /** What the exporter reads at one loop of a triangle: the position, the
      loop normal, the UV already flipped, and the vertex's group
      memberships. */
  datatype Corner = Corner(position: Vec3, normal: Vec3, uv: Vec2, influences: seq<Influence>)

  /** The one colour every exported vertex carries. */
  const EXPORT_COLOR: Rgba := [0, 255, 255, 255]

  function Words(ws: seq<real>, toFloat: real -> Word): (r: seq<Word>)
    ensures |r| == |ws| && forall i :: 0 <= i < |ws| ==> r[i] == toFloat(ws[i])
  {
    if |ws| == 0 then [] else [toFloat(ws[0])] + Words(ws[1..], toFloat)
  }

  /** The vertex built at one loop. With an armature (`skin` holds its bone
      names) the vertex gets the four bone slots; without one, none. */
  function MakeVertex(c: Corner, skin: Option<seq<seq<char>>>, toFloat: real -> Word): (v: Vertex)
    ensures v.position == c.position && v.normal == c.normal
    ensures v.colors == [EXPORT_COLOR] && v.uvs == [c.uv]
    ensures skin.None? ==> v.boneIndices == [] && v.boneWeights == []
    ensures skin.Some? ==> |v.boneIndices| == 4 && |v.boneWeights| == 4
  {
    match skin
    case None => Vertex(c.position, c.normal, [EXPORT_COLOR], [c.uv], [], [])
    case Some(bones) =>
      var slots := BoneSlots(c.influences, bones);
      Vertex(c.position, c.normal, [EXPORT_COLOR], [c.uv], slots.0, Words(slots.1, toFloat))
  }

  /** The fields the vertex hash covers: position, normal, colours and UVs;
      the bone slots are not part of it. */
  datatype VertexKey = VertexKey(position: Vec3, normal: Vec3, colors: seq<Rgba>, uvs: seq<Vec2>)

  function KeyOf(v: Vertex): VertexKey
  {
    VertexKey(v.position, v.normal, v.colors, v.uvs)
  }

  /** The flag word derived from the first vertex. The normal test compares
      a list with a tuple, which Python never finds equal, so 0x1 is always
      set; the colour and UV bits count the vertex's lists; 0x780 marks four
      bone slots when the mesh is skinned. */
  function VertexFlags(sample: Vertex, skinned: bool): (f: u32)
  {
    0x1
    + (if |sample.colors| >= 1 then 0x2 else 0)
    + (if |sample.colors| >= 2 then 0x4 else 0)
    + (if |sample.uvs| >= 1 then 0x8 else 0)
    + (if |sample.uvs| >= 2 then 0x10 else 0)
    + (if |sample.uvs| >= 3 then 0x20 else 0)
    + (if |sample.uvs| >= 4 then 0x40 else 0)
    + (if skinned then 0x80 + 0x100 + 0x200 + 0x400 else 0)
  }

  /** The list lengths every exported vertex has: one colour, one UV set,
      and four bone slots exactly when the mesh is skinned. */
  predicate Shaped(v: Vertex, skinned: bool)
  {
    |v.colors| == 1 && |v.uvs| == 1 && |v.boneIndices| == (if skinned then 4 else 0)
  }

  lemma {:induction false} ShapedFlags(v0: Vertex, v: Vertex, skinned: bool)
    requires Shaped(v0, skinned) && Shaped(v, skinned)
    ensures VertexFlags(v0, skinned) == (if skinned then 0x78B else 0xB)
    ensures Describes(VertexFlags(v0, skinned), v)
  {
    if skinned {
      assert Bits(0x78B) == [true, true, false, true, false, false, false, true, true, true, true];
    } else {
      assert Bits(0xB) == [true, true, false, true, false, false, false, false, false, false, false];
    }
  }

  /** The flags derived from any exported vertex are 0xB, plus 0x780 when
      skinned, and they describe every other exported vertex too: the
      writer's records have the layout the reader computes from them. */
  lemma {:induction false} ExportedFlags(c0: Corner, c: Corner, skin: Option<seq<seq<char>>>, toFloat: real -> Word)
    ensures var f := VertexFlags(MakeVertex(c0, skin, toFloat), skin.Some?);
      && f == (if skin.Some? then 0x78B else 0xB)
      && Describes(f, MakeVertex(c, skin, toFloat))
  {
    ShapedFlags(MakeVertex(c0, skin, toFloat), MakeVertex(c, skin, toFloat), skin.Some?);
  }

  lemma {:induction false} AllCornersShaped(ts: seq<Triangle<Vertex>>, skinned: bool)
    requires forall t, k :: 0 <= t < |ts| && 0 <= k < |ts[t].corners| ==> Shaped(ts[t].corners[k], skinned)
    ensures forall v :: v in AllCorners(ts) ==> Shaped(v, skinned)
    decreases |ts|
  {
    if |ts| > 0 {
      forall t, k | 0 <= t < |ts[1..]| && 0 <= k < |ts[1..][t].corners|
        ensures Shaped(ts[1..][t].corners[k], skinned)
      {
        assert ts[1..][t] == ts[t + 1];
      }
      AllCornersShaped(ts[1..], skinned);
    }
  }

  lemma {:induction false} FirstWithIn<V>(vs: seq<V>, hash: V -> u32, h: nat)
    ensures FirstWith(vs, hash, h).Some? ==> FirstWith(vs, hash, h).value in vs
    decreases |vs|
  {
    if |vs| > 0 {
      FirstWithIn(vs[1..], hash, h);
    }
  }

  lemma {:induction false} AllCornersNonEmpty<V>(ts: seq<Triangle<V>>)
    ensures |AllCorners(ts)| > 0 <==> exists t :: 0 <= t < |ts| && |ts[t].corners| > 0
    decreases |ts|
  {
    if |ts| > 0 {
      AllCornersNonEmpty(ts[1..]);
      if exists t :: 0 <= t < |ts[1..]| && |ts[1..][t].corners| > 0 {
        var t :| 0 <= t < |ts[1..]| && |ts[1..][t].corners| > 0;
        assert ts[1..][t] == ts[t + 1];
      }
      if exists t :: 0 <= t < |ts| && |ts[t].corners| > 0 {
        var t :| 0 <= t < |ts| && |ts[t].corners| > 0;
        if t > 0 {
          assert ts[1..][t - 1] == ts[t];
        }
      }
    }
  }

  /** The vertex list is empty exactly when no triangle has a corner. */
  lemma {:induction false} DedupNonEmpty<V>(ts: seq<Triangle<V>>, hash: V -> u32)
    ensures |Deduplicate(ts, hash).0| > 0 <==> exists t :: 0 <= t < |ts| && |ts[t].corners| > 0
  {
    var vs := Deduplicate(ts, hash).0;
    AllCornersNonEmpty(ts);
    if |vs| > 0 {
      assert FirstWith(AllCorners(ts), hash, hash(vs[0]) as nat).Some?;
    }
    if exists t :: 0 <= t < |ts| && |ts[t].corners| > 0 {
      var t :| 0 <= t < |ts| && |ts[t].corners| > 0;
      assert Deduplicate(ts, hash).1[t].indices[0] < |vs|;
    }
  }

  /** Every vertex of the deduplicated list is one of the corners. */
  lemma {:induction false} ExportedDescribed(ts: seq<Triangle<Vertex>>, skinned: bool, hash: Vertex -> u32)
    requires forall t, k :: 0 <= t < |ts| && 0 <= k < |ts[t].corners| ==> Shaped(ts[t].corners[k], skinned)
    requires |Deduplicate(ts, hash).0| > 0
    ensures var vs := Deduplicate(ts, hash).0;
      && VertexFlags(vs[0], skinned) == (if skinned then 0x78B else 0xB)
      && AllDescribed(VertexFlags(vs[0], skinned), vs)
  {
    var vs := Deduplicate(ts, hash).0;
    AllCornersShaped(ts, skinned);
    forall i | 0 <= i < |vs|
      ensures Shaped(vs[i], skinned)
    {
      FirstWithIn(AllCorners(ts), hash, hash(vs[i]) as nat);
    }
    forall i | 0 <= i < |vs|
      ensures Describes(VertexFlags(vs[0], skinned), vs[i])
    {
      ShapedFlags(vs[0], vs[i], skinned);
    }
    ShapedFlags(vs[0], vs[0], skinned);
    AllDescribedEach(VertexFlags(vs[0], skinned), vs);
  }

  /** The triangles with a vertex built at every corner. */
  function MakeTriangles(ts: seq<Triangle<Corner>>, skin: Option<seq<seq<char>>>, toFloat: real -> Word): (r: seq<Triangle<Vertex>>)
    ensures |r| == |ts|
    ensures forall t :: 0 <= t < |ts| ==>
      && r[t].materialIndex == ts[t].materialIndex
      && |r[t].corners| == |ts[t].corners|
      && forall k :: 0 <= k < |ts[t].corners| ==> r[t].corners[k] == MakeVertex(ts[t].corners[k], skin, toFloat)
  {
    if |ts| == 0 then []
    else [Triangle(ts[0].materialIndex, MakeVertices(ts[0].corners, skin, toFloat))] + MakeTriangles(ts[1..], skin, toFloat)
  }

  function MakeVertices(cs: seq<Corner>, skin: Option<seq<seq<char>>>, toFloat: real -> Word): (r: seq<Vertex>)
    ensures |r| == |cs| && forall k :: 0 <= k < |cs| ==> r[k] == MakeVertex(cs[k], skin, toFloat)
  {
    if |cs| == 0 then [] else [MakeVertex(cs[0], skin, toFloat)] + MakeVertices(cs[1..], skin, toFloat)
  }

  /** The exported vertex buffer and faces. */
  datatype Exported = Exported(vertices: seq<Vertex>, flags: u32, faces: seq<Face>)

  /** The geometry part of `make_mesh`. Without a UV layer the lookup of
      the first layer fails; with no corner at all the first vertex the
      flags are read from does not exist. */
  function ExportGeometry(ts: seq<Triangle<Corner>>, hasUvLayer: bool, skin: Option<seq<seq<char>>>,
                          crc: VertexKey -> u32, toFloat: real -> Word): (r: Result<Exported>)
    ensures r.Ok? <==> hasUvLayer && exists t :: 0 <= t < |ts| && |ts[t].corners| > 0
    ensures r.Ok? ==>
      && r.value.flags == (if skin.Some? then 0x78B else 0xB)
      && AllDescribed(r.value.flags, r.value.vertices)
      && |r.value.faces| == |ts|
      && forall t :: 0 <= t < |ts| ==>
           && r.value.faces[t].materialIndex == ts[t].materialIndex
           && |r.value.faces[t].indices| == |ts[t].corners|
           && forall k :: 0 <= k < |ts[t].corners| ==> r.value.faces[t].indices[k] < |r.value.vertices|
  {
    if !hasUvLayer then Err(IndexError)
    else
      var vts := MakeTriangles(ts, skin, toFloat);
      var hash := (v: Vertex) => crc(KeyOf(v));
      var dd := Deduplicate(vts, hash);
      DedupNonEmpty(vts, hash);
      if |dd.0| == 0 then Err(IndexError)
      else
        ExportedDescribed(vts, skin.Some?, hash);
        Ok(Exported(dd.0, VertexFlags(dd.0[0], skin.Some?), dd.1))
  }

  // ---------------------------------------------------------------
  // Materials

  /** The position of the first `.` in `s`. */
  function FirstDot(s: seq<char>): (i: nat)
    requires '.' in s
    ensures i < |s| && s[i] == '.' && '.' !in s[..i]
  {
    if s[0] == '.' then 0
    else
      assert '.' in s[1..];
      var i := FirstDot(s[1..]);
      assert s[..i + 1] == [s[0]] + s[1..][..i];
      i + 1
  }

  /** `name.split('.')[0]` when the name holds a `.`: the text before the
      first `.`. The result holds no `.`, and the name is the result
      followed by nothing or by a `.` and the rest. */
  function StripExtension(name: seq<char>): (r: seq<char>)
    ensures '.' !in r
    ensures |r| <= |name| && name[..|r|] == r
    ensures |r| == |name| || name[|r|] == '.'
  {
    if '.' in name then name[..FirstDot(name)] else name
  }

  /** A name without a `.` is kept, and stripping twice is stripping
      once. */
  lemma {:induction false} StripExtensionStable(name: seq<char>)
    ensures '.' !in name ==> StripExtension(name) == name
    ensures StripExtension(StripExtension(name)) == StripExtension(name)
  {
  }

  /** A node of a material's shader graph: whether it is an image-texture
      node, and the name of its image if it has one. */
  datatype ShaderNode = ShaderNode(isImageTexture: bool, image: Option<seq<char>>)

  /** The fields of a material the exporter sets. */
  datatype Material = Material(name: seq<char>, flag: int, textureName: Option<seq<char>>)

  /** The first image-texture node, if any. */
  function FirstImageNode(nodes: seq<ShaderNode>): (r: Option<nat>)
    ensures r.None? <==> forall i :: 0 <= i < |nodes| ==> !nodes[i].isImageTexture
    ensures r.Some? ==>
      && r.value < |nodes| && nodes[r.value].isImageTexture
      && forall i :: 0 <= i < r.value ==> !nodes[i].isImageTexture
  {
    if |nodes| == 0 then None
    else if nodes[0].isImageTexture then Some(0)
    else
      match FirstImageNode(nodes[1..])
      case None => None
      case Some(i) => Some(i + 1)
  }

  /** `make_material`: the name and flag 3 are always set; the texture name
      comes from the first image-texture node's image, without extension,
      and otherwise stays as the reused material had it (a fresh material
      starts with none). */
  function MakeMaterial(name: seq<char>, nodes: seq<ShaderNode>, reused: Option<Material>): (m: Material)
    ensures m.name == name && m.flag == 3
    ensures var first := FirstImageNode(nodes);
      if first.Some? && nodes[first.value].image.Some? then
        m.textureName == Some(StripExtension(nodes[first.value].image.value))
      else
        m.textureName == (if reused.Some? then reused.value.textureName else None)
    ensures (exists i :: 0 <= i < |nodes| && nodes[i].isImageTexture && nodes[i].image.Some?
              && forall j :: 0 <= j < i ==> !nodes[j].isImageTexture)
            ==> m.textureName.Some? && '.' !in m.textureName.value
  {
    var base := if reused.Some? then reused.value else Material(name, 0, None);
    var first := FirstImageNode(nodes);
    var texture :=
      if first.Some? && nodes[first.value].image.Some? then Some(StripExtension(nodes[first.value].image.value))
      else base.textureName;
    Material(name, 3, texture)
  }

  // ---------------------------------------------------------------
  // Skeleton

  /** A bone of the armature: its name, its rest matrix and its children's
      names. */
  datatype ArmatureBone = ArmatureBone(name: seq<char>, matrix: seq<Word>, children: seq<seq<char>>)

  datatype SkeletonBone = SkeletonBone(name: seq<char>, matrix: seq<Word>, childCount: nat, childIndices: seq<nat>)

  datatype Skeleton = Skeleton(name: seq<char>, entityType: nat, headerType: nat, bonesCount: nat, bones: seq<SkeletonBone>)

  function Names(bs: seq<ArmatureBone>): (r: seq<seq<char>>)
    ensures |r| == |bs| && forall i :: 0 <= i < |bs| ==> r[i] == bs[i].name
  {
    if |bs| == 0 then [] else [bs[0].name] + Names(bs[1..])
  }

  /** `{name: i for i, name in enumerate(names)}`: each name's position,
      the last one when a name repeats. */
  function Positions(names: seq<seq<char>>): (m: map<seq<char>, nat>)
    ensures forall n :: n in m <==> n in names
    ensures forall n :: n in m ==>
      m[n] < |names| && names[m[n]] == n && forall j :: m[n] < j < |names| ==> names[j] != n
    decreases |names|
  {
    if |names| == 0 then map[]
    else
      var init := names[..|names| - 1];
      var m := Positions(init);
      assert forall j :: 0 <= j < |init| ==> init[j] == names[j];
      assert forall n :: n in names ==> n in init || n == names[|names| - 1];
      m[names[|names| - 1] := |names| - 1]
  }

  /** The children's positions; a child missing from the bone list stops
      the export, as the dictionary lookup would. */
  function ChildIndices(children: seq<seq<char>>, positions: map<seq<char>, nat>): (r: Result<seq<nat>>)
    ensures r.Ok? <==> forall k :: 0 <= k < |children| ==> children[k] in positions
    ensures r.Ok? ==> |r.value| == |children| && forall k :: 0 <= k < |children| ==> r.value[k] == positions[children[k]]
  {
    if |children| == 0 then Ok([])
    else if children[0] !in positions then Err(MissingField)
    else
      match ChildIndices(children[1..], positions)
      case Err(e) =>
        assert exists k :: 1 <= k < |children| && children[k] !in positions by {
          var k :| 0 <= k < |children[1..]| && children[1..][k] !in positions;
          assert children[k + 1] == children[1..][k];
        }
        Err(e)
      case Ok(rest) =>
        assert forall k :: 1 <= k < |children| ==> children[k] == children[1..][k - 1];
        Ok([positions[children[0]]] + rest)
  }

  function MakeBones(bs: seq<ArmatureBone>, positions: map<seq<char>, nat>): (r: Result<seq<SkeletonBone>>)
    ensures r.Ok? <==> forall i, k :: 0 <= i < |bs| && 0 <= k < |bs[i].children| ==> bs[i].children[k] in positions
    ensures r.Ok? ==> |r.value| == |bs| && forall i :: 0 <= i < |bs| ==>
      && r.value[i].name == bs[i].name && r.value[i].matrix == bs[i].matrix
      && r.value[i].childCount == |r.value[i].childIndices| == |bs[i].children|
      && forall k :: 0 <= k < |bs[i].children| ==> r.value[i].childIndices[k] == positions[bs[i].children[k]]
  {
    if |bs| == 0 then Ok([])
    else
      match ChildIndices(bs[0].children, positions)
      case Err(e) => Err(e)
      case Ok(idx) =>
        match MakeBones(bs[1..], positions)
        case Err(e) =>
          assert exists i, k :: 1 <= i < |bs| && 0 <= k < |bs[i].children| && bs[i].children[k] !in positions by {
            var i, k :| 0 <= i < |bs[1..]| && 0 <= k < |bs[1..][i].children| && bs[1..][i].children[k] !in positions;
            assert bs[i + 1] == bs[1..][i];
          }
          Err(e)
        case Ok(rest) =>
          assert forall i :: 1 <= i < |bs| ==> bs[i] == bs[1..][i - 1];
          Ok([SkeletonBone(bs[0].name, bs[0].matrix, |bs[0].children|, idx)] + rest)
  }

  /** `make_skeleton`: entity type 6 with header type 5, one bone per
      armature bone in order, the bone count equal to the number of bones,
      and each child index the child's position in that same list. */
  function MakeSkeleton(name: seq<char>, bs: seq<ArmatureBone>): (r: Result<Skeleton>)
    ensures r.Ok? <==> forall i, k :: 0 <= i < |bs| && 0 <= k < |bs[i].children| ==> bs[i].children[k] in Names(bs)
    ensures r.Ok? ==>
      && r.value.entityType == 6 && r.value.headerType == 5
      && r.value.bonesCount == |r.value.bones| == |bs|
      && forall i :: 0 <= i < |bs| ==>
           && r.value.bones[i].name == bs[i].name
           && r.value.bones[i].childCount == |r.value.bones[i].childIndices| == |bs[i].children|
           && forall k :: 0 <= k < |bs[i].children| ==>
                && r.value.bones[i].childIndices[k] < |bs|
                && bs[r.value.bones[i].childIndices[k]].name == bs[i].children[k]
  {
    var positions := Positions(Names(bs));
    var bones :- MakeBones(bs, positions);
    Ok(Skeleton(name, 6, 5, |bs|, bones))
  }
}

=== FILE: hash_registry.dfy ===
/** The hash-registry merge of zwoLib/utils/combineHashes.py: new strings
    are folded into a registry from hash to string. A string whose hash is
    absent is added; a present hash is never overwritten, and a present
    hash holding a different string counts as a collision.

    The source keys the registry by the decimal text of the hash; that
    text is a one-to-one function of the hash value, so the model keys by
    the value itself. The hash (CRC-32 of the UTF-8 encoding, masked to 32
    bits) is a parameter whose results lie in `[0, 2^32)`. */
module HashRegistry {
  import opened Bytes

  type Registry = map<nat, seq<char>>

  /** The registry together with the two counters the loop keeps. */
  datatype Tally = Tally(registry: Registry, added: nat, collisions: nat)

  /** One iteration of the loop for a string `s` whose hash is `h`. */
  function Step(t: Tally, h: nat, s: seq<char>): (r: Tally)
    ensures r.registry.Keys == t.registry.Keys + {h}
    ensures forall k :: k in t.registry ==> r.registry[k] == t.registry[k]
    ensures h !in t.registry ==> r.registry[h] == s
    ensures r.added == t.added + (if h in t.registry then 0 else 1)
    ensures r.collisions == t.collisions + (if h in t.registry && t.registry[h] != s then 1 else 0)
  {
    if h !in t.registry then Tally(t.registry[h := s], t.added + 1, t.collisions)
    else if t.registry[h] != s then Tally(t.registry, t.added, t.collisions + 1)
    else t
  }

  /** The hashes of the strings. */
  function Hashes(strings: seq<seq<char>>, hash: seq<char> -> u32): set<nat>
  {
    if |strings| == 0 then {} else {hash(strings[0]) as nat} + Hashes(strings[1..], hash)
  }

  lemma {:induction false} HashesMembers(strings: seq<seq<char>>, hash: seq<char> -> u32)
    ensures forall i :: 0 <= i < |strings| ==> hash(strings[i]) as nat in Hashes(strings, hash)
    ensures forall k :: k in Hashes(strings, hash) ==> exists i :: 0 <= i < |strings| && k == hash(strings[i]) as nat
    decreases |strings|
  {
    if |strings| > 0 {
      HashesMembers(strings[1..], hash);
      forall i | 0 < i < |strings|
        ensures hash(strings[i]) as nat in Hashes(strings, hash)
      {
        assert strings[1..][i - 1] == strings[i];
      }
      forall k | k in Hashes(strings[1..], hash)
        ensures exists i :: 0 <= i < |strings| && k == hash(strings[i]) as nat
      {
        var i :| 0 <= i < |strings[1..]| && k == hash(strings[1..][i]) as nat;
        assert strings[1..][i] == strings[i + 1];
      }
    }
  }

  /** The loop over the new strings, in order, from the tally `t`. */
  function Merge(t: Tally, strings: seq<seq<char>>, hash: seq<char> -> u32): (r: Tally)
    ensures r.registry.Keys == t.registry.Keys + Hashes(strings, hash)
    ensures forall k :: k in t.registry ==> r.registry[k] == t.registry[k]
    ensures t.added <= r.added && t.collisions <= r.collisions
    ensures |r.registry| == |t.registry| + (r.added - t.added)
    ensures (r.added - t.added) + (r.collisions - t.collisions) <= |strings|
    decreases |strings|
  {
    if |strings| == 0 then t
    else Merge(Step(t, hash(strings[0]), strings[0]), strings[1..], hash)
  }

  /** The merge the script performs: from the loaded registry with both
      counters at zero. */
  function Combine(registry: Registry, strings: seq<seq<char>>, hash: seq<char> -> u32): (r: Tally)
    ensures forall k :: k in registry ==> k in r.registry && r.registry[k] == registry[k]
    ensures forall i :: 0 <= i < |strings| ==> hash(strings[i]) as nat in r.registry
    ensures forall k :: k in r.registry ==> k in registry || exists i :: 0 <= i < |strings| && k == hash(strings[i]) as nat
    ensures |r.registry| == |registry| + r.added
    ensures r.added + r.collisions <= |strings|
  {
    HashesMembers(strings, hash);
    Merge(Tally(registry, 0, 0), strings, hash)
  }

  /** A registry key whose first occurrence among the strings is at `i`
      and which the starting registry lacks ends up holding `strings[i]`. */
  lemma {:induction false} FirstWins(t: Tally, strings: seq<seq<char>>, hash: seq<char> -> u32, i: nat)
    requires i < |strings|
    requires hash(strings[i]) as nat !in t.registry
    requires forall j :: 0 <= j < i ==> hash(strings[j]) != hash(strings[i])
    ensures var final := Merge(t, strings, hash).registry;
      hash(strings[i]) as nat in final && final[hash(strings[i]) as nat] == strings[i]
    decreases |strings|
  {
    HashesMembers(strings, hash);
    var t' := Step(t, hash(strings[0]), strings[0]);
    if i == 0 {
      assert t'.registry[hash(strings[0]) as nat] == strings[0];
    } else {
      forall j | 0 <= j < i - 1
        ensures hash(strings[1..][j]) != hash(strings[1..][i - 1])
      {
        assert strings[1..][j] == strings[j + 1];
      }
      assert strings[1..][i - 1] == strings[i];
      FirstWins(t', strings[1..], hash, i - 1);
    }
  }

  /** The number of strings that the registry `final` maps their hash to
      a different string. */
  function Mismatches(final: Registry, strings: seq<seq<char>>, hash: seq<char> -> u32): (n: nat)
    ensures n <= |strings|
  {
    if |strings| == 0 then 0
    else
      (if hash(strings[0]) as nat in final && final[hash(strings[0]) as nat] != strings[0] then 1 else 0)
      + Mismatches(final, strings[1..], hash)
  }

  /** Because an entry, once present, never changes, a string collided
      exactly when the final registry holds a different string under its
      hash: the collision count is the number of such strings. */
  lemma {:induction false} CollisionsAreMismatches(t: Tally, strings: seq<seq<char>>, hash: seq<char> -> u32)
    ensures var r := Merge(t, strings, hash);
      r.collisions == t.collisions + Mismatches(r.registry, strings, hash)
    decreases |strings|
  {
    if |strings| > 0 {
      var h := hash(strings[0]) as nat;
      var t' := Step(t, hash(strings[0]), strings[0]);
      var r := Merge(t, strings, hash);
      assert r == Merge(t', strings[1..], hash);
      CollisionsAreMismatches(t', strings[1..], hash);
      assert h in t'.registry && r.registry[h] == t'.registry[h];
    }
  }

  /** Strings whose hashes are all present change neither the registry
      nor the added count. */
  lemma {:induction false} PresentAddsNothing(t: Tally, strings: seq<seq<char>>, hash: seq<char> -> u32)
    requires forall i :: 0 <= i < |strings| ==> hash(strings[i]) as nat in t.registry
    ensures Merge(t, strings, hash).registry == t.registry
    ensures Merge(t, strings, hash).added == t.added
    decreases |strings|
  {
    if |strings| > 0 {
      var t' := Step(t, hash(strings[0]), strings[0]);
      assert t'.registry == t.registry;
      forall i | 0 <= i < |strings[1..]|
        ensures hash(strings[1..][i]) as nat in t'.registry
      {
        assert strings[1..][i] == strings[i + 1];
      }
      PresentAddsNothing(t', strings[1..], hash);
    }
  }

  /** Strings already registered under their own hash leave the tally
      exactly as it was: nothing is added and nothing is counted. */
  lemma {:induction false} RegisteredIsNoOp(t: Tally, strings: seq<seq<char>>, hash: seq<char> -> u32)
    requires forall i :: 0 <= i < |strings| ==>
      hash(strings[i]) as nat in t.registry && t.registry[hash(strings[i]) as nat] == strings[i]
    ensures Merge(t, strings, hash) == t
    decreases |strings|
  {
    if |strings| > 0 {
      assert Step(t, hash(strings[0]), strings[0]) == t;
      forall i | 0 <= i < |strings[1..]|
        ensures hash(strings[1..][i]) as nat in t.registry
             && t.registry[hash(strings[1..][i]) as nat] == strings[1..][i]
      {
        assert strings[1..][i] == strings[i + 1];
      }
      RegisteredIsNoOp(t, strings[1..], hash);
    }
  }

  /** Running the merge a second time over the same strings adds nothing,
      leaves the registry as the first run left it, and reports the same
      collisions again. */
  lemma {:induction false} RemergeIsStable(registry: Registry, strings: seq<seq<char>>, hash: seq<char> -> u32)
    ensures var first := Combine(registry, strings, hash);
      var second := Combine(first.registry, strings, hash);
      && second.registry == first.registry
      && second.added == 0
      && second.collisions == first.collisions
  {
    var first := Combine(registry, strings, hash);
    var second := Combine(first.registry, strings, hash);
    PresentAddsNothing(Tally(first.registry, 0, 0), strings, hash);
    CollisionsAreMismatches(Tally(registry, 0, 0), strings, hash);
    CollisionsAreMismatches(Tally(first.registry, 0, 0), strings, hash);
  }

  /** Two different strings with the same new hash in one batch: the
      first is added and the second is counted as a collision, because
      the loop runs in order. */
  lemma {:induction false} SameBatchCollision(registry: Registry, a: seq<char>, b: seq<char>, hash: seq<char> -> u32)
    requires a != b && hash(a) == hash(b) && hash(a) as nat !in registry
    ensures Combine(registry, [a, b], hash) == Tally(registry[hash(a) as nat := a], 1, 1)
  {
    var t1 := Step(Tally(registry, 0, 0), hash(a), a);
    assert t1 == Tally(registry[hash(a) as nat := a], 1, 0);
    assert [a, b][1..] == [b];
    assert [b][1..] == [];
    assert Merge(t1, [b], hash) == Merge(Step(t1, hash(b), b), [], hash);
  }
}

=== FILE: mesh.dfy ===
/** The mesh entity of zwoLib/zwo/zwoMesh.py: the Entity3D header, then,
    when the geometry bit of `flags1` is set, the geometry, two words, two
    floats for MeshType 2, the vertex buffers and the face buffer. The
    writer emits the base entity header itself and frames the whole mesh
    with a length that counts the length word too.

    The reader of the base entity header (zwoEntity) is not part of this
    model: `DecodeMesh` starts where that header ends. Floats are kept as
    their four raw bytes. */
module Mesh {
  import opened Bytes
  import opened MeshBuffers
  import Entity3D
  import Exporter

  // ---------------------------------------------------------------
  // Reading

  /** What the reader keeps when the geometry bit is set. `floats` holds
      unk3 and unk4, which only MeshType 2 carries. */
  datatype Body = Body(
    geometry: Geometry,
    vertexBufferFlag: u32,
    unk2: u32,
    floats: Option<(Word, Word)>,
    vertexBuffers: seq<VertexBuffer>,
    faceBuffer: FaceBuffer)

  datatype MeshRead = MeshRead(
    entity3D: Entity3D.Header,
    body: Option<Body>,
    animFrame: Option<u32>,
    isInstance: bool)

  /** `VertexBufferCount`: one buffer per transformer for MeshType 2 unless
      bit 2 of the buffer flag (taken as `>> 2 & 1`) is set; one otherwise. */
  function BufferCount(meshType: nat, vertexBufferFlag: nat, transformerCount: nat): nat
  {
    if meshType != 2 then 1
    else if Entity3D.ShiftBit(vertexBufferFlag, 2) == 1 then 1
    else transformerCount
  }

  /** The shift spelling of bit 2 is the mask 0x4. */
  lemma {:induction false} ShiftBitTwo()
    ensures forall x: nat :: Entity3D.ShiftBit(x, 2) == 1 <==> Bit(x, 0x4)
  {
    assert Entity3D.Pow2(2) == 4 by {
      assert Entity3D.Pow2(1) == 2 * Entity3D.Pow2(0);
    }
  }

  /** `n` vertex buffers, back to back. */
  function ReadBuffers(s: seq<byte>, pos: nat, n: nat): (r: Result<Read<seq<VertexBuffer>>>)
    ensures r.Ok? ==> |r.value.value| == n
    decreases n
  {
    if n == 0 then Ok(Read([], pos))
    else
      var first :- DecodeVertexBuffer(s, pos);
      var rest :- ReadBuffers(s, first.next, n - 1);
      Ok(Read([first.value] + rest.value, rest.next))
  }

  /** unk3 and unk4, when `present`. */
  function ReadFloats(s: seq<byte>, pos: nat, present: bool): (r: Result<Read<Option<(Word, Word)>>>)
    ensures r.Ok? ==> (r.value.value.Some? <==> present)
    ensures r.Ok? ==> r.value.next == pos + (if present then 8 else 0)
  {
    if !present then Ok(Read(None, pos))
    else
      var a :- ReadWord(s, pos);
      var b :- ReadWord(s, a.next);
      Ok(Read(Some((a.value, b.value)), b.next))
  }

  function DecodeBody(s: seq<byte>, pos: nat, meshType: u32, sz: Sizes): (r: Result<Read<Body>>)
    ensures r.Ok? ==> (r.value.value.floats.Some? <==> meshType == 2)
    ensures r.Ok? ==>
      |r.value.value.vertexBuffers|
        == BufferCount(meshType, r.value.value.vertexBufferFlag, r.value.value.geometry.transformerCount)
  {
    var g :- DecodeGeometry(s, pos, sz);
    var flag :- ReadU32(s, g.next, Big);
    var unk2 :- ReadU32(s, flag.next, Big);
    var floats :- ReadFloats(s, unk2.next, meshType == 2);
    var vbs :- ReadBuffers(s, floats.next, BufferCount(meshType, flag.value, g.value.transformerCount));
    var fb :- DecodeFaceBuffer(s, vbs.next);
    Ok(Read(Body(g.value, flag.value, unk2.value, floats.value, vbs.value, fb.value), fb.next))
  }

  /** The reader from the end of the base entity header. `tsize` is the
      byte size of a transformer and `sz` the sizes of the geometry's
      blocks. */
  function DecodeMesh(s: seq<byte>, pos: nat, tsize: nat, sz: Sizes): (r: Result<Read<MeshRead>>)
    ensures r.Ok? ==>
      var m := r.value.value;
      var flags1 := m.entity3D.flags1;
      && (m.body.Some? <==> Bit(flags1, Entity3D.GEOMETRY))
      && (m.animFrame.Some? <==> Bit(flags1, Entity3D.ANIM_FRAME))
      && (m.isInstance <==> m.entity3D.tail.instance.Some?)
      && (m.body.Some? ==>
            && (m.body.value.floats.Some? <==> m.entity3D.tail.meshType == 2)
            && |m.body.value.vertexBuffers|
                 == if m.entity3D.tail.meshType == 2 && !Bit(m.body.value.vertexBufferFlag, 0x4)
                    then m.body.value.geometry.transformerCount as nat else 1)
  {
    var h :- Entity3D.DecodeEntity3D(s, pos, tsize);
    var flags1 := h.value.flags1;
    var body :- if Bit(flags1, Entity3D.GEOMETRY) then
        var b :- DecodeBody(s, h.next, h.value.tail.meshType, sz);
        Ok(Read(Some(b.value), b.next))
      else Ok(Read(None, h.next));
    var frame :- Entity3D.ReadOptU32(s, body.next, Bit(flags1, Entity3D.ANIM_FRAME));
    ShiftBitTwo();
    Ok(Read(MeshRead(h.value, body.value, frame.value, Bit(flags1, Entity3D.INSTANCE)), frame.next))
  }

  // ---------------------------------------------------------------
  // Writing

  /** The base entity header the writer emits. */
  datatype EntityHead = EntityHead(
    headerType: byte,
    name: seq<byte>,
    entityType: u32,
    unk2: u32,
    unk3: u32,
    unk4: u32,
    unk5: u32,
    unk6: u32)

  /** The HeaderType byte; for type 5 the name and Type; for type 6 also
      five more words; for any other type nothing more. */
  function EncodeEntityHead(e: EntityHead): (r: Result<seq<byte>>)
    ensures r.Ok? <==> (e.headerType == 5 || e.headerType == 6 ==> |e.name| < U32_LIMIT)
    ensures r.Ok? ==>
      |r.value| == 1 + (if e.headerType == 5 then 8 + |e.name|
                        else if e.headerType == 6 then 28 + |e.name| else 0)
    ensures r.Ok? ==> r.value[0] == e.headerType
    ensures r.Ok? && (e.headerType == 5 || e.headerType == 6) ==>
      && r.value[1..5] == EncodeU32(|e.name|, Big)
      && r.value[5..5 + |e.name|] == e.name
      && r.value[5 + |e.name|..9 + |e.name|] == EncodeU32(e.entityType, Big)
  {
    if e.headerType == 5 then
      var n :- PutStr(e.name);
      Ok([e.headerType] + n + EncodeU32(e.entityType, Big))
    else if e.headerType == 6 then
      var n :- PutStr(e.name);
      Ok([e.headerType] + n + EncodeU32(e.entityType, Big)
         + EncodeU32(e.unk2, Big) + EncodeU32(e.unk3, Big) + EncodeU32(e.unk4, Big)
         + EncodeU32(e.unk5, Big) + EncodeU32(e.unk6, Big))
    else Ok([e.headerType])
  }

  datatype BufferOut = BufferOut(flags: u32, vertices: seq<Vertex>)

  datatype FacesOut = FacesOut(trianglesType: u32, indexType: u32, faces: seq<Face>)

  /** The attributes the writer reads from the mesh object. unk2, unk3 and
      unk4 are assigned only by the reader, so an object built any other
      way may lack them. */
  datatype MeshOut = MeshOut(
    entity: EntityHead,
    entity3D: Entity3D.Attributes,
    geometry: GeometryOut,
    vertexBufferFlag: u32,
    unk2: Option<u32>,
    unk3: Option<Word>,
    unk4: Option<Word>,
    vertexBuffers: seq<BufferOut>,
    faceBuffer: FacesOut)

  function EncodeBuffers(bs: seq<BufferOut>): (r: Result<seq<byte>>)
    decreases |bs|
  {
    if |bs| == 0 then Ok([])
    else
      var first :- EncodeVertexBuffer(bs[0].flags, bs[0].vertices);
      var rest :- EncodeBuffers(bs[1..]);
      Ok(first + rest)
  }

  /** unk3 then unk4; reading a missing attribute raises. */
  function EncodeFloats(a: Option<Word>, b: Option<Word>): (r: Result<seq<byte>>)
    ensures r.Ok? <==> a.Some? && b.Some?
    ensures r.Ok? ==> r.value == a.value + b.value
  {
    if a.None? || b.None? then Err(MissingAttribute) else Ok(a.value + b.value)
  }

  /** Everything the writer emits after the base entity header, in the
      order it emits it. */
  function WriteContents(m: MeshOut): (r: Result<seq<byte>>)
  {
    var e3 :- Entity3D.WriteEntity3D(m.entity3D);
    var geo := EncodeGeometry(m.geometry);
    if m.unk2.None? then Err(MissingAttribute)
    else
      var words := EncodeU32(m.vertexBufferFlag, Big) + EncodeU32(m.unk2.value, Big);
      var floats :- if m.entity3D.meshType == 2 then EncodeFloats(m.unk3, m.unk4) else Ok([]);
      var vbs :- EncodeBuffers(m.vertexBuffers);
      var fb :- EncodeFaceBuffer(m.faceBuffer.trianglesType, m.faceBuffer.indexType, m.faceBuffer.faces);
      Ok(e3 + (geo + (words + (floats + (vbs + fb)))))
  }

  /** The mesh as the writer frames it: a big-endian word holding the
      body's size plus four, then the body. */
  function EncodeMesh(m: MeshOut): (r: Result<seq<byte>>)
    ensures r.Ok? <==>
      && EncodeEntityHead(m.entity).Ok?
      && WriteContents(m).Ok?
      && |EncodeEntityHead(m.entity).value| + |WriteContents(m).value| + 4 < U32_LIMIT
    ensures r.Ok? ==> |r.value| >= 5 && ValueU32(r.value[..4], Big) == |r.value|
    ensures r.Ok? ==> r.value[4] == m.entity.headerType
    ensures r.Ok? ==> r.value[4..] == EncodeEntityHead(m.entity).value + WriteContents(m).value
  {
    var head :- EncodeEntityHead(m.entity);
    var contents :- WriteContents(m);
    var body := head + contents;
    var size :- PutU32(|body| + 4, Big);
    Ok(size + body)
  }

  // ---------------------------------------------------------------
  // Writer then reader

  /** An instance's transformer, when the writer emits one, has the size
      the reader takes. */
  predicate TransformerSized(a: Entity3D.Attributes, tsize: nat)
  {
    Bit(a.flags1, Entity3D.INSTANCE) && a.transformer1.Some? ==> |a.transformer1.value| == tsize
  }

  /** The mesh objects whose contents the reader takes back apart: the
      Entity3D header reads back (see `Entity3D.WriterLayoutRoundTrip`),
      the geometry bit is set, the geometry has one transformer, there is
      one vertex buffer whose flags describe its vertices, and every face
      is a triangle. */
  predicate Readable(m: MeshOut, tsize: nat, sz: Sizes)
  {
    && m.entity3D.materialCount == |m.entity3D.materials|
    && Entity3D.UnreadWords(m.entity3D) == 0
    && TransformerSized(m.entity3D, tsize)
    && Bit(m.entity3D.flags1, Entity3D.GEOMETRY)
    && m.geometry.transformerCount == 1
    && SizedOut(m.geometry, sz)
    && |m.vertexBuffers| == 1
    && AllDescribed(m.vertexBuffers[0].flags, m.vertexBuffers[0].vertices)
    && forall f :: f in m.faceBuffer.faces ==> |f.indices| == 3
  }

  /** Writer then reader: the reader recovers the Entity3D header as the
      Entity3D reader sees it, the geometry with its one transformer, both
      words, the floats exactly for MeshType 2, the one vertex buffer's
      count, flags and records, and the face buffer, and it stops at the
      end of what was written. With one transformer the buffer-count rule
      asks for one buffer whatever the flag and the mesh type. */
  lemma {:induction false} MeshRoundTrip(m: MeshOut, tsize: nat, sz: Sizes, contents: seq<byte>, recs: seq<seq<Value>>, s: seq<byte>, p: nat)
    requires Readable(m, tsize, sz)
    requires WriteContents(m) == Ok(contents)
    requires WriterRecords(m.vertexBuffers[0].vertices) == Ok(recs)
    requires At(s, p, contents)
    ensures DecodeMesh(s, p, tsize, sz).Ok?
    ensures var r := DecodeMesh(s, p, tsize, sz).value;
      && r.next == p + |contents|
      && r.value.entity3D == Entity3D.AsRead(m.entity3D)
      && r.value.animFrame.None?
      && r.value.body.Some?
      && var b := r.value.body.value;
      && b.geometry == Geometry(1, [m.geometry.unk], [m.geometry.local], [m.geometry.world], [m.geometry.box])
      && b.vertexBufferFlag == m.vertexBufferFlag
      && Some(b.unk2) == m.unk2
      && (b.floats.Some? <==> m.entity3D.meshType == 2)
      && (b.floats.Some? ==> Some(b.floats.value.0) == m.unk3 && Some(b.floats.value.1) == m.unk4)
      && |b.vertexBuffers| == 1
      && b.vertexBuffers[0].vertexCount == |m.vertexBuffers[0].vertices|
      && b.vertexBuffers[0].flags == m.vertexBuffers[0].flags
      && b.vertexBuffers[0].vertices == recs
      && b.faceBuffer == FaceBuffer(|m.faceBuffer.faces|, m.faceBuffer.trianglesType,
                                    m.faceBuffer.indexType, m.faceBuffer.faces)
  {
    hide WriteContents, DecodeMesh, DecodeBody, Entity3D.WriteEntity3D, Entity3D.DecodeEntity3D;
    var a := m.entity3D;
    var e3, geo, words, floats, vbs, fb := ContentsParts(m, contents);
    var rest := geo + (words + (floats + (vbs + fb)));
    AtSplit(s, p, e3, rest);
    Entity3D.WriterLayoutRoundTrip(a, tsize, e3, s, p);
    var h := Entity3D.AsRead(a);
    assert h.tail.meshType == a.meshType;
    var body := BodyBack(m, tsize, sz, recs, geo, words, floats, vbs, fb, s, p + |e3|);
    assert !Bit(a.flags1, Entity3D.ANIM_FRAME);
    MeshSteps(s, p, tsize, sz, h, p + |e3|, body, p + |contents|);
  }

  /** The part after the Entity3D header reads back field for field. */
  lemma {:induction false} BodyBack(m: MeshOut, tsize: nat, sz: Sizes, recs: seq<seq<Value>>,
                                    geo: seq<byte>, words: seq<byte>, floats: seq<byte>, vbs: seq<byte>, fb: seq<byte>,
                                    s: seq<byte>, q: nat)
    returns (body: Body)
    requires Readable(m, tsize, sz)
    requires WriterRecords(m.vertexBuffers[0].vertices) == Ok(recs)
    requires geo == EncodeGeometry(m.geometry)
    requires m.unk2.Some? && words == EncodeU32(m.vertexBufferFlag, Big) + EncodeU32(m.unk2.value, Big)
    requires (if m.entity3D.meshType == 2 then EncodeFloats(m.unk3, m.unk4) else Ok([])) == Ok(floats)
    requires EncodeBuffers(m.vertexBuffers) == Ok(vbs)
    requires EncodeFaceBuffer(m.faceBuffer.trianglesType, m.faceBuffer.indexType, m.faceBuffer.faces) == Ok(fb)
    requires At(s, q, geo + (words + (floats + (vbs + fb))))
    ensures DecodeBody(s, q, m.entity3D.meshType, sz) == Ok(Read(body, q + |geo + (words + (floats + (vbs + fb)))|))
    ensures body.geometry == Geometry(1, [m.geometry.unk], [m.geometry.local], [m.geometry.world], [m.geometry.box])
    ensures body.vertexBufferFlag == m.vertexBufferFlag && Some(body.unk2) == m.unk2
    ensures body.floats.Some? <==> m.entity3D.meshType == 2
    ensures body.floats.Some? ==> Some(body.floats.value.0) == m.unk3 && Some(body.floats.value.1) == m.unk4
    ensures |body.vertexBuffers| == 1
    ensures body.vertexBuffers[0].vertexCount == |m.vertexBuffers[0].vertices|
    ensures body.vertexBuffers[0].flags == m.vertexBuffers[0].flags
    ensures body.vertexBuffers[0].vertices == recs
    ensures body.faceBuffer == FaceBuffer(|m.faceBuffer.faces|, m.faceBuffer.trianglesType,
                                          m.faceBuffer.indexType, m.faceBuffer.faces)
  {
    hide DecodeBody, DecodeGeometry, EncodeGeometry, ReadFloats, ReadBuffers, DecodeFaceBuffer, EncodeBuffers, EncodeFaceBuffer, At, EncodeU32;
    var q2 := q + |geo|;
    var q3 := q2 + 8;
    var q4 := q3 + |floats|;
    var q5 := q4 + |vbs|;
    AtSplit(s, q, geo, words + (floats + (vbs + fb)));
    AtSplit(s, q2, words, floats + (vbs + fb));
    AtSplit(s, q3, floats, vbs + fb);
    AtSplit(s, q4, vbs, fb);
    GeometryRoundTrip(m.geometry, sz, s, q);
    var g := Geometry(1, [m.geometry.unk], [m.geometry.local], [m.geometry.world], [m.geometry.box]);
    assert EncodeU32(m.vertexBufferFlag, Big) + EncodeU32(m.unk2.value, Big) + [] == words;
    ReadTwoU32(s, q2, m.vertexBufferFlag, m.unk2.value, Big, []);
    var fl := FloatsBack(s, q3, m.entity3D.meshType == 2, m.unk3, m.unk4, floats);
    var vb := OneBufferBack(s, q4, m.vertexBuffers, vbs, recs);
    FaceBufferRoundTrip(m.faceBuffer.trianglesType, m.faceBuffer.indexType, m.faceBuffer.faces, fb, s, q5);
    var faces := FaceBuffer(|m.faceBuffer.faces|, m.faceBuffer.trianglesType, m.faceBuffer.indexType, m.faceBuffer.faces);
    assert BufferCount(m.entity3D.meshType, m.vertexBufferFlag, 1) == 1;
    body := Body(g, m.vertexBufferFlag, m.unk2.value, fl, [vb], faces);
    BodySteps(s, q, m.entity3D.meshType, sz, g, q2, m.vertexBufferFlag, m.unk2.value, fl, q4, [vb], q5, faces,
              q + |geo + (words + (floats + (vbs + fb)))|);
  }

  /** The writer's contents in the order it emits them. */
  lemma {:induction false} ContentsParts(m: MeshOut, contents: seq<byte>)
    returns (e3: seq<byte>, geo: seq<byte>, words: seq<byte>, floats: seq<byte>, vbs: seq<byte>, fb: seq<byte>)
    requires WriteContents(m) == Ok(contents)
    ensures Entity3D.WriteEntity3D(m.entity3D) == Ok(e3)
    ensures geo == EncodeGeometry(m.geometry)
    ensures m.unk2.Some? && words == EncodeU32(m.vertexBufferFlag, Big) + EncodeU32(m.unk2.value, Big)
    ensures (if m.entity3D.meshType == 2 then EncodeFloats(m.unk3, m.unk4) else Ok([])) == Ok(floats)
    ensures EncodeBuffers(m.vertexBuffers) == Ok(vbs)
    ensures EncodeFaceBuffer(m.faceBuffer.trianglesType, m.faceBuffer.indexType, m.faceBuffer.faces) == Ok(fb)
    ensures contents == e3 + (geo + (words + (floats + (vbs + fb))))
  {
    e3 := Entity3D.WriteEntity3D(m.entity3D).value;
    geo := EncodeGeometry(m.geometry);
    words := EncodeU32(m.vertexBufferFlag, Big) + EncodeU32(m.unk2.value, Big);
    floats := (if m.entity3D.meshType == 2 then EncodeFloats(m.unk3, m.unk4) else Ok([])).value;
    vbs := EncodeBuffers(m.vertexBuffers).value;
    fb := EncodeFaceBuffer(m.faceBuffer.trianglesType, m.faceBuffer.indexType, m.faceBuffer.faces).value;
  }

  /** The floats read back from where `EncodeFloats` put them, or nothing
      is read when they are absent. */
  lemma {:induction false} FloatsBack(s: seq<byte>, q: nat, present: bool, a: Option<Word>, b: Option<Word>, out: seq<byte>)
    returns (fl: Option<(Word, Word)>)
    requires (if present then EncodeFloats(a, b) else Ok([])) == Ok(out)
    requires At(s, q, out)
    ensures ReadFloats(s, q, present) == Ok(Read(fl, q + |out|))
    ensures fl.Some? <==> present
    ensures fl.Some? ==> Some(fl.value.0) == a && Some(fl.value.1) == b
  {
    if present {
      AtSplit(s, q, a.value, b.value);
      AtSlice(s, q, a.value);
      AtSlice(s, q + 4, b.value);
      fl := Some((a.value, b.value));
    } else {
      fl := None;
    }
  }

  /** A list of one written vertex buffer reads back as one buffer. */
  lemma {:induction false} OneBufferBack(s: seq<byte>, q: nat, bs: seq<BufferOut>, out: seq<byte>, recs: seq<seq<Value>>)
    returns (vb: VertexBuffer)
    requires |bs| == 1 && AllDescribed(bs[0].flags, bs[0].vertices)
    requires EncodeBuffers(bs) == Ok(out) && WriterRecords(bs[0].vertices) == Ok(recs)
    requires At(s, q, out)
    ensures ReadBuffers(s, q, 1) == Ok(Read([vb], q + |out|))
    ensures vb.vertexCount == |bs[0].vertices| && vb.flags == bs[0].flags && vb.vertices == recs
  {
    hide DecodeVertexBuffer, At, AllDescribed, WriterRecords;
    var one := EncodeVertexBuffer(bs[0].flags, bs[0].vertices).value;
    assert bs[1..] == [];
    assert EncodeBuffers(bs[1..]) == Ok([]);
    assert out == one + [] == one;
    VertexBufferBytes(bs[0].flags, bs[0].vertices, one);
    VertexBufferRoundTrip(bs[0].flags, bs[0].vertices, recs, one, s, q);
    vb := VertexBuffer(|bs[0].vertices|, bs[0].flags, recs);
    assert ReadBuffers(s, q + |out|, 0) == Ok(Read([], q + |out|));
    assert [vb] + [] == [vb];
  }

  lemma {:induction false} BodySteps(s: seq<byte>, p: nat, meshType: u32, sz: Sizes, g: Geometry, q2: nat, flag: u32, unk2: u32,
                                     fl: Option<(Word, Word)>, q: nat, vbs: seq<VertexBuffer>, q': nat, fb: FaceBuffer, next: nat)
    requires DecodeGeometry(s, p, sz) == Ok(Read(g, q2))
    requires ReadU32(s, q2, Big) == Ok(Read(flag, q2 + 4))
    requires ReadU32(s, q2 + 4, Big) == Ok(Read(unk2, q2 + 8))
    requires ReadFloats(s, q2 + 8, meshType == 2) == Ok(Read(fl, q))
    requires ReadBuffers(s, q, BufferCount(meshType, flag, g.transformerCount)) == Ok(Read(vbs, q'))
    requires DecodeFaceBuffer(s, q') == Ok(Read(fb, next))
    ensures DecodeBody(s, p, meshType, sz) == Ok(Read(Body(g, flag, unk2, fl, vbs, fb), next))
  {
  }

  lemma {:induction false} MeshSteps(s: seq<byte>, p: nat, tsize: nat, sz: Sizes, h: Entity3D.Header, q: nat, body: Body, next: nat)
    requires Entity3D.DecodeEntity3D(s, p, tsize) == Ok(Read(h, q))
    requires Bit(h.flags1, Entity3D.GEOMETRY) && !Bit(h.flags1, Entity3D.ANIM_FRAME)
    requires DecodeBody(s, q, h.tail.meshType, sz) == Ok(Read(body, next))
    ensures DecodeMesh(s, p, tsize, sz) == Ok(Read(MeshRead(h, Some(body), None, Bit(h.flags1, Entity3D.INSTANCE)), next))
  {
  }

  /** The writer emits the geometry whatever `flags1` says, but a reader
      that finds the geometry bit clear stops right after the Entity3D
      header: the geometry, the words and the buffers are left unread. */
  lemma {:induction false} GeometryBitClearStopsEarly(m: MeshOut, tsize: nat, contents: seq<byte>, s: seq<byte>, p: nat, sz: Sizes)
    requires m.entity3D.materialCount == |m.entity3D.materials|
    requires Entity3D.UnreadWords(m.entity3D) == 0
    requires TransformerSized(m.entity3D, tsize)
    requires !Bit(m.entity3D.flags1, Entity3D.GEOMETRY)
    requires WriteContents(m) == Ok(contents) && At(s, p, contents)
    ensures DecodeMesh(s, p, tsize, sz).Ok?
    ensures DecodeMesh(s, p, tsize, sz).value.value.body.None?
    ensures DecodeMesh(s, p, tsize, sz).value.next + 8 + 8 <= p + |contents|
  {
    var e3 := Entity3D.WriteEntity3D(m.entity3D).value;
    var rest := EncodeGeometry(m.geometry) + (EncodeU32(m.vertexBufferFlag, Big) + EncodeU32(m.unk2.value, Big)
      + ((if m.entity3D.meshType == 2 then EncodeFloats(m.unk3, m.unk4) else Ok([])).value
      + (EncodeBuffers(m.vertexBuffers).value
      + EncodeFaceBuffer(m.faceBuffer.trianglesType, m.faceBuffer.indexType, m.faceBuffer.faces).value)));
    assert contents == e3 + rest;
    AtSplit(s, p, e3, rest);
    Entity3D.WriterLayoutRoundTrip(m.entity3D, tsize, e3, s, p);
  }

  // ---------------------------------------------------------------
  // The mesh object the exporter builds (zwoExporter.py, make_mesh)

  /** The five words a type-6 base header carries after Type. zwoEntity,
      whose defaults supply them, is not part of this model. */
  datatype EntityWords = EntityWords(unk2: u32, unk3: u32, unk4: u32, unk5: u32, unk6: u32)

  /** `make_mesh`'s mesh object, as the exporter builds it, around the
      exported geometry `e`. `skinned` says whether an armature was given;
      the base header and the Entity3D header take the object's name and
      its material names. unk2, unk3 and unk4 are never assigned. */
  function ExporterMeshAsWritten(name: seq<byte>, materials: seq<seq<byte>>, skinned: bool, words: EntityWords,
                                 local: seq<byte>, world: seq<byte>, box: seq<byte>, e: Exporter.Exported): (m: MeshOut)
    requires |materials| < U32_LIMIT
    ensures m.unk2.None?
  {
    MeshOut(
      EntityHead(if skinned then 5 else 6, name, 5, words.unk2, words.unk3, words.unk4, words.unk5, words.unk6),
      Entity3D.Attributes(|materials|, materials, 1, 0, 0, 0, 0, None, None, 0, if skinned then 6 else 2, None, 0),
      GeometryOut(1, 1000, local, world, box),
      0,
      None, None, None,
      [BufferOut(e.flags, e.vertices)],
      FacesOut(1, 0, e.faces))
  }

  /** The same object with unk2, and unk3 and unk4 for MeshType 2, given
      the value zero, so that the writer finds every attribute it reads. */
  function ExporterMesh(name: seq<byte>, materials: seq<seq<byte>>, skinned: bool, words: EntityWords,
                        local: seq<byte>, world: seq<byte>, box: seq<byte>, e: Exporter.Exported): (m: MeshOut)
    requires |materials| < U32_LIMIT
    ensures m.unk2.Some? && m.unk3.Some? && m.unk4.Some?
    ensures m == ExporterMeshAsWritten(name, materials, skinned, words, local, world, box, e)
                  .(unk2 := Some(0), unk3 := Some(ZERO_WORD), unk4 := Some(ZERO_WORD))
  {
    MeshOut(
      EntityHead(if skinned then 5 else 6, name, 5, words.unk2, words.unk3, words.unk4, words.unk5, words.unk6),
      Entity3D.Attributes(|materials|, materials, 1, 0, 0, 0, 0, None, None, 0, if skinned then 6 else 2, None, 0),
      GeometryOut(1, 1000, local, world, box),
      0,
      Some(0), Some(ZERO_WORD), Some(ZERO_WORD),
      [BufferOut(e.flags, e.vertices)],
      FacesOut(1, 0, e.faces))
  }

  /** No mesh object the exporter builds can be written: the writer reads
      unk2, which nothing assigned. When the names fit their length words
      the error is that missing attribute. */
  lemma {:induction false} ExportedMeshUnwritable(name: seq<byte>, materials: seq<seq<byte>>, skinned: bool, words: EntityWords,
                                                  local: seq<byte>, world: seq<byte>, box: seq<byte>, e: Exporter.Exported)
    requires |materials| < U32_LIMIT
    ensures EncodeMesh(ExporterMeshAsWritten(name, materials, skinned, words, local, world, box, e)).Err?
    ensures |name| < U32_LIMIT && Entity3D.StrsFit(materials) ==>
      EncodeMesh(ExporterMeshAsWritten(name, materials, skinned, words, local, world, box, e)) == Err(MissingAttribute)
  {
    var m := ExporterMeshAsWritten(name, materials, skinned, words, local, world, box, e);
    FlagsOfOne();
    if |name| < U32_LIMIT && Entity3D.StrsFit(materials) {
      Entity3D.EncodeStrsOk(materials);
      assert Entity3D.WriteEntity3D(m.entity3D).Ok?;
      assert WriteContents(m) == Err(MissingAttribute);
    }
  }

  /** The gate bits of the exporter's flag words: `flags1` is 1 and
      `flags2` is 0. */
  lemma {:induction false} FlagsOfOne()
    ensures Bit(1, Entity3D.GEOMETRY)
    ensures !Bit(1, Entity3D.INSTANCE) && !Bit(1, Entity3D.PARENT_SIBLING)
    ensures !Bit(1, Entity3D.EXTRA_INT) && !Bit(1, Entity3D.ANIM_FRAME)
    ensures !Bit(0, Entity3D.DISABLE_SOMETHING) && !Bit(0, Entity3D.ENABLE_SOMETHING)
  {
  }

  /** The exporter's mesh, once written, frames itself with its own length
      and opens with HeaderType 5 for a skinned mesh and 6 otherwise, then
      the object's name and entity Type 5. */
  lemma {:induction false} ExportedMeshHeader(name: seq<byte>, materials: seq<seq<byte>>, skinned: bool, words: EntityWords,
                                              local: seq<byte>, world: seq<byte>, box: seq<byte>, e: Exporter.Exported, out: seq<byte>)
    requires |materials| < U32_LIMIT
    requires EncodeMesh(ExporterMesh(name, materials, skinned, words, local, world, box, e)) == Ok(out)
    ensures |out| >= 13 + |name| && ValueU32(out[..4], Big) == |out|
    ensures out[4] == if skinned then 5 else 6
    ensures out[5..9] == EncodeU32(|name|, Big) && out[9..9 + |name|] == name
    ensures out[9 + |name|..13 + |name|] == EncodeU32(5, Big)
  {
    var m := ExporterMesh(name, materials, skinned, words, local, world, box, e);
    var head := EncodeEntityHead(m.entity).value;
    var body := out[4..];
    assert body == head + WriteContents(m).value;
    assert body[1..5] == head[1..5];
    assert body[5..5 + |name|] == head[5..5 + |name|];
    assert body[5 + |name|..9 + |name|] == head[5 + |name|..9 + |name|];
  }

  /** What the writer needs of an exported geometry: the flags the
      exporter derives, flags that describe every vertex, and three-index
      faces. */
  predicate ExportedShape(e: Exporter.Exported, skinned: bool)
  {
    && e.flags == (if skinned then 0x78B else 0xB)
    && AllDescribed(e.flags, e.vertices)
    && forall f :: f in e.faces ==> |f.indices| == 3
  }

  /** Geometry exported from triangles has that shape. */
  lemma {:induction false} ExportedTriangles(ts: seq<Exporter.Triangle<Exporter.Corner>>, hasUvLayer: bool,
                                             skin: Option<seq<seq<char>>>, crc: Exporter.VertexKey -> u32,
                                             toFloat: real -> Word, e: Exporter.Exported)
    requires Exporter.ExportGeometry(ts, hasUvLayer, skin, crc, toFloat) == Ok(e)
    requires forall t :: 0 <= t < |ts| ==> |ts[t].corners| == 3
    ensures ExportedShape(e, skin.Some?)
  {
    forall f | f in e.faces
      ensures |f.indices| == 3
    {
      var t :| 0 <= t < |e.faces| && e.faces[t] == f;
    }
  }

  /** The exporter's mesh, with the missing attributes supplied, reads back:
      flags1 1 with the material names, MeshType 6 for a skinned mesh and 2
      otherwise, one transformer whose unknown word is 1000, one vertex
      buffer holding every exported vertex with the exported flags, and the
      exported faces with TrianglesType 1 and IndexType 0. */
  lemma {:induction false} ExportedMeshReadsBack(e: Exporter.Exported, skinned: bool,
                                                 name: seq<byte>, materials: seq<seq<byte>>, words: EntityWords,
                                                 local: seq<byte>, world: seq<byte>, box: seq<byte>,
                                                 tsize: nat, sz: Sizes, contents: seq<byte>, s: seq<byte>, p: nat)
    requires ExportedShape(e, skinned)
    requires |local| == sz.transformer && |world| == sz.transformer && |box| == sz.obb
    requires |materials| < U32_LIMIT
    requires WriteContents(ExporterMesh(name, materials, skinned, words, local, world, box, e)) == Ok(contents)
    requires At(s, p, contents)
    ensures DecodeMesh(s, p, tsize, sz).Ok?
    ensures var r := DecodeMesh(s, p, tsize, sz).value;
      && r.next == p + |contents|
      && r.value.entity3D.flags1 == 1
      && r.value.entity3D.materials == materials
      && r.value.entity3D.tail.meshType == (if skinned then 6 else 2)
      && r.value.body.Some?
      && var b := r.value.body.value;
      && b.geometry == Geometry(1, [1000], [local], [world], [box])
      && (b.floats.Some? <==> !skinned)
      && |b.vertexBuffers| == 1
      && b.vertexBuffers[0].vertexCount == |e.vertices|
      && b.vertexBuffers[0].flags == (if skinned then 0x78B else 0xB)
      && WriterRecords(e.vertices) == Ok(b.vertexBuffers[0].vertices)
      && b.faceBuffer == FaceBuffer(|e.faces|, 1, 0, e.faces)
  {
    var m := ExporterMesh(name, materials, skinned, words, local, world, box, e);
    FlagsOfOne();
    var e3, geo, ws, floats, vbs, fb := ContentsParts(m, contents);
    var one := EncodeVertexBuffer(e.flags, e.vertices).value;
    VertexBufferBytes(e.flags, e.vertices, one);
    var recs := WriterRecords(e.vertices).value;
    assert Readable(m, tsize, sz);
    MeshRoundTrip(m, tsize, sz, contents, recs, s, p);
  }
}

=== FILE: mesh_buffers.dfy ===
/** Vertex buffers, face buffers and the geometry block of a mesh
    (zwoLib/zwo/zwoMesh.py: VertexBuffer, FaceBuffer, zwoGeometry).
    The model container is big-endian throughout. */
module MeshBuffers {
  import opened Bytes
  import opened VertexLayout

  // ---------------------------------------------------------------
  // Field values

  type Vec3 = v: seq<Word> | |v| == 3 witness [ZERO_WORD, ZERO_WORD, ZERO_WORD]
  type Vec2 = v: seq<Word> | |v| == 2 witness [ZERO_WORD, ZERO_WORD]
  type Rgba = c: seq<byte> | |c| == 4 witness [0, 0, 0, 0]

  /** One field of one decoded vertex record. */
  datatype Value = Floats(ws: seq<Word>) | Color(rgba: seq<byte>) | Index(n: u32)

  predicate Fits(f: Field, v: Value)
  {
    match f
    case Position => v.Floats? && |v.ws| == 3
    case Normal => v.Floats? && |v.ws| == 3
    case Color0 => v.Color? && |v.rgba| == 4
    case Color1 => v.Color? && |v.rgba| == 4
    case Uv(_) => v.Floats? && |v.ws| == 2
    case BoneIndex(_) => v.Index?
    case BoneWeight(_) => v.Floats? && |v.ws| == 1
  }

  /** A record agrees field by field with a layout. */
  predicate Conforms(rec: seq<Value>, layout: seq<Field>)
  {
    |rec| == |layout| && forall i :: 0 <= i < |rec| ==> Fits(layout[i], rec[i])
  }

  /** Every record agrees with the layout. */
  predicate AllConform(recs: seq<seq<Value>>, layout: seq<Field>)
  {
    forall i :: 0 <= i < |recs| ==> Conforms(recs[i], layout)
  }

  function Flatten(ws: seq<Word>): (r: seq<byte>)
    ensures |r| == 4 * |ws|
  {
    if |ws| == 0 then [] else ws[0] + Flatten(ws[1..])
  }

  function EncodeValue(v: Value): seq<byte>
  {
    match v
    case Floats(ws) => Flatten(ws)
    case Color(c) => c
    case Index(n) => EncodeU32(n, Big)
  }

  function EncodeValues(vs: seq<Value>): seq<byte>
  {
    if |vs| == 0 then [] else EncodeValue(vs[0]) + EncodeValues(vs[1..])
  }

  /** Decodes one field from exactly its bytes. */
  function ParseField(b: seq<byte>, f: Field): (v: Value)
    requires |b| == FieldSize(f)
    ensures Fits(f, v) && EncodeValue(v) == b
  {
    match f
    case Position => Floats3(b)
    case Normal => Floats3(b)
    case Color0 => Color(b)
    case Color1 => Color(b)
    case Uv(_) =>
      var ws := [b[..4], b[4..]];
      assert ws[1..] == [b[4..]] && ws[1..][1..] == [];
      assert Flatten(ws[1..][1..]) == [];
      assert Flatten(ws[1..]) == b[4..] + [] == b[4..];
      assert b == b[..4] + b[4..];
      Floats(ws)
    case BoneIndex(_) =>
      U32Inverse(b, Big);
      Index(ValueU32(b, Big))
    case BoneWeight(_) =>
      assert [b][1..] == [];
      Floats([b])
  }

  function Floats3(b: seq<byte>): (v: Value)
    requires |b| == 12
    ensures v.Floats? && |v.ws| == 3 && Flatten(v.ws) == b
  {
    var ws := [b[..4], b[4..8], b[8..]];
    assert ws[1..] == [b[4..8], b[8..]] && ws[1..][1..] == [b[8..]] && ws[1..][1..][1..] == [];
    assert Flatten(ws[1..][1..]) == b[8..];
    assert Flatten(ws[1..]) == b[4..8] + b[8..];
    assert b == b[..4] + (b[4..8] + b[8..]);
    Floats(ws)
  }

  /** Decodes one vertex record laid out by `layout`. */
  function ParseRecord(b: seq<byte>, layout: seq<Field>): (rec: seq<Value>)
    requires |b| == SizeOf(layout)
    ensures Conforms(rec, layout)
    ensures EncodeValues(rec) == b
  {
    if |layout| == 0 then []
    else
      var n := FieldSize(layout[0]);
      var rec := [ParseField(b[..n], layout[0])] + ParseRecord(b[n..], layout[1..]);
      assert rec[1..] == ParseRecord(b[n..], layout[1..]);
      assert b == b[..n] + b[n..];
      rec
  }

  function ParseRecords(b: seq<byte>, layout: seq<Field>, count: nat): (recs: seq<seq<Value>>)
    requires |b| == Blocks(count, SizeOf(layout))
    ensures |recs| == count
    ensures forall i :: 0 <= i < count ==> Conforms(recs[i], layout)
    decreases count
  {
    if count == 0 then []
    else
      var n := SizeOf(layout);
      var rest := ParseRecords(b[n..], layout, count - 1);
      var recs := [ParseRecord(b[..n], layout)] + rest;
      assert forall i :: 1 <= i < count ==> recs[i] == rest[i - 1];
      recs
  }

  lemma {:induction false} EncodedSize(rec: seq<Value>, layout: seq<Field>)
    requires Conforms(rec, layout)
    ensures |EncodeValues(rec)| == SizeOf(layout)
  {
    if |rec| > 0 {
      assert Conforms(rec[1..], layout[1..]);
      EncodedSize(rec[1..], layout[1..]);
      assert Fits(layout[0], rec[0]);
    }
  }

  lemma {:induction false} FieldRoundTrip(v: Value, f: Field)
    requires Fits(f, v)
    ensures |EncodeValue(v)| == FieldSize(f)
    ensures ParseField(EncodeValue(v), f) == v
  {
    match f
    case BoneIndex(_) => U32RoundTrip(v.n, Big);
    case Position => Floats3Inverse(v.ws);
    case Normal => Floats3Inverse(v.ws);
    case Uv(_) =>
      FlattenParts(v.ws);
      var b := Flatten(v.ws);
      assert b[..4] == b[4 * 0..4 * 0 + 4] && b[4..] == b[4 * 1..4 * 1 + 4];
    case BoneWeight(_) => FlattenParts(v.ws);
    case Color0 =>
    case Color1 =>
  }

  lemma {:induction false} Floats3Inverse(ws: seq<Word>)
    requires |ws| == 3
    ensures Floats3(Flatten(ws)) == Floats(ws)
  {
    FlattenParts(ws);
    var b := Flatten(ws);
    assert b[..4] == b[4 * 0..4 * 0 + 4];
    assert b[4..8] == b[4 * 1..4 * 1 + 4];
    assert b[8..] == b[4 * 2..4 * 2 + 4];
  }

  /** The words of a flattened sequence are its 4-byte slices. */
  lemma {:induction false} FlattenParts(ws: seq<Word>)
    ensures forall i :: 0 <= i < |ws| ==> Flatten(ws)[4 * i..4 * i + 4] == ws[i]
  {
    if |ws| > 0 {
      FlattenParts(ws[1..]);
      assert Flatten(ws) == ws[0] + Flatten(ws[1..]);
      forall i | 1 <= i < |ws|
        ensures Flatten(ws)[4 * i..4 * i + 4] == ws[i]
      {
        assert Flatten(ws)[4 * i..4 * i + 4] == Flatten(ws[1..])[4 * (i - 1)..4 * (i - 1) + 4];
      }
    }
  }

  /** Decoding the encoding of a conforming record gives the record back. */
  lemma {:induction false} RecordRoundTrip(rec: seq<Value>, layout: seq<Field>)
    requires Conforms(rec, layout)
    ensures |EncodeValues(rec)| == SizeOf(layout)
    ensures ParseRecord(EncodeValues(rec), layout) == rec
  {
    EncodedSize(rec, layout);
    if |rec| > 0 {
      assert Conforms(rec[1..], layout[1..]);
      FieldRoundTrip(rec[0], layout[0]);
      RecordRoundTrip(rec[1..], layout[1..]);
      var b := EncodeValues(rec);
      var n := FieldSize(layout[0]);
      assert b[..n] == EncodeValue(rec[0]);
      assert b[n..] == EncodeValues(rec[1..]);
    }
  }

  function EncodeRecords(recs: seq<seq<Value>>): seq<byte>
  {
    if |recs| == 0 then [] else EncodeValues(recs[0]) + EncodeRecords(recs[1..])
  }

  lemma {:induction false} RecordsLength(recs: seq<seq<Value>>, layout: seq<Field>)
    requires forall i :: 0 <= i < |recs| ==> Conforms(recs[i], layout)
    ensures |EncodeRecords(recs)| == Blocks(|recs|, SizeOf(layout))
  {
    if |recs| > 0 {
      EncodedSize(recs[0], layout);
      RecordsLength(recs[1..], layout);
    }
  }

  lemma {:induction false} RecordsRoundTrip(recs: seq<seq<Value>>, layout: seq<Field>)
    requires forall i :: 0 <= i < |recs| ==> Conforms(recs[i], layout)
    ensures |EncodeRecords(recs)| == Blocks(|recs|, SizeOf(layout))
    ensures ParseRecords(EncodeRecords(recs), layout, |recs|) == recs
  {
    RecordsLength(recs, layout);
    if |recs| > 0 {
      RecordRoundTrip(recs[0], layout);
      RecordsRoundTrip(recs[1..], layout);
      var b := EncodeRecords(recs);
      var n := SizeOf(layout);
      assert b[..n] == EncodeValues(recs[0]);
      assert b[n..] == EncodeRecords(recs[1..]);
      assert ParseRecords(b, layout, |recs|) == [ParseRecord(b[..n], layout)] + ParseRecords(b[n..], layout, |recs| - 1);
    }
  }

  // ---------------------------------------------------------------
  // Vertex buffer: reader

  datatype VertexBuffer = VertexBuffer(vertexCount: u32, flags: u32, vertices: seq<seq<Value>>)

  /** `count` records of `layout`, read as one block of count * stride bytes. */
  function ReadRecords(s: seq<byte>, pos: nat, count: nat, layout: seq<Field>): (r: Result<Read<seq<seq<Value>>>>)
    ensures r.Ok? ==>
      && |r.value.value| == count
      && forall i :: 0 <= i < count ==> Conforms(r.value.value[i], layout)
  {
    var body :- ReadBytes(s, pos, Blocks(count, SizeOf(layout)));
    Ok(Read(ParseRecords(body.value, layout, count), body.next))
  }

  /** The block read fails exactly when the stream ends before it, and
      otherwise stops right after it. */
  lemma {:induction false} ReadRecordsExtent(s: seq<byte>, pos: nat, count: nat, layout: seq<Field>)
    ensures ReadRecords(s, pos, count, layout).Ok? <==> pos + Blocks(count, SizeOf(layout)) <= |s|
    ensures ReadRecords(s, pos, count, layout).Ok? ==>
      ReadRecords(s, pos, count, layout).value.next == pos + Blocks(count, SizeOf(layout))
  {
  }

  lemma {:induction false} ReadRecordsAt(s: seq<byte>, pos: nat, n: nat, recs: seq<seq<Value>>, layout: seq<Field>, next: nat)
    requires n == |recs| && AllConform(recs, layout)
    requires At(s, pos, EncodeRecords(recs)) && next == pos + |EncodeRecords(recs)|
    ensures ReadRecords(s, pos, n, layout) == Ok(Read(recs, next))
  {
    RecordsRoundTrip(recs, layout);
    ReadBytesAt(s, pos, EncodeRecords(recs));
  }

  /** VertexCount, VertexFlags, then VertexCount records of the layout the
      flags select, read as one block of VertexCount * stride bytes (the
      stride is `SizeOf(Layout(flags))`, which `StrideFormula` equates with
      `VertexSize(flags)`). */
  function DecodeVertexBuffer(s: seq<byte>, pos: nat): (r: Result<Read<VertexBuffer>>)
    ensures r.Ok? ==> |r.value.value.vertices| == r.value.value.vertexCount
  {
    var count :- ReadU32(s, pos, Big);
    var flags :- ReadU32(s, count.next, Big);
    var recs :- ReadRecords(s, flags.next, count.value, Layout(flags.value));
    Ok(Read(VertexBuffer(count.value, flags.value, recs.value), recs.next))
  }

  /** Every record the reader returns has exactly the fields the flags select. */
  lemma {:induction false} DecodedRecordsConform(s: seq<byte>, pos: nat)
    requires DecodeVertexBuffer(s, pos).Ok?
    ensures var vb := DecodeVertexBuffer(s, pos).value.value;
      forall i :: 0 <= i < |vb.vertices| ==> Conforms(vb.vertices[i], Layout(vb.flags))
  {
  }

  /** The reader fails exactly when the stream ends before the two header
      words or before the VertexCount records they announce; it consumes
      the header and VertexCount strides. */
  lemma {:induction false} VertexBufferExtent(s: seq<byte>, pos: nat)
    ensures DecodeVertexBuffer(s, pos).Ok? <==>
      pos + 8 <= |s| &&
      pos + 8 + ValueU32(s[pos..pos + 4], Big) * SizeOf(Layout(ValueU32(s[pos + 4..pos + 8], Big))) <= |s|
    ensures DecodeVertexBuffer(s, pos).Ok? ==>
      var r := DecodeVertexBuffer(s, pos).value;
      r.next == pos + 8 + r.value.vertexCount * SizeOf(Layout(r.value.flags))
  {
    if pos + 8 <= |s| {
      var count := ReadU32(s, pos, Big).value.value;
      var flags := ReadU32(s, pos + 4, Big).value.value;
      U32RoundTrip(count, Big);
      U32RoundTrip(flags, Big);
      ReadRecordsExtent(s, pos + 8, count, Layout(flags));
      BlocksProduct(count, SizeOf(Layout(flags)));
    }
  }

  // ---------------------------------------------------------------
  // Vertex buffer: writer

  /** The in-memory vertex the writer serialises (zwoMesh.py Vertex). */
  datatype Vertex = Vertex(
    position: Vec3,
    normal: Vec3,
    colors: seq<Rgba>,
    uvs: seq<Vec2>,
    boneIndices: seq<nat>,
    boneWeights: seq<Word>)

  /** The (index, weight) pairs the writer emits, one per bone index; a
      missing weight or an index past 32 bits stops the write. */
  function BoneValues(indices: seq<nat>, weights: seq<Word>): (r: Result<seq<Value>>)
    ensures r.Ok? ==> |r.value| == 2 * |indices|
  {
    if |indices| == 0 then Ok([])
    else if indices[0] >= U32_LIMIT then Err(OutOfRange)
    else if |weights| == 0 then Err(IndexError)
    else
      var rest :- BoneValues(indices[1..], weights[1..]);
      Ok([Index(indices[0]), Floats([weights[0]])] + rest)
  }

  /** The bone pairs are written exactly when every index has a weight and
      fits in 32 bits, and then the pairs alternate index and weight. */
  lemma {:induction false} BoneValuesPairs(indices: seq<nat>, weights: seq<Word>)
    ensures BoneValues(indices, weights).Ok?
        <==> |weights| >= |indices| && forall i :: 0 <= i < |indices| ==> indices[i] < U32_LIMIT
    ensures BoneValues(indices, weights).Ok? ==> forall i :: 0 <= i < |indices| ==>
      BoneValues(indices, weights).value[2 * i] == Index(indices[i])
      && BoneValues(indices, weights).value[2 * i + 1] == Floats([weights[i]])
  {
    if |indices| > 0 && |weights| > 0 {
      BoneValuesPairs(indices[1..], weights[1..]);
      assert forall i :: 1 <= i < |indices| ==> indices[1..][i - 1] == indices[i];
      assert forall i :: 1 <= i < |weights| ==> weights[1..][i - 1] == weights[i];
    }
  }

  function ColorValues(cs: seq<Rgba>): (r: seq<Value>)
    ensures |r| == |cs|
  {
    if |cs| == 0 then [] else [Color(cs[0])] + ColorValues(cs[1..])
  }

  lemma {:induction false} ColorValuesEach(cs: seq<Rgba>)
    ensures forall i :: 0 <= i < |cs| ==> ColorValues(cs)[i] == Color(cs[i])
  {
    if |cs| > 0 {
      ColorValuesEach(cs[1..]);
      assert forall i :: 1 <= i < |cs| ==> cs[1..][i - 1] == cs[i];
    }
  }

  function UvValues(uvs: seq<Vec2>): (r: seq<Value>)
    ensures |r| == |uvs|
  {
    if |uvs| == 0 then [] else [Floats(uvs[0])] + UvValues(uvs[1..])
  }

  lemma {:induction false} UvValuesEach(uvs: seq<Vec2>)
    ensures forall i :: 0 <= i < |uvs| ==> UvValues(uvs)[i] == Floats(uvs[i])
  {
    if |uvs| > 0 {
      UvValuesEach(uvs[1..]);
      assert forall i :: 1 <= i < |uvs| ==> uvs[1..][i - 1] == uvs[i];
    }
  }

  /** The values the writer emits for one vertex, in emission order:
      position and normal always, then every colour, every UV set and every
      (bone index, bone weight) pair, whatever the flags say. */
  function WriterValues(v: Vertex): Result<seq<Value>>
  {
    var bones :- BoneValues(v.boneIndices, v.boneWeights);
    Ok([Floats(v.position), Floats(v.normal)] + ColorValues(v.colors) + UvValues(v.uvs) + bones)
  }

  function EncodeVertex(v: Vertex): Result<seq<byte>>
  {
    var vals :- WriterValues(v);
    Ok(EncodeValues(vals))
  }

  /** Every vertex's values in order; the first vertex the writer cannot
      emit stops the write. */
  function WriterRecords(vs: seq<Vertex>): (r: Result<seq<seq<Value>>>)
    ensures r.Ok? ==> |r.value| == |vs|
  {
    if |vs| == 0 then Ok([])
    else
      var first :- WriterValues(vs[0]);
      var rest :- WriterRecords(vs[1..]);
      Ok([first] + rest)
  }

  /** The write succeeds exactly when the writer can emit every vertex. */
  lemma {:induction false} WriterRecordsOk(vs: seq<Vertex>)
    ensures WriterRecords(vs).Ok? <==> forall i :: 0 <= i < |vs| ==> WriterValues(vs[i]).Ok?
  {
    if |vs| > 0 {
      assert forall i :: 1 <= i < |vs| ==> vs[1..][i - 1] == vs[i];
      WriterRecordsOk(vs[1..]);
    }
  }

  /** The writer's record for each vertex is the values it emits for it. */
  lemma {:induction false} WriterRecordsElements(vs: seq<Vertex>)
    requires WriterRecords(vs).Ok?
    ensures forall i :: 0 <= i < |vs| ==> WriterValues(vs[i]) == Ok(WriterRecords(vs).value[i])
  {
    if |vs| > 0 {
      assert forall i :: 1 <= i < |vs| ==> vs[1..][i - 1] == vs[i];
      WriterRecordsElements(vs[1..]);
    }
  }

  /** len(Vertices), VertexFlags, then every vertex. */
  function EncodeVertexBuffer(flags: u32, vs: seq<Vertex>): Result<seq<byte>>
  {
    var count :- PutU32(|vs|, Big);
    var recs :- WriterRecords(vs);
    Ok(count + EncodeU32(flags, Big) + EncodeRecords(recs))
  }

  /** The reader's field for each value the writer emits. */
  function ColorFields(n: nat): (r: seq<Field>)
    ensures |r| == n && forall i :: 0 <= i < n ==> r[i] == (if i == 0 then Color0 else Color1)
  {
    if n == 0 then [] else ColorFields(n - 1) + [if n == 1 then Color0 else Color1]
  }

  function UvFields(n: nat): (r: seq<Field>)
    ensures |r| == n && forall i :: 0 <= i < n ==> r[i] == Uv(i)
  {
    if n == 0 then [] else UvFields(n - 1) + [Uv(n - 1)]
  }

  function BoneFields(n: nat): (r: seq<Field>)
    ensures |r| == 2 * n
    ensures forall i :: 0 <= i < n ==> r[2 * i] == BoneIndex(i) && r[2 * i + 1] == BoneWeight(i)
  {
    if n == 0 then [] else BoneFields(n - 1) + [BoneIndex(n - 1), BoneWeight(n - 1)]
  }

  function WriterFields(v: Vertex): seq<Field>
  {
    [Position, Normal] + ColorFields(|v.colors|) + UvFields(|v.uvs|) + BoneFields(|v.boneIndices|)
  }

  /** Bits 0x2 to 0x400 describe exactly the lists this vertex carries: one
      colour bit per colour, one UV bit per UV set and one bone bit per bone
      index, each group filled from its lowest bit. */
  predicate ListsMatch(b: FlagBits, v: Vertex)
  {
    && |v.colors| <= 2 && |v.uvs| <= 4 && |v.boneIndices| <= 4
    && (b[1] <==> |v.colors| >= 1) && (b[2] <==> |v.colors| >= 2)
    && (b[3] <==> |v.uvs| >= 1) && (b[4] <==> |v.uvs| >= 2)
    && (b[5] <==> |v.uvs| >= 3) && (b[6] <==> |v.uvs| >= 4)
    && (b[7] <==> |v.boneIndices| >= 1) && (b[8] <==> |v.boneIndices| >= 2)
    && (b[9] <==> |v.boneIndices| >= 3) && (b[10] <==> |v.boneIndices| >= 4)
  }

  /** The flags describe the vertex: bit 0x1 (normal) set and the other
      bits matching its lists. */
  predicate DescribesBits(b: FlagBits, v: Vertex)
  {
    b[0] && ListsMatch(b, v)
  }

  predicate Describes(flags: nat, v: Vertex)
  {
    DescribesBits(Bits(flags), v)
  }

  /** The flags describe every vertex of the list. */
  predicate AllDescribed(flags: nat, vs: seq<Vertex>)
  {
    |vs| == 0 || (Describes(flags, vs[0]) && AllDescribed(flags, vs[1..]))
  }

  lemma {:induction false} AllDescribedEach(flags: nat, vs: seq<Vertex>)
    ensures AllDescribed(flags, vs) <==> forall i :: 0 <= i < |vs| ==> Describes(flags, vs[i])
  {
    if |vs| > 0 {
      assert forall i :: 1 <= i < |vs| ==> vs[1..][i - 1] == vs[i];
      AllDescribedEach(flags, vs[1..]);
    }
  }

  lemma {:induction false} DescribedLayoutOf(b: FlagBits, v: Vertex)
    requires DescribesBits(b, v)
    ensures LayoutOf(b) == WriterFields(v)
  {
    ColorPartMatches(b, v);
    UvPartMatches(b, v);
    BonePartMatches(b, v);
    var c, u, o := ColorPart(b), UvPart(b), BonePart(b);
    assert [Position] + When(b[0], [Normal]) == [Position, Normal];
    assert LayoutOf(b) == [Position, Normal] + c + u + o;
  }

  lemma {:induction false} ColorPartMatches(b: FlagBits, v: Vertex)
    requires ListsMatch(b, v)
    ensures ColorPart(b) == ColorFields(|v.colors|)
  {
  }

  lemma {:induction false} UvPartMatches(b: FlagBits, v: Vertex)
    requires ListsMatch(b, v)
    ensures UvPart(b) == UvFields(|v.uvs|)
  {
    var n := |v.uvs|;
    if n == 0 {} else if n == 1 {} else if n == 2 {} else if n == 3 {} else {}
  }

  lemma {:induction false} BonePartMatches(b: FlagBits, v: Vertex)
    requires ListsMatch(b, v)
    ensures BonePart(b) == BoneFields(|v.boneIndices|)
  {
    var n := |v.boneIndices|;
    if n == 0 {} else if n == 1 {} else if n == 2 {} else if n == 3 {} else {}
  }

  lemma {:induction false} ConformsConcat(a: seq<Value>, fa: seq<Field>, b: seq<Value>, fb: seq<Field>)
    requires Conforms(a, fa) && Conforms(b, fb)
    ensures Conforms(a + b, fa + fb)
  {
    forall i | 0 <= i < |a + b|
      ensures Fits((fa + fb)[i], (a + b)[i])
    {
      if i >= |a| {
        assert (a + b)[i] == b[i - |a|] && (fa + fb)[i] == fb[i - |a|];
      }
    }
  }

  lemma {:induction false} BonesFit(indices: seq<nat>, weights: seq<Word>)
    requires BoneValues(indices, weights).Ok?
    ensures Conforms(BoneValues(indices, weights).value, BoneFields(|indices|))
  {
    var vals, fields := BoneValues(indices, weights).value, BoneFields(|indices|);
    BoneValuesPairs(indices, weights);
    forall i | 0 <= i < |vals|
      ensures Fits(fields[i], vals[i])
    {
      var k := i / 2;
      assert i == 2 * k || i == 2 * k + 1;
      assert k < |indices|;
      assert vals[2 * k] == Index(indices[k]) && vals[2 * k + 1] == Floats([weights[k]]);
      assert fields[2 * k] == BoneIndex(k) && fields[2 * k + 1] == BoneWeight(k);
    }
  }

  /** Each value the writer emits has the shape of the field it stands for. */
  lemma {:induction false} WriterValuesFit(v: Vertex)
    requires WriterValues(v).Ok?
    ensures Conforms(WriterValues(v).value, WriterFields(v))
  {
    var head: seq<Value> := [Floats(v.position), Floats(v.normal)];
    var c, u := ColorValues(v.colors), UvValues(v.uvs);
    var bones := BoneValues(v.boneIndices, v.boneWeights).value;
    BonesFit(v.boneIndices, v.boneWeights);
    ColorValuesEach(v.colors);
    UvValuesEach(v.uvs);
    assert Conforms(head, [Position, Normal]);
    ConformsConcat(head, [Position, Normal], c, ColorFields(|v.colors|));
    ConformsConcat(head + c, [Position, Normal] + ColorFields(|v.colors|), u, UvFields(|v.uvs|));
    ConformsConcat(head + c + u, [Position, Normal] + ColorFields(|v.colors|) + UvFields(|v.uvs|),
                   bones, BoneFields(|v.boneIndices|));
  }

  /** What the writer emits for a vertex conforms to the reader's layout
      whenever the flags describe the vertex. */
  lemma {:induction false} WriterConforms(flags: nat, v: Vertex)
    requires Describes(flags, v) && WriterValues(v).Ok?
    ensures Conforms(WriterValues(v).value, Layout(flags))
  {
    DescribedLayoutOf(Bits(flags), v);
    WriterValuesFit(v);
  }

  /** The record the writer emits is 24 bytes plus 4 per colour, 8 per UV
      set and 8 per bone pair, whatever the flags say. */
  lemma {:induction false} WriterRecordLength(v: Vertex, bytes: seq<byte>)
    requires EncodeVertex(v) == Ok(bytes)
    ensures |bytes| == 24 + 4 * |v.colors| + 8 * |v.uvs| + 8 * |v.boneIndices|
  {
    WriterValuesFit(v);
    EncodedSize(WriterValues(v).value, WriterFields(v));
    WriterFieldsSize(v);
  }

  /** When the flags describe the vertex its record is exactly the stride the
      reader computes from the flags. */
  lemma {:induction false} WriterRecordStride(flags: nat, v: Vertex, bytes: seq<byte>)
    requires Describes(flags, v) && EncodeVertex(v) == Ok(bytes)
    ensures |bytes| == VertexSize(flags)
  {
    WriterValuesFit(v);
    EncodedSize(WriterValues(v).value, WriterFields(v));
    DescribedLayoutOf(Bits(flags), v);
    StrideFormulaOf(Bits(flags));
  }

  /** When bit 0x1 is clear but the other bits match the vertex, the writer
      still emits the normal: the record is 12 bytes longer than the stride,
      so every following record is read out of step. */
  lemma {:induction false} WriterRecordNormalGap(flags: nat, v: Vertex, bytes: seq<byte>)
    requires !Bit(flags, 0x1) && ListsMatch(Bits(flags), v) && EncodeVertex(v) == Ok(bytes)
    ensures |bytes| == VertexSize(flags) + 12
  {
    var t := Bits(flags)[0 := true];
    NormalBitSet(Bits(flags), v);
    WriterValuesFit(v);
    EncodedSize(WriterValues(v).value, WriterFields(v));
    DescribedLayoutOf(t, v);
    StrideFormulaOf(t);
  }

  lemma {:induction false} NormalBitSet(b: FlagBits, v: Vertex)
    requires ListsMatch(b, v)
    ensures DescribesBits(b[0 := true], v)
    ensures VertexSizeOf(b[0 := true]) == VertexSizeOf(b) + (if b[0] then 0 else 12)
  {
  }

  lemma {:induction false} WriterFieldsSize(v: Vertex)
    ensures SizeOf(WriterFields(v)) == 24 + 4 * |v.colors| + 8 * |v.uvs| + 8 * |v.boneIndices|
  {
    var c, u, b := ColorFields(|v.colors|), UvFields(|v.uvs|), BoneFields(|v.boneIndices|);
    SizeOfConcat([Position, Normal] + c + u, b);
    SizeOfConcat([Position, Normal] + c, u);
    SizeOfConcat([Position, Normal], c);
    ColorFieldsSize(|v.colors|);
    UvFieldsSize(|v.uvs|);
    BoneFieldsSize(|v.boneIndices|);
  }

  lemma {:induction false} ColorFieldsSize(n: nat)
    ensures SizeOf(ColorFields(n)) == 4 * n
  {
    if n > 0 {
      ColorFieldsSize(n - 1);
      SizeOfConcat(ColorFields(n - 1), [if n == 1 then Color0 else Color1]);
    }
  }

  lemma {:induction false} UvFieldsSize(n: nat)
    ensures SizeOf(UvFields(n)) == 8 * n
  {
    if n > 0 {
      UvFieldsSize(n - 1);
      SizeOfConcat(UvFields(n - 1), [Uv(n - 1)]);
    }
  }

  lemma {:induction false} BoneFieldsSize(n: nat)
    ensures SizeOf(BoneFields(n)) == 8 * n
  {
    if n > 0 {
      BoneFieldsSize(n - 1);
      var pair := [BoneIndex(n - 1), BoneWeight(n - 1)];
      assert pair[1..] == [BoneWeight(n - 1)] && SizeOf(pair[1..]) == 4;
      SizeOfConcat(BoneFields(n - 1), pair);
    }
  }

  /** Every record the writer emits for vertices the flags describe
      conforms to the reader's layout. */
  lemma {:induction false} RecordsConform(flags: u32, vs: seq<Vertex>, recs: seq<seq<Value>>)
    requires AllDescribed(flags, vs)
    requires WriterRecords(vs) == Ok(recs)
    ensures AllConform(recs, Layout(flags))
  {
    AllDescribedEach(flags, vs);
    WriterRecordsElements(vs);
    forall i | 0 <= i < |vs|
      ensures Conforms(recs[i], Layout(flags))
    {
      WriterConforms(flags, vs[i]);
    }
  }

  /** One step of the reader, stated over the values each read returns. */
  lemma {:induction false} DecodeVertexBufferSteps(s: seq<byte>, p: nat, count: u32, flags: u32, layout: seq<Field>, recs: seq<seq<Value>>, next: nat)
    requires ReadU32(s, p, Big) == Ok(Read(count, p + 4))
    requires ReadU32(s, p + 4, Big) == Ok(Read(flags, p + 8))
    requires layout == Layout(flags)
    requires ReadRecords(s, p + 8, count, layout) == Ok(Read(recs, next))
    ensures DecodeVertexBuffer(s, p) == Ok(Read(VertexBuffer(count, flags, recs), next))
  {
  }

  /** Each read of the reader meets the word or block written at its place. */
  /** `bytes` is a vertex buffer header for `n` records and `flags`, then
      the records. */
  predicate Framed(n: nat, flags: u32, recs: seq<seq<Value>>, bytes: seq<byte>)
  {
    n == |recs| && n < U32_LIMIT && bytes == EncodeU32(n, Big) + EncodeU32(flags, Big) + EncodeRecords(recs)
  }

  /** Each read of the reader meets the word or block written at its place. */
  lemma {:induction false} RecordsAt(flags: u32, layout: seq<Field>, n: nat, recs: seq<seq<Value>>, bytes: seq<byte>, s: seq<byte>, p: nat)
    requires Framed(n, flags, recs, bytes) && AllConform(recs, layout) && At(s, p, bytes)
    ensures ReadU32(s, p, Big) == Ok(Read(n, p + 4))
    ensures ReadU32(s, p + 4, Big) == Ok(Read(flags, p + 8))
    ensures ReadRecords(s, p + 8, n, layout) == Ok(Read(recs, p + |bytes|))
  {
    ReadTwoU32(s, p, n, flags, Big, EncodeRecords(recs));
    ReadRecordsAt(s, p + 8, n, recs, layout, p + |bytes|);
  }

  /** The reader takes back any conforming records framed by their count
      and the flags, wherever they sit in the stream. */
  lemma {:induction false} RecordsDecode(flags: u32, layout: seq<Field>, n: u32, recs: seq<seq<Value>>, bytes: seq<byte>, s: seq<byte>, p: nat)
    requires layout == Layout(flags)
    requires Framed(n, flags, recs, bytes) && AllConform(recs, layout) && At(s, p, bytes)
    ensures DecodeVertexBuffer(s, p) == Ok(Read(VertexBuffer(n, flags, recs), p + |bytes|))
  {
    RecordsAt(flags, layout, n, recs, bytes, s, p);
    DecodeVertexBufferSteps(s, p, n, flags, layout, recs, p + |bytes|);
  }

  /** A written vertex buffer is the count, the flags and the writer's
      records; it is written only when the count fits in 32 bits. */
  lemma {:induction false} VertexBufferBytes(flags: u32, vs: seq<Vertex>, bytes: seq<byte>)
    requires EncodeVertexBuffer(flags, vs) == Ok(bytes)
    ensures WriterRecords(vs).Ok?
    ensures Framed(|vs|, flags, WriterRecords(vs).value, bytes)
  {
  }

  /** Writer then reader: when the flags describe every vertex, the reader
      recovers the vertex count, the flags and every value the writer emitted
      for every vertex (`recs`), and stops exactly at the end of the written
      buffer. */
  lemma {:induction false} VertexBufferRoundTrip(flags: u32, vs: seq<Vertex>, recs: seq<seq<Value>>, bytes: seq<byte>, s: seq<byte>, p: nat)
    requires AllDescribed(flags, vs)
    requires EncodeVertexBuffer(flags, vs) == Ok(bytes) && WriterRecords(vs) == Ok(recs)
    requires At(s, p, bytes)
    ensures DecodeVertexBuffer(s, p) == Ok(Read(VertexBuffer(|vs|, flags, recs), p + |bytes|))
  {
    VertexBufferBytes(flags, vs, bytes);
    RecordsConform(flags, vs, recs);
    RecordsDecode(flags, Layout(flags), |vs|, recs, bytes, s, p);
  }

  // ---------------------------------------------------------------
  // Face buffer

  datatype Face = Face(indices: seq<nat>, materialIndex: nat)

  datatype FaceBuffer = FaceBuffer(faceCount: u32, trianglesType: u32, indexType: u32, faces: seq<Face>)

  /** Bytes per index field: 32-bit when IndexType is 1, 16-bit otherwise. */
  function IndexWidth(indexType: nat): (w: nat)
    ensures w == 2 || w == 4
  {
    if indexType == 1 then 4 else 2
  }

  /** One past the largest value a field of width `w` holds. */
  function Limit(w: nat): nat
  {
    if w == 4 then U32_LIMIT else U16_LIMIT
  }

  function ParseIndex(b: seq<byte>, w: nat): nat
    requires w == 2 || w == 4
    requires |b| == w
  {
    if w == 4 then ValueU32(b, Big) else ValueU16(b, Big)
  }

  /** One face record: three indices and a material index, all of width `w`. */
  function ParseFace(b: seq<byte>, w: nat): (f: Face)
    requires w == 2 || w == 4
    requires |b| == 4 * w
    ensures |f.indices| == 3
  {
    Face([ParseIndex(b[..w], w), ParseIndex(b[w..2 * w], w), ParseIndex(b[2 * w..3 * w], w)],
         ParseIndex(b[3 * w..], w))
  }

  function ParseFaces(b: seq<byte>, w: nat, count: nat): (fs: seq<Face>)
    requires w == 2 || w == 4
    requires |b| == Blocks(count, 4 * w)
    ensures |fs| == count
    ensures forall f :: f in fs ==> |f.indices| == 3
    decreases count
  {
    if count == 0 then []
    else
      [ParseFace(b[..4 * w], w)] + ParseFaces(b[4 * w..], w, count - 1)
  }

  /** `count` face records of width `w`, read as one block. */
  function ReadFaces(s: seq<byte>, pos: nat, count: nat, w: nat): (r: Result<Read<seq<Face>>>)
    requires w == 2 || w == 4
    ensures r.Ok? <==> pos + Blocks(count, 4 * w) <= |s|
    ensures r.Ok? ==> r.value.next == pos + Blocks(count, 4 * w)
    ensures r.Ok? ==> |r.value.value| == count && forall f :: f in r.value.value ==> |f.indices| == 3
  {
    var body :- ReadBytes(s, pos, Blocks(count, 4 * w));
    Ok(Read(ParseFaces(body.value, w, count), body.next))
  }

  /** FaceCount, TrianglesType, IndexType, then FaceCount records of 16
      bytes (IndexType 1) or 8 bytes (any other IndexType). */
  function DecodeFaceBuffer(s: seq<byte>, pos: nat): (r: Result<Read<FaceBuffer>>)
    ensures r.Ok? ==>
      var fb := r.value.value;
      && |fb.faces| == fb.faceCount
      && forall f :: f in fb.faces ==> |f.indices| == 3
  {
    var count :- ReadU32(s, pos, Big);
    var tt :- ReadU32(s, count.next, Big);
    var it :- ReadU32(s, tt.next, Big);
    var faces :- ReadFaces(s, it.next, count.value, IndexWidth(it.value));
    Ok(Read(FaceBuffer(count.value, tt.value, it.value, faces.value), faces.next))
  }

  /** The reader fails exactly when the stream ends before the three header
      words or before the records they announce; it consumes 12 bytes plus
      16 (IndexType 1) or 8 per face. */
  lemma {:induction false} FaceBufferExtent(s: seq<byte>, pos: nat)
    ensures DecodeFaceBuffer(s, pos).Ok? <==>
      pos + 12 <= |s| &&
      pos + 12 + ValueU32(s[pos..pos + 4], Big) * (if ValueU32(s[pos + 8..pos + 12], Big) == 1 then 16 else 8) <= |s|
    ensures DecodeFaceBuffer(s, pos).Ok? ==>
      var fb := DecodeFaceBuffer(s, pos).value;
      fb.next == pos + 12 + fb.value.faceCount * (if fb.value.indexType == 1 then 16 else 8)
  {
    if pos + 12 <= |s| {
      var count := ReadU32(s, pos, Big).value.value;
      var it := ReadU32(s, pos + 8, Big).value.value;
      U32RoundTrip(count, Big);
      U32RoundTrip(it, Big);
      BlocksProduct(count, 4 * IndexWidth(it));
    }
  }

  function PutIndex(n: nat, w: nat): (r: Result<seq<byte>>)
    requires w == 2 || w == 4
    ensures r.Ok? <==> n < Limit(w)
    ensures r.Ok? ==> |r.value| == w && ParseIndex(r.value, w) == n
  {
    if w == 4 then PutU32(n, Big) else PutU16(n, Big)
  }

  /** Each number at width `w`, in order; the first that does not fit
      stops the write. */
  function PutIndices(ns: seq<nat>, w: nat): (r: Result<seq<byte>>)
    requires w == 2 || w == 4
    ensures r.Ok? ==> |r.value| == w * |ns|
  {
    if |ns| == 0 then Ok([])
    else
      var first :- PutIndex(ns[0], w);
      var rest :- PutIndices(ns[1..], w);
      Ok(first + rest)
  }

  /** The numbers are written exactly when each fits the width. */
  lemma {:induction false} PutIndicesOk(ns: seq<nat>, w: nat)
    requires w == 2 || w == 4
    ensures PutIndices(ns, w).Ok? <==> forall k :: k in ns ==> k < Limit(w)
  {
    if |ns| > 0 {
      PutIndicesOk(ns[1..], w);
      assert ns == [ns[0]] + ns[1..];
      assert PutIndices(ns, w).Ok? <==> PutIndex(ns[0], w).Ok? && PutIndices(ns[1..], w).Ok?;
      assert forall k :: k in ns <==> k == ns[0] || k in ns[1..];
      if PutIndices(ns, w).Ok? {
        assert forall k :: k in ns ==> k < Limit(w);
      } else if ns[0] < Limit(w) {
        assert !PutIndices(ns[1..], w).Ok?;
        var k :| k in ns[1..] && k >= Limit(w);
        assert k in ns;
      } else {
        assert ns[0] in ns;
      }
    }
  }

  /** A non-empty list is its first number, then the rest. */
  lemma {:induction false} PutIndicesCons(ns: seq<nat>, w: nat)
    requires w == 2 || w == 4
    requires |ns| > 0 && PutIndices(ns, w).Ok?
    ensures PutIndex(ns[0], w).Ok? && PutIndices(ns[1..], w).Ok?
    ensures PutIndices(ns, w).value == PutIndex(ns[0], w).value + PutIndices(ns[1..], w).value
  {
  }

  /** Every index and the material index fit the width. */
  predicate FaceFits(f: Face, w: nat)
  {
    (forall k :: k in f.indices ==> k < Limit(w)) && f.materialIndex < Limit(w)
  }

  /** A face record: every index of the face, then its material index. */
  function EncodeFace(f: Face, w: nat): (r: Result<seq<byte>>)
    requires w == 2 || w == 4
    ensures r.Ok? ==> |r.value| == w * (|f.indices| + 1)
  {
    PutIndices(f.indices + [f.materialIndex], w)
  }

  lemma {:induction false} EncodeFaceOk(f: Face, w: nat)
    requires w == 2 || w == 4
    ensures EncodeFace(f, w).Ok? <==> FaceFits(f, w)
  {
    var ns := f.indices + [f.materialIndex];
    PutIndicesOk(ns, w);
    assert f.materialIndex in ns;
    assert forall k :: k in f.indices ==> k in ns;
    assert forall k :: k in ns ==> k in f.indices || k == f.materialIndex;
  }

  /** Every face in order at the chosen width. */
  function EncodeFaces(fs: seq<Face>, w: nat): (r: Result<seq<byte>>)
    requires w == 2 || w == 4
  {
    if |fs| == 0 then Ok([])
    else
      var first :- EncodeFace(fs[0], w);
      var rest :- EncodeFaces(fs[1..], w);
      Ok(first + rest)
  }

  /** The faces are written exactly when every face fits the width. */
  lemma {:induction false} EncodeFacesOk(fs: seq<Face>, w: nat)
    requires w == 2 || w == 4
    ensures EncodeFaces(fs, w).Ok? <==> forall f :: f in fs ==> FaceFits(f, w)
  {
    if |fs| > 0 {
      EncodeFaceOk(fs[0], w);
      EncodeFacesOk(fs[1..], w);
      assert forall f :: f in fs <==> f == fs[0] || f in fs[1..];
    }
  }

  /** len(Faces), TrianglesType, IndexType, then the faces. */
  function EncodeFaceBuffer(trianglesType: u32, indexType: u32, fs: seq<Face>): Result<seq<byte>>
  {
    var count :- PutU32(|fs|, Big);
    var body :- EncodeFaces(fs, IndexWidth(indexType));
    Ok(count + EncodeU32(trianglesType, Big) + EncodeU32(indexType, Big) + body)
  }

  /** The buffer is written exactly when the face count fits in 32 bits and
      every face fits the width IndexType selects. */
  lemma {:induction false} FaceBufferWritable(tt: u32, it: u32, fs: seq<Face>)
    ensures EncodeFaceBuffer(tt, it, fs).Ok?
        <==> |fs| < U32_LIMIT && forall f :: f in fs ==> FaceFits(f, IndexWidth(it))
  {
    EncodeFacesOk(fs, IndexWidth(it));
  }

  /** A three-index face record reads back as the face. */
  lemma {:induction false} FaceRoundTrip(f: Face, w: nat, b: seq<byte>)
    requires w == 2 || w == 4
    requires |f.indices| == 3 && EncodeFace(f, w) == Ok(b)
    ensures |b| == 4 * w && ParseFace(b, w) == f
  {
    var ns := f.indices + [f.materialIndex];
    var t1 := ns[1..];
    var t2 := t1[1..];
    var t3 := t2[1..];
    PutIndicesCons(ns, w);
    PutIndicesCons(t1, w);
    PutIndicesCons(t2, w);
    PutIndicesCons(t3, w);
    assert t3[1..] == [];
    var x0, x1, x2, x3 := PutIndex(ns[0], w).value, PutIndex(t1[0], w).value,
                          PutIndex(t2[0], w).value, PutIndex(t3[0], w).value;
    assert b == x0 + (x1 + (x2 + x3));
    assert b[..w] == x0 && b[w..2 * w] == x1 && b[2 * w..3 * w] == x2 && b[3 * w..] == x3;
    assert f.indices == [ns[0], t1[0], t2[0]] && f.materialIndex == t3[0];
  }

  /** Three-index face records read back as the faces. */
  lemma {:induction false} FacesRoundTrip(fs: seq<Face>, w: nat, b: seq<byte>)
    requires w == 2 || w == 4
    requires forall f :: f in fs ==> |f.indices| == 3
    requires EncodeFaces(fs, w) == Ok(b)
    ensures |b| == Blocks(|fs|, 4 * w) && ParseFaces(b, w, |fs|) == fs
  {
    if |fs| > 0 {
      var first, rest := EncodeFacesCons(fs, w, b);
      FaceRoundTrip(fs[0], w, first);
      FacesRoundTrip(fs[1..], w, rest);
      ParseFacesCons(fs, w, b, first, rest);
    }
  }

  lemma {:induction false} ParseFacesCons(fs: seq<Face>, w: nat, b: seq<byte>, first: seq<byte>, rest: seq<byte>)
    requires w == 2 || w == 4
    requires |fs| > 0 && b == first + rest
    requires |first| == 4 * w && ParseFace(first, w) == fs[0]
    requires |rest| == Blocks(|fs| - 1, 4 * w) && ParseFaces(rest, w, |fs| - 1) == fs[1..]
    ensures |b| == Blocks(|fs|, 4 * w) && ParseFaces(b, w, |fs|) == fs
  {
    assert b[..4 * w] == first && b[4 * w..] == rest;
    assert fs == [fs[0]] + fs[1..];
  }

  lemma {:induction false} EncodeFacesCons(fs: seq<Face>, w: nat, b: seq<byte>) returns (first: seq<byte>, rest: seq<byte>)
    requires w == 2 || w == 4
    requires |fs| > 0 && EncodeFaces(fs, w) == Ok(b)
    ensures EncodeFace(fs[0], w) == Ok(first) && EncodeFaces(fs[1..], w) == Ok(rest)
    ensures b == first + rest
    ensures forall f :: f in fs[1..] ==> f in fs
  {
    first, rest := EncodeFace(fs[0], w).value, EncodeFaces(fs[1..], w).value;
  }

  lemma {:induction false} ReadFacesAt(s: seq<byte>, p: nat, n: nat, fs: seq<Face>, w: nat, b: seq<byte>, next: nat)
    requires w == 2 || w == 4
    requires n == |fs| && forall f :: f in fs ==> |f.indices| == 3
    requires EncodeFaces(fs, w) == Ok(b) && At(s, p, b) && next == p + |b|
    ensures ReadFaces(s, p, n, w) == Ok(Read(fs, next))
  {
    FacesRoundTrip(fs, w, b);
    ReadBytesAt(s, p, b);
  }

  lemma {:induction false} DecodeFaceBufferSteps(s: seq<byte>, p: nat, count: u32, tt: u32, it: u32, fs: seq<Face>, next: nat)
    requires ReadU32(s, p, Big) == Ok(Read(count, p + 4))
    requires ReadU32(s, p + 4, Big) == Ok(Read(tt, p + 8))
    requires ReadU32(s, p + 8, Big) == Ok(Read(it, p + 12))
    requires ReadFaces(s, p + 12, count, IndexWidth(it)) == Ok(Read(fs, next))
    ensures DecodeFaceBuffer(s, p) == Ok(Read(FaceBuffer(count, tt, it, fs), next))
  {
  }

  /** `bytes` is a face buffer header for `n` faces, then the faces. */
  predicate FacesFramed(n: nat, tt: u32, it: u32, fs: seq<Face>, bytes: seq<byte>)
  {
    && n == |fs| && n < U32_LIMIT
    && EncodeFaces(fs, IndexWidth(it)).Ok?
    && bytes == EncodeU32(n, Big) + EncodeU32(tt, Big) + EncodeU32(it, Big) + EncodeFaces(fs, IndexWidth(it)).value
  }

  lemma {:induction false} FaceBufferBytes(tt: u32, it: u32, fs: seq<Face>, bytes: seq<byte>)
    requires EncodeFaceBuffer(tt, it, fs) == Ok(bytes)
    ensures FacesFramed(|fs|, tt, it, fs, bytes)
  {
  }

  /** The written buffer is 12 bytes plus 16 (IndexType 1) or 8 per face. */
  lemma {:induction false} FaceBufferLength(tt: u32, it: u32, fs: seq<Face>, bytes: seq<byte>)
    requires forall f :: f in fs ==> |f.indices| == 3
    requires EncodeFaceBuffer(tt, it, fs) == Ok(bytes)
    ensures |bytes| == 12 + |fs| * (if it == 1 then 16 else 8)
  {
    FaceBufferBytes(tt, it, fs, bytes);
    FacesRoundTrip(fs, IndexWidth(it), EncodeFaces(fs, IndexWidth(it)).value);
    BlocksProduct(|fs|, 4 * IndexWidth(it));
  }

  lemma {:induction false} FacesDecode(tt: u32, it: u32, n: nat, fs: seq<Face>, bytes: seq<byte>, s: seq<byte>, p: nat)
    requires FacesFramed(n, tt, it, fs, bytes) && forall f :: f in fs ==> |f.indices| == 3
    requires At(s, p, bytes)
    ensures DecodeFaceBuffer(s, p) == Ok(Read(FaceBuffer(n, tt, it, fs), p + |bytes|))
  {
    var w := IndexWidth(it);
    var body := EncodeFaces(fs, w).value;
    ReadThreeU32(s, p, n, tt, it, Big, body);
    ReadFacesAt(s, p + 12, n, fs, w, body, p + |bytes|);
    DecodeFaceBufferSteps(s, p, n, tt, it, fs, p + |bytes|);
  }

  /** Writer then reader: the face list, counted by its own length, comes
      back unchanged whenever every face has three indices and the write
      succeeds, and the reader stops at the end of the written buffer. */
  lemma {:induction false} FaceBufferRoundTrip(tt: u32, it: u32, fs: seq<Face>, bytes: seq<byte>, s: seq<byte>, p: nat)
    requires forall f :: f in fs ==> |f.indices| == 3
    requires EncodeFaceBuffer(tt, it, fs) == Ok(bytes)
    requires At(s, p, bytes)
    ensures DecodeFaceBuffer(s, p) == Ok(Read(FaceBuffer(|fs|, tt, it, fs), p + |bytes|))
  {
    FaceBufferBytes(tt, it, fs, bytes);
    FacesDecode(tt, it, |fs|, fs, bytes, s, p);
  }

  // ---------------------------------------------------------------
  // Geometry

  /** Byte sizes of the helper records the codec treats as opaque blocks:
      a transformer (position, scale, rotation, matrix), an oriented bounding
      box, and the (vector, vector, quaternion) curve triple of animations. */
  datatype Sizes = Sizes(transformer: nat, obb: nat, curveTriple: nat)

  datatype Geometry = Geometry(
    transformerCount: u32,
    unk: seq<u32>,
    locals: seq<seq<byte>>,
    worlds: seq<seq<byte>>,
    boxes: seq<seq<byte>>)

  function ReadU32s(s: seq<byte>, pos: nat, n: nat): (r: Result<Read<seq<u32>>>)
    ensures pos <= |s| ==> (r.Ok? <==> pos + 4 * n <= |s|)
    ensures r.Ok? ==> |r.value.value| == n && r.value.next == pos + 4 * n
    decreases n
  {
    if n == 0 then Ok(Read([], pos))
    else
      var first :- ReadU32(s, pos, Big);
      var rest :- ReadU32s(s, first.next, n - 1);
      Ok(Read([first.value] + rest.value, rest.next))
  }

  datatype Slots = Slots(locals: seq<seq<byte>>, worlds: seq<seq<byte>>, boxes: seq<seq<byte>>)

  /** `n` (local transformer, world transformer, bounding box) triples. */
  /** One (local transformer, world transformer, bounding box) triple, as one
      pass of the reader's loop. */
  function ReadTriple(s: seq<byte>, pos: nat, sz: Sizes): (r: Result<Read<(seq<byte>, seq<byte>, seq<byte>)>>)
    ensures r.Ok? <==> pos + 2 * sz.transformer + sz.obb <= |s|
    ensures r.Ok? ==> r.value.next == pos + 2 * sz.transformer + sz.obb
  {
    var l :- ReadBytes(s, pos, sz.transformer);
    var w :- ReadBytes(s, l.next, sz.transformer);
    var o :- ReadBytes(s, w.next, sz.obb);
    Ok(Read((l.value, w.value, o.value), o.next))
  }

  /** `n` (local transformer, world transformer, bounding box) triples,
      back to back. */
  function ReadSlots(s: seq<byte>, pos: nat, n: nat, sz: Sizes): (r: Result<Read<Slots>>)
    ensures r.Ok? ==> |r.value.value.locals| == n && |r.value.value.worlds| == n && |r.value.value.boxes| == n
    decreases n
  {
    if n == 0 then Ok(Read(Slots([], [], []), pos))
    else JoinSlots(ReadTriple(s, pos, sz), ReadSlots(s, pos + 2 * sz.transformer + sz.obb, n - 1, sz))
  }

  /** The first triple in front of the rest; the first failing read decides. */
  function JoinSlots(first: Result<Read<(seq<byte>, seq<byte>, seq<byte>)>>, rest: Result<Read<Slots>>): (r: Result<Read<Slots>>)
    ensures r.Ok? <==> first.Ok? && rest.Ok?
    ensures r.Ok? ==> r.value.next == rest.value.next
    ensures r.Ok? ==> |r.value.value.locals| == |rest.value.value.locals| + 1
    ensures r.Ok? ==> |r.value.value.worlds| == |rest.value.value.worlds| + 1
    ensures r.Ok? ==> |r.value.value.boxes| == |rest.value.value.boxes| + 1
  {
    if first.Err? then Err(first.error)
    else if rest.Err? then rest
    else
      var (l, w, o) := first.value.value;
      var t := rest.value.value;
      Ok(Read(Slots([l] + t.locals, [w] + t.worlds, [o] + t.boxes), rest.value.next))
  }

  /** The triples are read exactly when the stream holds `n` of them past
      `pos`, and the reader stops right after the last one. */
  lemma {:induction false} SlotsExtent(s: seq<byte>, pos: nat, n: nat, sz: Sizes)
    ensures pos <= |s| ==> (ReadSlots(s, pos, n, sz).Ok? <==> pos + Blocks(n, 2 * sz.transformer + sz.obb) <= |s|)
    ensures ReadSlots(s, pos, n, sz).Ok? ==> ReadSlots(s, pos, n, sz).value.next == pos + Blocks(n, 2 * sz.transformer + sz.obb)
  {
    var k := 2 * sz.transformer + sz.obb;
    if pos <= |s| {
      SlotsOk(s, pos, n, sz, k);
    }
    if ReadSlots(s, pos, n, sz).Ok? {
      SlotsNext(s, pos, n, sz, k, ReadSlots(s, pos, n, sz).value);
    }
  }

  lemma {:induction false} SlotsOk(s: seq<byte>, pos: nat, n: nat, sz: Sizes, k: nat)
    requires k == 2 * sz.transformer + sz.obb && pos <= |s|
    ensures ReadSlots(s, pos, n, sz).Ok? <==> pos + Blocks(n, k) <= |s|
  {
    SlotsOkFit(s, pos, n, sz, k);
    FitExtent(s, pos, n, k);
  }

  /** `n` blocks of `k` bytes fit one after another from `pos`. */
  predicate BlocksFit(s: seq<byte>, pos: nat, n: nat, k: nat)
    decreases n
  {
    n == 0 || (pos + k <= |s| && BlocksFit(s, pos + k, n - 1, k))
  }

  lemma {:induction false} FitExtent(s: seq<byte>, pos: nat, n: nat, k: nat)
    requires pos <= |s|
    ensures BlocksFit(s, pos, n, k) <==> pos + Blocks(n, k) <= |s|
    decreases n
  {
    if n > 0 && pos + k <= |s| {
      FitExtent(s, pos + k, n - 1, k);
    }
  }

  lemma {:induction false} SlotsOkFit(s: seq<byte>, pos: nat, n: nat, sz: Sizes, k: nat)
    requires k == 2 * sz.transformer + sz.obb
    ensures ReadSlots(s, pos, n, sz).Ok? == BlocksFit(s, pos, n, k)
    decreases n
  {
    if n > 0 {
      SlotsOkStep(s, pos, n, sz, k);
      SlotsOkFit(s, pos + k, n - 1, sz, k);
    }
  }

  lemma {:induction false} SlotsOkStep(s: seq<byte>, pos: nat, n: nat, sz: Sizes, k: nat)
    requires n > 0 && k == 2 * sz.transformer + sz.obb
    ensures ReadSlots(s, pos, n, sz).Ok? <==> pos + k <= |s| && ReadSlots(s, pos + k, n - 1, sz).Ok?
  {
  }

  lemma {:induction false} SlotsNext(s: seq<byte>, pos: nat, n: nat, sz: Sizes, k: nat, r: Read<Slots>)
    requires k == 2 * sz.transformer + sz.obb && ReadSlots(s, pos, n, sz) == Ok(r)
    ensures r.next == pos + Blocks(n, k)
    decreases n
  {
    if n > 0 {
      var rest := SlotsTail(s, pos, n, sz, k, r);
      SlotsNext(s, pos + k, n - 1, sz, k, rest);
    }
  }

  lemma {:induction false} SlotsTail(s: seq<byte>, pos: nat, n: nat, sz: Sizes, k: nat, r: Read<Slots>) returns (rest: Read<Slots>)
    requires n > 0 && k == 2 * sz.transformer + sz.obb && ReadSlots(s, pos, n, sz) == Ok(r)
    ensures ReadSlots(s, pos + k, n - 1, sz) == Ok(rest) && r.next == rest.next
  {
    rest := ReadSlots(s, pos + k, n - 1, sz).value;
  }

  /** TransformerCount, then TransformerCount uint32 words, then
      TransformerCount (local, world, bounding box) triples. */
  function DecodeGeometry(s: seq<byte>, pos: nat, sz: Sizes): (r: Result<Read<Geometry>>)
    ensures r.Ok? ==>
      var g := r.value.value;
      |g.unk| == g.transformerCount && |g.locals| == g.transformerCount
  {
    var count :- ReadU32(s, pos, Big);
    var unk :- ReadU32s(s, count.next, count.value);
    var slots :- ReadSlots(s, unk.next, count.value, sz);
    var t := slots.value;
    Ok(Read(Geometry(count.value, unk.value, t.locals, t.worlds, t.boxes), slots.next))
  }

  /** The reader fails exactly when the stream ends before the count, the
      TransformerCount words or the TransformerCount triples; it consumes all
      of them and nothing more. */
  lemma {:induction false} GeometryExtent(s: seq<byte>, pos: nat, sz: Sizes)
    ensures DecodeGeometry(s, pos, sz).Ok? <==>
      pos + 4 <= |s| &&
      pos + 4 + 4 * ValueU32(s[pos..pos + 4], Big)
        + ValueU32(s[pos..pos + 4], Big) * (2 * sz.transformer + sz.obb) <= |s|
    ensures DecodeGeometry(s, pos, sz).Ok? ==>
      var r := DecodeGeometry(s, pos, sz).value;
      r.next == pos + 4 + 4 * r.value.transformerCount + r.value.transformerCount * (2 * sz.transformer + sz.obb)
  {
    if pos + 4 <= |s| {
      var n: nat := ReadU32(s, pos, Big).value.value;
      U32RoundTrip(n, Big);
      SlotsExtent(s, pos + 4 + 4 * n, n, sz);
      BlocksProduct(n, 2 * sz.transformer + sz.obb);
    }
  }

  /** The writer's geometry: one unk word and one (local, world, box) triple. */
  datatype GeometryOut = GeometryOut(
    transformerCount: u32,
    unk: u32,
    local: seq<byte>,
    world: seq<byte>,
    box: seq<byte>)

  function Repeat(b: seq<byte>, n: nat): (r: seq<byte>)
    ensures |r| == n * |b|
  {
    if n == 0 then [] else b + Repeat(b, n - 1)
  }

  /** TransformerCount, the single unk word, then the same triple
      TransformerCount times. */
  function EncodeGeometry(g: GeometryOut): (r: seq<byte>)
    ensures |r| == 8 + g.transformerCount * (|g.local| + |g.world| + |g.box|)
  {
    EncodeU32(g.transformerCount, Big) + EncodeU32(g.unk, Big)
    + Repeat(g.local + g.world + g.box, g.transformerCount)
  }

  predicate SizedOut(g: GeometryOut, sz: Sizes)
  {
    |g.local| == sz.transformer && |g.world| == sz.transformer && |g.box| == sz.obb
  }

  /** The reader consumes as many bytes as the writer produced exactly when
      TransformerCount is 1: the writer emits one unk word where the reader
      takes TransformerCount of them. */
  lemma {:induction false} GeometryLayoutsAgree(g: GeometryOut, sz: Sizes)
    requires SizedOut(g, sz)
    ensures |EncodeGeometry(g)| == 8 + g.transformerCount * (2 * sz.transformer + sz.obb)
    ensures (4 + 4 * g.transformerCount + g.transformerCount * (2 * sz.transformer + sz.obb) == |EncodeGeometry(g)|)
        <==> g.transformerCount == 1
  {
  }

  lemma {:induction false} DecodeGeometrySteps(s: seq<byte>, p: nat, sz: Sizes, count: u32, unk: seq<u32>, slots: Slots, m: nat, next: nat)
    requires ReadU32(s, p, Big) == Ok(Read(count, p + 4))
    requires ReadU32s(s, p + 4, count) == Ok(Read(unk, m))
    requires ReadSlots(s, m, count, sz) == Ok(Read(slots, next))
    ensures DecodeGeometry(s, p, sz) == Ok(Read(Geometry(count, unk, slots.locals, slots.worlds, slots.boxes), next))
  {
  }

  /** One word read as a list of one word. */
  lemma {:induction false} ReadOneU32(s: seq<byte>, p: nat, x: u32)
    requires ReadU32(s, p, Big) == Ok(Read(x, p + 4))
    ensures ReadU32s(s, p, 1) == Ok(Read([x], p + 4))
  {
    assert ReadU32s(s, p + 4, 0) == Ok(Read([], p + 4));
    assert [x] + [] == [x];
  }

  /** One (local, world, box) triple read back from where it was written. */
  lemma {:induction false} ReadOneSlot(s: seq<byte>, q: nat, a: seq<byte>, b: seq<byte>, c: seq<byte>, sz: Sizes, next: nat)
    requires |a| == sz.transformer && |b| == sz.transformer && |c| == sz.obb
    requires At(s, q, a + b + c) && next == q + |a + b + c|
    ensures ReadSlots(s, q, 1, sz) == Ok(Read(Slots([a], [b], [c]), next))
  {
    AtSplit(s, q, a + b, c);
    AtSplit(s, q, a, b);
    ReadBytesAt(s, q, a);
    ReadBytesAt(s, q + |a|, b);
    ReadBytesAt(s, q + |a| + |b|, c);
    assert ReadTriple(s, q, sz) == Ok(Read((a, b, c), next));
    assert ReadSlots(s, next, 0, sz) == Ok(Read(Slots([], [], []), next));
    assert [a] + [] == [a] && [b] + [] == [b] && [c] + [] == [c];
  }

  lemma {:induction false} GeometryOneBytes(g: GeometryOut)
    requires g.transformerCount == 1
    ensures EncodeGeometry(g) == EncodeU32(1, Big) + EncodeU32(g.unk, Big) + (g.local + g.world + g.box)
  {
    assert Repeat(g.local + g.world + g.box, 1) == g.local + g.world + g.box;
  }

  /** With one transformer the writer's geometry reads back unchanged. */
  lemma {:induction false} GeometryRoundTrip(g: GeometryOut, sz: Sizes, s: seq<byte>, p: nat)
    requires SizedOut(g, sz) && g.transformerCount == 1
    requires At(s, p, EncodeGeometry(g))
    ensures DecodeGeometry(s, p, sz) == Ok(Read(Geometry(1, [g.unk], [g.local], [g.world], [g.box]), p + |EncodeGeometry(g)|))
  {
    var rest := g.local + g.world + g.box;
    GeometryOneBytes(g);
    ReadTwoU32(s, p, 1, g.unk, Big, rest);
    ReadOneU32(s, p + 4, g.unk);
    ReadOneSlot(s, p + 8, g.local, g.world, g.box, sz, p + |EncodeGeometry(g)|);
    DecodeGeometrySteps(s, p, sz, 1, [g.unk], Slots([g.local], [g.world], [g.box]), p + 8, p + |EncodeGeometry(g)|);
  }
}

=== FILE: skeletal_animation.dfy ===
/** The skeletal-animation block (zwoLib/zwo/zwoSkeletalAnimation.py):
    five header words, a table of entries, a pool of four-component
    curves, and the pass that hands the pool's curves out to the entries'
    key maps through one shared cursor. The block starts after the two
    entity headers, which are not part of this model. */
module SkeletalAnimation {
  import opened Bytes

  // ---------------------------------------------------------------
  // Layout constants

  /** Bits of the Flags word. */
  const TRANSFORMER1: nat := 0x1
  const NO_ENTRIES: nat := 0x2
  const TRANSFORMER2: nat := 0x4

  const HEADER_SIZE: nat := 20
  const ENTRY_SIZE: nat := 12
  /** Bytes skipped in place of the entry table (fourteen words). */
  const SKIPPED_SIZE: nat := 56
  const CURVE_SIZE: nat := 16

  // ---------------------------------------------------------------
  // Curves and key maps

  /** One curve of the pool: four opaque float words. */
  type Curve = c: seq<Word> | |c| == 4 witness [ZERO_WORD, ZERO_WORD, ZERO_WORD, ZERO_WORD]

  /** The first three components, as positions and scales keep them. */
  function Xyz(c: Curve): (r: seq<Word>)
    ensures |r| == 3 && forall j :: 0 <= j < 3 ==> r[j] == c[j]
  {
    c[..3]
  }

  /** An entry's three frame-indexed maps. Rotations keep whole curves,
      positions and scales their first three components. */
  datatype Keys = Keys(
    rotation: map<nat, seq<Word>>,
    position: map<nat, seq<Word>>,
    scale: map<nat, seq<Word>>)

  const NO_KEYS := Keys(map[], map[], map[])

  /** One entry-table record, as read: EntryTypeFlag, CurveStartIndex,
      CurvesPerFrame. */
  datatype EntryHead = EntryHead(typeFlag: u32, curveStart: u32, curvesPerFrame: u32)

  datatype Entry = Entry(head: EntryHead, keys: Keys)

  // ---------------------------------------------------------------
  // Handing out curves to one entry

  /** An odd type takes three curves for frame 0 of all three maps. Any
      index past the pool raises. */
  function OddStep(curves: seq<Curve>, c: nat, t: nat): (r: Result<(Keys, nat)>)
    ensures r.Ok? <==> t % 2 == 0 || c + 3 <= |curves|
    ensures r.Ok? ==> r.value.1 == c + (if t % 2 == 1 then 3 else 0)
  {
    if t % 2 == 0 then Ok((NO_KEYS, c))
    else if c + 3 <= |curves| then
      Ok((Keys(map[0 := curves[c]], map[0 := Xyz(curves[c + 1])], map[0 := Xyz(curves[c + 2])]), c + 3))
    else Err(IndexError)
  }

  /** The frames 1 .. n-1. */
  function Frames(n: nat): (r: set<nat>)
    ensures forall i :: i in r <==> 1 <= i < n
  {
    if n <= 1 then {} else Frames(n - 1) + {n - 1}
  }

  /** Frames 1 .. n-1 from consecutive curves starting at `c` (types 3
      and 5). */
  function Run(curves: seq<Curve>, c: nat, n: nat): (r: Result<map<nat, Curve>>)
    ensures r.Ok? <==> n < 2 || c + n - 1 <= |curves|
  {
    if n < 2 || c + n - 1 <= |curves| then Ok(map i | i in Frames(n) :: curves[c + i - 1])
    else Err(IndexError)
  }

  function XyzOf(m: map<nat, Curve>): (r: map<nat, seq<Word>>)
    ensures r.Keys == m.Keys
  {
    map i | i in m :: Xyz(m[i])
  }

  /** Type 7's loop: frames i .. n-1 alternate a rotation curve and a
      position curve. */
  function Alternate(curves: seq<Curve>, c: nat, i: nat, n: nat, k: Keys): (r: Result<(Keys, nat)>)
    decreases n - i
  {
    if i >= n then Ok((k, c))
    else if c + 2 <= |curves| then
      Alternate(curves, c + 2, i + 1, n,
        k.(rotation := k.rotation[i := curves[c]], position := k.position[i := Xyz(curves[c + 1])]))
    else Err(IndexError)
  }

  /** The state machine of one entry, step by step as the source runs
      it: the odd-type step, then the branch for type 3, 5 or 7. */
  function ProcessEntry(curves: seq<Curve>, c: nat, n: nat, t: nat): Result<(Keys, nat)>
  {
    var odd :- OddStep(curves, c, t);
    var (k, c1) := odd;
    if t == 3 then
      var run :- Run(curves, c1, n);
      Ok((k.(rotation := k.rotation + run), c1 + n - 1))
    else if t == 5 then
      var run :- Run(curves, c1, n);
      Ok((k.(position := k.position + XyzOf(run)), c1 + n - 1))
    else if t == 7 then
      Alternate(curves, c1, 1, n, k)
    else
      Ok((k, c1))
  }

  /** How far an entry of type `t` moves the cursor over `n` frames. For
      types 3 and 5 with no frames the step back of one is kept. */
  function Consumption(t: nat, n: nat): (r: nat)
  {
    (if t % 2 == 1 then 3 else 0)
    + (if t == 3 || t == 5 then (if n >= 1 then n - 1 else 0) else 0)
    + (if t == 7 && n >= 1 then 2 * (n - 1) else 0)
    - (if (t == 3 || t == 5) && n == 0 then 1 else 0)
  }

  /** How many curves past the cursor an entry reads. */
  function Reach(t: nat, n: nat): nat
  {
    (if t % 2 == 1 then 3 else 0)
    + (if (t == 3 || t == 5) && n >= 2 then n - 1 else 0)
    + (if t == 7 && n >= 2 then 2 * (n - 1) else 0)
  }

  function MaxFrame(n: nat): nat
  {
    if n == 0 then 1 else n
  }

  /** Type 7's loop fails exactly when the pool runs out, moves the
      cursor two curves per frame, and never touches the scale map. */
  lemma {:induction false} AlternateSteps(curves: seq<Curve>, c: nat, i: nat, n: nat, k: Keys)
    ensures Alternate(curves, c, i, n, k).Ok? <==> i >= n || c + 2 * (n - i) <= |curves|
    ensures Alternate(curves, c, i, n, k).Ok? ==>
      var (k', c') := Alternate(curves, c, i, n, k).value;
      c' == c + (if i < n then 2 * (n - i) else 0) && k'.scale == k.scale
    decreases n - i
  {
    if i < n && c + 2 <= |curves| {
      var k1 := k.(rotation := k.rotation[i := curves[c]], position := k.position[i := Xyz(curves[c + 1])]);
      AlternateSteps(curves, c + 2, i + 1, n, k1);
    }
  }

  /** Frame j of the loop takes rotation curve c + 2(j - i); other frames
      keep what they had. */
  lemma {:induction false} AlternateRotations(curves: seq<Curve>, c: nat, i: nat, n: nat, k: Keys)
    requires i >= n || c + 2 * (n - i) <= |curves|
    requires Alternate(curves, c, i, n, k).Ok?
    ensures var k' := Alternate(curves, c, i, n, k).value.0;
      && (forall j :: j in k'.rotation <==> j in k.rotation || i <= j < n)
      && (forall j :: i <= j < n ==> k'.rotation[j] == curves[c + 2 * (j - i)])
      && (forall j :: j in k.rotation && !(i <= j < n) ==> k'.rotation[j] == k.rotation[j])
    decreases n - i
  {
    if i < n {
      var k1 := k.(rotation := k.rotation[i := curves[c]], position := k.position[i := Xyz(curves[c + 1])]);
      AlternateRotations(curves, c + 2, i + 1, n, k1);
    }
  }

  /** Frame j of the loop takes position curve c + 2(j - i) + 1; other
      frames keep what they had. */
  lemma {:induction false} AlternatePositions(curves: seq<Curve>, c: nat, i: nat, n: nat, k: Keys)
    requires i >= n || c + 2 * (n - i) <= |curves|
    requires Alternate(curves, c, i, n, k).Ok?
    ensures var k' := Alternate(curves, c, i, n, k).value.0;
      && (forall j :: j in k'.position <==> j in k.position || i <= j < n)
      && (forall j :: i <= j < n ==> k'.position[j] == Xyz(curves[c + 2 * (j - i) + 1]))
      && (forall j :: j in k.position && !(i <= j < n) ==> k'.position[j] == k.position[j])
    decreases n - i
  {
    if i < n {
      var k1 := k.(rotation := k.rotation[i := curves[c]], position := k.position[i := Xyz(curves[c + 1])]);
      AlternatePositions(curves, c + 2, i + 1, n, k1);
    }
  }

  /** An entry reads exactly the curves from the cursor up to its reach,
      fails exactly when that runs past the pool, and otherwise moves the
      cursor by its consumption. */
  lemma {:induction false} EntryCursor(curves: seq<Curve>, c: nat, n: nat, t: nat)
    requires c <= |curves|
    ensures ProcessEntry(curves, c, n, t).Ok? <==> c + Reach(t, n) <= |curves|
    ensures ProcessEntry(curves, c, n, t).Ok? ==> ProcessEntry(curves, c, n, t).value.1 == c + Consumption(t, n)
    ensures Consumption(t, n) <= Reach(t, n)
  {
    if t % 2 == 1 && c + 3 <= |curves| {
      var k0 := OddStep(curves, c, t).value.0;
      if t == 7 {
        AlternateSteps(curves, c + 3, 1, n, k0);
        assert ProcessEntry(curves, c, n, t) == Alternate(curves, c + 3, 1, n, k0);
      } else if t == 3 || t == 5 {
        assert ProcessEntry(curves, c, n, t).Ok? <==> Run(curves, c + 3, n).Ok?;
      }
    }
  }

  /** Type 7: rotation and position keys 0 .. n-1 alternate through the
      pool after the first three curves; scale has frame 0 alone. */
  lemma {:induction false} AlternatingKeys(curves: seq<Curve>, c: nat, n: nat)
    requires c + Reach(7, n) <= |curves|
    ensures ProcessEntry(curves, c, n, 7).Ok?
    ensures var k := ProcessEntry(curves, c, n, 7).value.0;
      && (forall i: nat :: i in k.rotation <==> i < MaxFrame(n))
      && (forall i: nat :: i in k.position <==> i < MaxFrame(n))
      && k.scale == map[0 := Xyz(curves[c + 2])]
      && k.rotation[0] == curves[c] && k.position[0] == Xyz(curves[c + 1])
      && (forall i :: 1 <= i < n ==> k.rotation[i] == curves[c + 3 + 2 * (i - 1)])
      && (forall i :: 1 <= i < n ==> k.position[i] == Xyz(curves[c + 4 + 2 * (i - 1)]))
  {
    EntryCursor(curves, c, n, 7);
    var k0 := OddStep(curves, c, 7).value.0;
    assert k0 == Keys(map[0 := curves[c]], map[0 := Xyz(curves[c + 1])], map[0 := Xyz(curves[c + 2])]);
    AlternateSteps(curves, c + 3, 1, n, k0);
    assert ProcessEntry(curves, c, n, 7) == Alternate(curves, c + 3, 1, n, k0);
    AlternateRotations(curves, c + 3, 1, n, k0);
    AlternatePositions(curves, c + 3, 1, n, k0);
    var k := ProcessEntry(curves, c, n, 7).value.0;
    forall i: nat ensures i in k.rotation <==> i < MaxFrame(n) {
      assert i in k0.rotation <==> i == 0;
    }
    forall i: nat ensures i in k.position <==> i < MaxFrame(n) {
      assert i in k0.position <==> i == 0;
    }
  }

  /** Types 3 and 5: one map gets keys 0 .. n-1 from consecutive curves
      after the first three; the other two keep frame 0 alone. */
  lemma {:induction false} RunKeys(curves: seq<Curve>, c: nat, n: nat, t: nat)
    requires t == 3 || t == 5
    requires c + Reach(t, n) <= |curves|
    ensures ProcessEntry(curves, c, n, t).Ok?
    ensures var k := ProcessEntry(curves, c, n, t).value.0;
      && k.scale == map[0 := Xyz(curves[c + 2])]
      && (t == 3 ==> k.position == map[0 := Xyz(curves[c + 1])])
      && (t == 5 ==> k.rotation == map[0 := curves[c]])
      && (t == 3 ==> (forall i: nat :: i in k.rotation <==> i < MaxFrame(n)) && k.rotation[0] == curves[c])
      && (t == 5 ==> (forall i: nat :: i in k.position <==> i < MaxFrame(n)) && k.position[0] == Xyz(curves[c + 1]))
      && (t == 3 ==> forall i :: 1 <= i < n ==> k.rotation[i] == curves[c + 3 + i - 1])
      && (t == 5 ==> forall i :: 1 <= i < n ==> k.position[i] == Xyz(curves[c + 3 + i - 1]))
  {
    EntryCursor(curves, c, n, t);
    var k0 := Keys(map[0 := curves[c]], map[0 := Xyz(curves[c + 1])], map[0 := Xyz(curves[c + 2])]);
    assert OddStep(curves, c, t) == Ok((k0, c + 3));
    var run := Run(curves, c + 3, n).value;
    assert forall i :: i in run <==> 1 <= i < n;
    assert 0 !in run;
    var k := ProcessEntry(curves, c, n, t).value.0;
    if t == 3 {
      assert k == k0.(rotation := k0.rotation + run);
      assert k.rotation[0] == curves[c];
      forall i: nat ensures i in k.rotation <==> i < MaxFrame(n) {
        assert i in k0.rotation <==> i == 0;
      }
    } else {
      assert k == k0.(position := k0.position + XyzOf(run));
      assert 0 !in XyzOf(run);
      assert k.position[0] == Xyz(curves[c + 1]);
      forall i: nat ensures i in k.position <==> i < MaxFrame(n) {
        assert i in k0.position <==> i == 0;
        assert i in XyzOf(run) <==> i in run;
      }
    }
  }

  /** Any other odd type fills frame 0 of each map; an even type fills
      nothing and leaves the cursor where it was. */
  lemma {:induction false} PlainKeys(curves: seq<Curve>, c: nat, n: nat, t: nat)
    requires t != 3 && t != 5 && t != 7
    requires c + Reach(t, n) <= |curves|
    ensures ProcessEntry(curves, c, n, t).Ok?
    ensures var (k, c') := ProcessEntry(curves, c, n, t).value;
      if t % 2 == 1 then
        k == Keys(map[0 := curves[c]], map[0 := Xyz(curves[c + 1])], map[0 := Xyz(curves[c + 2])]) && c' == c + 3
      else
        k == NO_KEYS && c' == c
  {
  }

  /** Rotations keep all four components; positions and scales three. */
  lemma {:induction false} ComponentCounts(curves: seq<Curve>, c: nat, n: nat, t: nat)
    requires ProcessEntry(curves, c, n, t).Ok?
    ensures var k := ProcessEntry(curves, c, n, t).value.0;
      && (forall i :: i in k.rotation ==> |k.rotation[i]| == 4)
      && (forall i :: i in k.position ==> |k.position[i]| == 3)
      && (forall i :: i in k.scale ==> |k.scale[i]| == 3)
  {
    if t % 2 == 0 {
      assert ProcessEntry(curves, c, n, t) == Ok((NO_KEYS, c));
    } else if t == 7 {
      EntryCursor(curves, c, n, t);
      AlternatingKeys(curves, c, n);
    } else if t == 3 || t == 5 {
      EntryCursor(curves, c, n, t);
      RunKeys(curves, c, n, t);
    } else {
      EntryCursor(curves, c, n, t);
      PlainKeys(curves, c, n, t);
    }
  }

  // ---------------------------------------------------------------
  // The pass over all entries

  /** The entries in order, each starting where the previous one left the
      cursor. Only the entry type is consulted. */
  function ProcessEntries(curves: seq<Curve>, c: nat, n: nat, heads: seq<EntryHead>): Result<(seq<Entry>, nat)>
    decreases |heads|
  {
    if |heads| == 0 then Ok(([], c))
    else
      var first :- ProcessEntry(curves, c, n, heads[0].typeFlag);
      var rest :- ProcessEntries(curves, first.1, n, heads[1..]);
      Ok(([Entry(heads[0], first.0)] + rest.0, rest.1))
  }

  /** The cursor after the first `k` entries. */
  function CursorAfter(heads: seq<EntryHead>, n: nat, k: nat): nat
    requires k <= |heads|
  {
    if k == 0 then 0 else CursorAfter(heads, n, k - 1) + Consumption(heads[k - 1].typeFlag, n)
  }

  lemma {:induction false} CursorAfterShift(heads: seq<EntryHead>, n: nat, k: nat)
    requires 0 < k <= |heads|
    ensures CursorAfter(heads, n, k) == Consumption(heads[0].typeFlag, n) + CursorAfter(heads[1..], n, k - 1)
    decreases k
  {
    if k > 1 {
      CursorAfterShift(heads, n, k - 1);
    }
  }

  /** Entry k's reach, counted from where the pass has left the cursor,
      stays inside the pool. */
  predicate Fits(curves: seq<Curve>, c: nat, n: nat, heads: seq<EntryHead>, k: nat)
    requires k < |heads|
  {
    c + CursorAfter(heads, n, k) + Reach(heads[k].typeFlag, n) <= |curves|
  }

  lemma {:induction false} FitsShift(curves: seq<Curve>, c: nat, n: nat, heads: seq<EntryHead>, k: nat)
    requires 0 < k < |heads|
    ensures Fits(curves, c, n, heads, k) == Fits(curves, c + Consumption(heads[0].typeFlag, n), n, heads[1..], k - 1)
  {
    CursorAfterShift(heads, n, k);
    assert heads[1..][k - 1] == heads[k];
  }

  /** The pass succeeds exactly when every entry fits, and then leaves the
      cursor at the sum of the entries' consumptions with one entry per
      table record. */
  lemma {:induction false} EntriesFit(curves: seq<Curve>, c: nat, n: nat, heads: seq<EntryHead>)
    requires c <= |curves|
    ensures ProcessEntries(curves, c, n, heads).Ok? <==>
      forall k :: 0 <= k < |heads| ==> Fits(curves, c, n, heads, k)
    ensures ProcessEntries(curves, c, n, heads).Ok? ==>
      && ProcessEntries(curves, c, n, heads).value.1 == c + CursorAfter(heads, n, |heads|)
      && |ProcessEntries(curves, c, n, heads).value.0| == |heads|
    decreases |heads|
  {
    if |heads| > 0 {
      var t := heads[0].typeFlag;
      EntryCursor(curves, c, n, t);
      var c1 := c + Consumption(t, n);
      if c + Reach(t, n) <= |curves| {
        EntriesFit(curves, c1, n, heads[1..]);
        forall k | 0 < k < |heads|
          ensures Fits(curves, c, n, heads, k) == Fits(curves, c1, n, heads[1..], k - 1)
        {
          FitsShift(curves, c, n, heads, k);
        }
        CursorAfterShift(heads, n, |heads|);
        if !ProcessEntries(curves, c1, n, heads[1..]).Ok? {
          var k :| 0 <= k < |heads[1..]| && !Fits(curves, c1, n, heads[1..], k);
          assert !Fits(curves, c, n, heads, k + 1);
        }
      } else {
        assert !Fits(curves, c, n, heads, 0);
      }
    }
  }

  /** One step of a successful pass: the first entry, then the rest from
      where it left the cursor. */
  lemma {:induction false} EntriesStep(curves: seq<Curve>, c: nat, n: nat, heads: seq<EntryHead>)
    requires |heads| > 0 && ProcessEntries(curves, c, n, heads).Ok?
    ensures ProcessEntry(curves, c, n, heads[0].typeFlag).Ok?
    ensures var first := ProcessEntry(curves, c, n, heads[0].typeFlag).value;
      && ProcessEntries(curves, first.1, n, heads[1..]).Ok?
      && var rest := ProcessEntries(curves, first.1, n, heads[1..]).value;
      ProcessEntries(curves, c, n, heads).value == ([Entry(heads[0], first.0)] + rest.0, rest.1)
  {
  }

  /** Entry k keeps its table record and holds the keys its type gives
      from where the previous entries left the cursor; its own step ends
      where the next one starts. */
  predicate EntryMatches(curves: seq<Curve>, c: nat, n: nat, heads: seq<EntryHead>, es: seq<Entry>, k: nat)
    requires k < |heads| && k < |es|
  {
    && es[k].head == heads[k]
    && ProcessEntry(curves, c + CursorAfter(heads, n, k), n, heads[k].typeFlag)
       == Ok((es[k].keys, c + CursorAfter(heads, n, k + 1)))
  }

  /** Every entry of a successful pass matches its record. */
  lemma {:induction false} EntriesContent(curves: seq<Curve>, c: nat, n: nat, heads: seq<EntryHead>)
    requires c <= |curves|
    requires ProcessEntries(curves, c, n, heads).Ok?
    ensures |ProcessEntries(curves, c, n, heads).value.0| == |heads|
    ensures forall k :: 0 <= k < |heads| ==>
      EntryMatches(curves, c, n, heads, ProcessEntries(curves, c, n, heads).value.0, k)
    decreases |heads|
  {
    EntriesFit(curves, c, n, heads);
    if |heads| > 0 {
      var t := heads[0].typeFlag;
      EntryCursor(curves, c, n, t);
      EntriesStep(curves, c, n, heads);
      var c1 := c + Consumption(t, n);
      EntriesContent(curves, c1, n, heads[1..]);
      hide ProcessEntries;
      var first := ProcessEntry(curves, c, n, t).value;
      var rest := ProcessEntries(curves, c1, n, heads[1..]).value.0;
      var es := ProcessEntries(curves, c, n, heads).value.0;
      assert es == [Entry(heads[0], first.0)] + rest;
      assert es[1..] == rest;
      hide ProcessEntry, EntryMatches;
      FirstMatches(curves, c, n, heads, es);
      forall k | 0 < k < |heads|
        ensures EntryMatches(curves, c, n, heads, es, k)
      {
        MatchShift(curves, c, n, heads, es, k);
      }
    }
  }

  lemma {:induction false} FirstMatches(curves: seq<Curve>, c: nat, n: nat, heads: seq<EntryHead>, es: seq<Entry>)
    requires 0 < |heads| && 0 < |es| && es[0].head == heads[0]
    requires ProcessEntry(curves, c, n, heads[0].typeFlag)
             == Ok((es[0].keys, c + Consumption(heads[0].typeFlag, n)))
    ensures EntryMatches(curves, c, n, heads, es, 0)
  {
  }

  lemma {:induction false} MatchShift(curves: seq<Curve>, c: nat, n: nat, heads: seq<EntryHead>, es: seq<Entry>, k: nat)
    requires 0 < k < |heads| && |es| == |heads|
    requires EntryMatches(curves, c + Consumption(heads[0].typeFlag, n), n, heads[1..], es[1..], k - 1)
    ensures EntryMatches(curves, c, n, heads, es, k)
  {
    assert heads[1..][k - 1] == heads[k];
    assert es[1..][k - 1] == es[k];
    CursorAfterShift(heads, n, k);
    CursorAfterShift(heads, n, k + 1);
  }

  /** Two entry lists of the same length whose entries hold the same
      keys. */
  predicate SameKeys(es: seq<Entry>, os: seq<Entry>)
  {
    |es| == |os| && forall k :: 0 <= k < |es| ==> es[k].keys == os[k].keys
  }

  /** CurveStartIndex and CurvesPerFrame do not affect the decoded maps:
      two tables with the same entry types give the same keys and the
      same final cursor. */
  lemma {:induction false} OnlyTypesMatter(curves: seq<Curve>, c: nat, n: nat, heads: seq<EntryHead>, others: seq<EntryHead>)
    requires |heads| == |others|
    requires forall k :: 0 <= k < |heads| ==> heads[k].typeFlag == others[k].typeFlag
    ensures ProcessEntries(curves, c, n, heads).Ok? == ProcessEntries(curves, c, n, others).Ok?
    ensures ProcessEntries(curves, c, n, heads).Ok? ==>
      && ProcessEntries(curves, c, n, heads).value.1 == ProcessEntries(curves, c, n, others).value.1
      && SameKeys(ProcessEntries(curves, c, n, heads).value.0, ProcessEntries(curves, c, n, others).value.0)
    decreases |heads|
  {
    if |heads| > 0 {
      var t := heads[0].typeFlag;
      assert others[0].typeFlag == t;
      if ProcessEntry(curves, c, n, t).Ok? {
        var first := ProcessEntry(curves, c, n, t).value;
        forall k | 0 <= k < |heads[1..]|
          ensures heads[1..][k].typeFlag == others[1..][k].typeFlag
        {
          assert heads[1..][k] == heads[k + 1] && others[1..][k] == others[k + 1];
        }
        OnlyTypesMatter(curves, first.1, n, heads[1..], others[1..]);
        if ProcessEntries(curves, c, n, heads).Ok? {
          EntriesStep(curves, c, n, heads);
          EntriesStep(curves, c, n, others);
          hide ProcessEntries, ProcessEntry;
          var r1 := ProcessEntries(curves, first.1, n, heads[1..]).value;
          var r2 := ProcessEntries(curves, first.1, n, others[1..]).value;
          var es := ProcessEntries(curves, c, n, heads).value.0;
          var os := ProcessEntries(curves, c, n, others).value.0;
          assert es == [Entry(heads[0], first.0)] + r1.0;
          assert os == [Entry(others[0], first.0)] + r2.0;
          assert ProcessEntries(curves, c, n, heads).value.1 == ProcessEntries(curves, c, n, others).value.1;
          assert |es| == |os|;
          forall k | 0 <= k < |es|
            ensures es[k].keys == os[k].keys
          {
            if k > 0 {
              assert es[k] == r1.0[k - 1];
              assert os[k] == r2.0[k - 1];
            }
          }
        }
      }
    }
  }

  // ---------------------------------------------------------------
  // Reading the block

  /** The entry table, little-endian. */
  function ReadEntryHeads(s: seq<byte>, pos: nat, count: nat): (r: Result<Read<seq<EntryHead>>>)
    ensures r.Ok? <==> count == 0 || pos + ENTRY_SIZE * count <= |s|
    ensures r.Ok? ==> r.value.next == pos + ENTRY_SIZE * count && |r.value.value| == count
    decreases count
  {
    if count == 0 then Ok(Read([], pos))
    else
      var a :- ReadU32(s, pos, Little);
      var b :- ReadU32(s, a.next, Little);
      var c :- ReadU32(s, b.next, Little);
      var rest :- ReadEntryHeads(s, c.next, count - 1);
      Ok(Read([EntryHead(a.value, b.value, c.value)] + rest.value, rest.next))
  }

  /** One curve: four words. */
  function CurveAt(s: seq<byte>, pos: nat): (c: Curve)
    requires pos + CURVE_SIZE <= |s|
  {
    [s[pos..pos + 4], s[pos + 4..pos + 8], s[pos + 8..pos + 12], s[pos + 12..pos + 16]]
  }

  /** The curve pool: `count` curves of sixteen bytes. */
  function ReadCurves(s: seq<byte>, pos: nat, count: nat): (r: Result<Read<seq<Curve>>>)
    ensures r.Ok? <==> count == 0 || pos + CURVE_SIZE * count <= |s|
    ensures r.Ok? ==> r.value.next == pos + CURVE_SIZE * count && |r.value.value| == count
    decreases count
  {
    if count == 0 then Ok(Read([], pos))
    else if pos + CURVE_SIZE > |s| then Err(Truncated)
    else
      var rest :- ReadCurves(s, pos + CURVE_SIZE, count - 1);
      Ok(Read([CurveAt(s, pos)] + rest.value, rest.next))
  }

  /** Curve i of the pool is the i-th sixteen-byte slice of the stream. */
  lemma {:induction false} CurvesAt(s: seq<byte>, pos: nat, count: nat)
    requires ReadCurves(s, pos, count).Ok?
    ensures forall i :: 0 <= i < count ==>
      ReadCurves(s, pos, count).value.value[i] == CurveAt(s, pos + CURVE_SIZE * i)
    decreases count
  {
    if count > 0 {
      CurvesAt(s, pos + CURVE_SIZE, count - 1);
      var rest := ReadCurves(s, pos + CURVE_SIZE, count - 1).value.value;
      forall i | 0 < i < count
        ensures ReadCurves(s, pos, count).value.value[i] == CurveAt(s, pos + CURVE_SIZE * i)
      {
        assert ReadCurves(s, pos, count).value.value[i] == rest[i - 1];
      }
    }
  }

  /** The twelve bytes at `q` are the record `h`, each word little-endian. */
  predicate HeadAt(s: seq<byte>, q: nat, h: EntryHead)
  {
    && q + ENTRY_SIZE <= |s|
    && EncodeU32(h.typeFlag, Little) == s[q..q + 4]
    && EncodeU32(h.curveStart, Little) == s[q + 4..q + 8]
    && EncodeU32(h.curvesPerFrame, Little) == s[q + 8..q + 12]
  }

  /** Record i of `hs` is the i-th twelve-byte record from `pos`. */
  predicate HeadsAt(s: seq<byte>, pos: nat, hs: seq<EntryHead>)
  {
    forall i :: 0 <= i < |hs| ==> HeadAt(s, pos + ENTRY_SIZE * i, hs[i])
  }

  /** Entry i of the table is the i-th twelve-byte record. */
  lemma {:induction false} EntryHeadsAt(s: seq<byte>, pos: nat, count: nat)
    requires ReadEntryHeads(s, pos, count).Ok?
    ensures HeadsAt(s, pos, ReadEntryHeads(s, pos, count).value.value)
    decreases count
  {
    if count > 0 {
      FirstEntryHead(s, pos, count);
      EntryHeadsAt(s, pos + ENTRY_SIZE, count - 1);
      hide ReadEntryHeads, HeadsAt, HeadAt;
      HeadsShift(s, pos, ReadEntryHeads(s, pos, count).value.value);
    } else {
      assert ReadEntryHeads(s, pos, count).value.value == [];
    }
  }

  lemma {:induction false} HeadsShift(s: seq<byte>, pos: nat, hs: seq<EntryHead>)
    requires |hs| > 0 && HeadAt(s, pos, hs[0]) && HeadsAt(s, pos + ENTRY_SIZE, hs[1..])
    ensures HeadsAt(s, pos, hs)
  {
    hide HeadAt;
    forall i | 0 < i < |hs|
      ensures HeadAt(s, pos + ENTRY_SIZE * i, hs[i])
    {
      assert hs[1..][i - 1] == hs[i];
      assert pos + ENTRY_SIZE * i == pos + ENTRY_SIZE + ENTRY_SIZE * (i - 1);
    }
  }

  lemma {:induction false} FirstEntryHead(s: seq<byte>, pos: nat, count: nat)
    requires count > 0 && ReadEntryHeads(s, pos, count).Ok?
    ensures var h := ReadEntryHeads(s, pos, count).value.value;
      && ReadEntryHeads(s, pos + ENTRY_SIZE, count - 1).Ok?
      && h[1..] == ReadEntryHeads(s, pos + ENTRY_SIZE, count - 1).value.value
      && HeadAt(s, pos, h[0])
  {
  }

  /** Everything the reader takes before it hands out curves. `entries`
      is None when the table was skipped. */
  datatype Prefix = Prefix(
    flags: u32,
    entryCount: u32,
    frameCount: u32,
    frameCountMultiplied: u32,
    frameRate: u32,
    entries: Option<seq<EntryHead>>,
    curveCount: u32,
    curves: seq<Curve>)

  function ReadPrefix(s: seq<byte>, pos: nat): (r: Result<Read<Prefix>>)
    ensures r.Ok? ==> (r.value.value.entries.None? <==> Bit(r.value.value.flags, NO_ENTRIES))
    ensures r.Ok? && r.value.value.entries.Some? ==> |r.value.value.entries.value| == r.value.value.entryCount
    ensures r.Ok? ==> |r.value.value.curves| == r.value.value.curveCount
  {
    var flags :- ReadU32(s, pos, Big);
    var entryCount :- ReadU32(s, flags.next, Big);
    var frameCount :- ReadU32(s, entryCount.next, Big);
    var multiplied :- ReadU32(s, frameCount.next, Big);
    var frameRate :- ReadU32(s, multiplied.next, Big);
    var table :-
      if Bit(flags.value, NO_ENTRIES) then
        var skipped :- ReadBytes(s, frameRate.next, SKIPPED_SIZE);
        Ok(Read(None, skipped.next))
      else
        var heads :- ReadEntryHeads(s, frameRate.next, entryCount.value);
        Ok(Read(Some(heads.value), heads.next));
    var curveCount :- ReadU32(s, table.next, Big);
    var curves :- ReadCurves(s, curveCount.next, curveCount.value);
    Ok(Read(Prefix(flags.value, entryCount.value, frameCount.value, multiplied.value, frameRate.value,
                   table.value, curveCount.value, curves.value), curves.next))
  }

  /** Bytes the prefix occupies. */
  function PrefixSize(p: Prefix): nat
  {
    HEADER_SIZE
    + (if p.entries.None? then SKIPPED_SIZE else ENTRY_SIZE * |p.entries.value|)
    + 4 + CURVE_SIZE * |p.curves|
  }

  lemma {:induction false} PrefixExtent(s: seq<byte>, pos: nat)
    requires ReadPrefix(s, pos).Ok?
    ensures ReadPrefix(s, pos).value.next == pos + PrefixSize(ReadPrefix(s, pos).value.value)
  {
  }

  /** The decoded block. */
  datatype Animation = Animation(
    flags: u32,
    entryCount: u32,
    frameCount: u32,
    frameCountMultiplied: u32,
    frameRate: u32,
    entries: seq<Entry>,
    curves: seq<Curve>,
    transformer1: Option<seq<byte>>,
    transformer2: Option<seq<byte>>)

  /** An optional run of `size` bytes. */
  function ReadOptional(s: seq<byte>, pos: nat, present: bool, size: nat): (r: Result<Read<Option<seq<byte>>>>)
    ensures r.Ok? ==> (r.value.value.Some? <==> present)
    ensures r.Ok? ==> r.value.next == pos + (if present then size else 0)
    ensures r.Ok? && present ==> pos + size <= |s| && r.value.value.value == s[pos..pos + size]
  {
    if !present then Ok(Read(None, pos))
    else
      var b :- ReadBytes(s, pos, size);
      Ok(Read(Some(b.value), b.next))
  }

  /** The reader with a skipped table treated as an empty one. `tsize` is
      the byte size of a transformer curve (two vectors and a
      quaternion), whose layout is not part of this model. */
  function DecodeAnimation(s: seq<byte>, pos: nat, tsize: nat): (r: Result<Read<Animation>>)
    ensures r.Ok? ==> (r.value.value.transformer1.Some? <==> Bit(r.value.value.flags, TRANSFORMER1))
    ensures r.Ok? ==> (r.value.value.transformer2.Some? <==> Bit(r.value.value.flags, TRANSFORMER2))
  {
    var pre :- ReadPrefix(s, pos);
    var p := pre.value;
    var heads := if p.entries.Some? then p.entries.value else [];
    var done :- ProcessEntries(p.curves, 0, p.frameCount, heads);
    var t1 :- ReadOptional(s, pre.next, Bit(p.flags, TRANSFORMER1), tsize);
    var t2 :- ReadOptional(s, t1.next, Bit(p.flags, TRANSFORMER2), tsize);
    Ok(Read(Animation(p.flags, p.entryCount, p.frameCount, p.frameCountMultiplied, p.frameRate,
                      done.0, p.curves, t1.value, t2.value), t2.next))
  }

  /** The reader as written: the entry list is assigned only when the
      table is read, so with the table skipped the pass over it raises. */
  function DecodeAnimationAsWritten(s: seq<byte>, pos: nat, tsize: nat): (r: Result<Read<Animation>>)
  {
    var pre :- ReadPrefix(s, pos);
    if pre.value.entries.None? then Err(MissingAttribute)
    else DecodeAnimation(s, pos, tsize)
  }

  /** The decoded block spans the prefix plus one transformer curve for
      each of bits 0 and 2; with the table read, its entries are the
      table's records with the keys the pass gives them. */
  lemma {:induction false} AnimationLayout(s: seq<byte>, pos: nat, tsize: nat)
    requires DecodeAnimation(s, pos, tsize).Ok?
    ensures var a := DecodeAnimation(s, pos, tsize).value;
      var p := ReadPrefix(s, pos).value.value;
      && a.next == pos + PrefixSize(p)
           + (if Bit(a.value.flags, TRANSFORMER1) then tsize else 0)
           + (if Bit(a.value.flags, TRANSFORMER2) then tsize else 0)
      && (Bit(a.value.flags, NO_ENTRIES) ==> a.value.entries == [])
      && (!Bit(a.value.flags, NO_ENTRIES) ==> |a.value.entries| == a.value.entryCount)
      && |a.value.curves| == p.curveCount
  {
    PrefixExtent(s, pos);
    var p := ReadPrefix(s, pos).value.value;
    if p.entries.Some? {
      EntriesFit(p.curves, 0, p.frameCount, p.entries.value);
    }
  }

  /** With the table read, both readers agree. */
  lemma {:induction false} AsWrittenAgreesWithTable(s: seq<byte>, pos: nat, tsize: nat)
    requires ReadPrefix(s, pos).Ok? && !Bit(ReadPrefix(s, pos).value.value.flags, NO_ENTRIES)
    ensures DecodeAnimationAsWritten(s, pos, tsize) == DecodeAnimation(s, pos, tsize)
  {
  }

  /** With the table skipped, the reader as written always fails, even
      where the prefix and everything after it is well formed. */
  lemma {:induction false} SkippedTableFails(s: seq<byte>, pos: nat, tsize: nat)
    requires ReadPrefix(s, pos).Ok? && Bit(ReadPrefix(s, pos).value.value.flags, NO_ENTRIES)
    ensures DecodeAnimationAsWritten(s, pos, tsize) == Err(MissingAttribute)
  {
  }

  /** A block with Flags 2, no curves and nothing else: the reader as
      written fails on it, the corrected reader gives an animation with
      no entries. */
  lemma {:induction false} SkippedTableExample(tsize: nat) returns (s: seq<byte>)
    ensures DecodeAnimationAsWritten(s, 0, tsize) == Err(MissingAttribute)
    ensures DecodeAnimation(s, 0, tsize).Ok? && DecodeAnimation(s, 0, tsize).value.value.entries == []
  {
    var z := EncodeU32(0, Big);
    var two := EncodeU32(2, Big);
    s := two + z + z + z + z + seq(SKIPPED_SIZE, _ => 0 as byte) + z;
    hide EncodeU32, ReadU32, ReadBytes, ReadCurves, ProcessEntries, DecodeAnimation, DecodeAnimationAsWritten, ReadPrefix;
    SkippedPrefix(s, two, z);
    SkippedDecodes(s, tsize);
  }

  /** Any stream whose prefix is that one, with nothing after it. */
  lemma {:induction false} SkippedDecodes(s: seq<byte>, tsize: nat)
    requires ReadPrefix(s, 0) == Ok(Read(Prefix(2, 0, 0, 0, 0, None, 0, []), |s|))
    ensures DecodeAnimationAsWritten(s, 0, tsize) == Err(MissingAttribute)
    ensures DecodeAnimation(s, 0, tsize).Ok? && DecodeAnimation(s, 0, tsize).value.value.entries == []
  {
    hide EncodeU32, ReadU32, ReadBytes, ReadCurves, ProcessEntries, ReadPrefix;
    assert !Bit(2, TRANSFORMER1) && !Bit(2, TRANSFORMER2);
    NoEntriesNoCurves(0);
    SkippedTableFails(s, 0, tsize);
  }

  lemma {:induction false} NoEntriesNoCurves(n: nat)
    ensures ProcessEntries([], 0, n, []) == Ok(([], 0))
  {
  }

  lemma {:induction false} SkippedPrefix(s: seq<byte>, two: seq<byte>, z: seq<byte>)
    requires two == EncodeU32(2, Big) && z == EncodeU32(0, Big)
    requires s == two + z + z + z + z + seq(SKIPPED_SIZE, _ => 0 as byte) + z
    ensures ReadPrefix(s, 0) == Ok(Read(Prefix(2, 0, 0, 0, 0, None, 0, []), |s|))
  {
    hide EncodeU32, ReadU32;
    var gap := seq(SKIPPED_SIZE, _ => 0 as byte);
    AtFramed([], s, []);
    assert [] + s + [] == s;
    AtSplit(s, 0, two + z + z + z + z + gap, z);
    AtSplit(s, 0, two + z + z + z + z, gap);
    AtSplit(s, 0, two + z + z + z, z);
    AtSplit(s, 0, two + z + z, z);
    AtSplit(s, 0, two + z, z);
    AtSplit(s, 0, two, z);
    ReadU32At(s, 0, 2, Big);
    ReadU32At(s, 4, 0, Big);
    ReadU32At(s, 8, 0, Big);
    ReadU32At(s, 12, 0, Big);
    ReadU32At(s, 16, 0, Big);
    ReadU32At(s, 76, 0, Big);
    assert Bit(2, NO_ENTRIES);
    assert ReadCurves(s, 80, 0) == Ok(Read([], 80));
  }
}

=== FILE: vertex_layout.dfy ===
/** The per-vertex record layout of a mesh vertex buffer, computed from the
    buffer's flag word (zwoLib/zwo/zwoMesh.py, VertexBuffer.__br_read__).
    Position always comes first; every other field is switched on by one bit,
    scanned from bit 0 (0x1) to bit 10 (0x400). */
module VertexLayout {
  import opened Bytes

  datatype Field =
    | Position              // 3 floats, always present
    | Normal                // 3 floats, bit 0x1
    | Color0                // 4 bytes, bit 0x2
    | Color1                // 4 bytes, bit 0x4
    | Uv(slot: nat)         // 2 floats, bits 0x8 .. 0x40
    | BoneIndex(slot: nat)  // uint32, bits 0x80 .. 0x400, each followed by
    | BoneWeight(slot: nat) // one float

  function FieldSize(f: Field): nat
  {
    match f
    case Position => 12
    case Normal => 12
    case Color0 => 4
    case Color1 => 4
    case Uv(_) => 8
    case BoneIndex(_) => 4
    case BoneWeight(_) => 4
  }

  /** Total byte size of a sequence of fields. */
  function SizeOf(fs: seq<Field>): nat
  {
    if |fs| == 0 then 0 else FieldSize(fs[0]) + SizeOf(fs[1..])
  }

  function When(b: bool, fs: seq<Field>): seq<Field>
  {
    if b then fs else []
  }

  /** The eleven flag bits the reader tests, in the order it tests them. */
  type FlagBits = b: seq<bool> | |b| == 11 witness [false, false, false, false, false, false, false, false, false, false, false]

  function Bits(flags: nat): FlagBits
  {
    [Bit(flags, 0x1), Bit(flags, 0x2), Bit(flags, 0x4), Bit(flags, 0x8),
     Bit(flags, 0x10), Bit(flags, 0x20), Bit(flags, 0x40), Bit(flags, 0x80),
     Bit(flags, 0x100), Bit(flags, 0x200), Bit(flags, 0x400)]
  }

  function ColorPart(b: FlagBits): seq<Field>
  {
    When(b[1], [Color0]) + When(b[2], [Color1])
  }

  function UvPart(b: FlagBits): seq<Field>
  {
    When(b[3], [Uv(0)]) + When(b[4], [Uv(1)]) + When(b[5], [Uv(2)]) + When(b[6], [Uv(3)])
  }

  function BonePart(b: FlagBits): seq<Field>
  {
    When(b[7], [BoneIndex(0), BoneWeight(0)]) + When(b[8], [BoneIndex(1), BoneWeight(1)])
    + When(b[9], [BoneIndex(2), BoneWeight(2)]) + When(b[10], [BoneIndex(3), BoneWeight(3)])
  }

  function LayoutOf(b: FlagBits): seq<Field>
  {
    [Position] + When(b[0], [Normal]) + ColorPart(b) + UvPart(b) + BonePart(b)
  }

  /** The record layout (the numpy dtype field list) the reader builds. */
  function Layout(flags: nat): seq<Field>
  {
    LayoutOf(Bits(flags))
  }

  /** The byte size the reader accumulates next to the field list, one
      addition per set bit; it is what the reader multiplies by the vertex count. */
  function VertexSize(flags: nat): nat
  {
    VertexSizeOf(Bits(flags))
  }

  function VertexSizeOf(b: FlagBits): nat
  {
    12
    + (if b[0] then 12 else 0)
    + (if b[1] then 4 else 0)
    + (if b[2] then 4 else 0)
    + (if b[3] then 8 else 0)
    + (if b[4] then 8 else 0)
    + (if b[5] then 8 else 0)
    + (if b[6] then 8 else 0)
    + (if b[7] then 8 else 0)
    + (if b[8] then 8 else 0)
    + (if b[9] then 8 else 0)
    + (if b[10] then 8 else 0)
  }

  /** Number of UV sets (bits 3..6) and of bone slots (bits 7..10) selected. */
  function UvCount(b: FlagBits): nat
  {
    Ind(b[3]) + Ind(b[4]) + Ind(b[5]) + Ind(b[6])
  }

  function BoneCount(b: FlagBits): nat
  {
    Ind(b[7]) + Ind(b[8]) + Ind(b[9]) + Ind(b[10])
  }

  lemma {:induction false} SizeOfConcat(a: seq<Field>, b: seq<Field>)
    ensures SizeOf(a + b) == SizeOf(a) + SizeOf(b)
  {
    if |a| == 0 {
      assert a + b == b;
    } else {
      assert (a + b)[1..] == a[1..] + b;
      SizeOfConcat(a[1..], b);
    }
  }

  lemma {:induction false} ColorPartSize(b: FlagBits)
    ensures SizeOf(ColorPart(b)) == 4 * Ind(b[1]) + 4 * Ind(b[2])
  {
    SizeOfConcat(When(b[1], [Color0]), When(b[2], [Color1]));
  }

  lemma {:induction false} UvPartSize(b: FlagBits)
    ensures SizeOf(UvPart(b)) == 8 * UvCount(b)
  {
    var u0, u1, u2, u3 := When(b[3], [Uv(0)]), When(b[4], [Uv(1)]), When(b[5], [Uv(2)]), When(b[6], [Uv(3)]);
    UvSize(b[3], 0); UvSize(b[4], 1); UvSize(b[5], 2); UvSize(b[6], 3);
    SizeOfConcat(u0 + u1 + u2, u3);
    SizeOfConcat(u0 + u1, u2);
    SizeOfConcat(u0, u1);
  }

  lemma {:induction false} UvSize(c: bool, k: nat)
    ensures SizeOf(When(c, [Uv(k)])) == 8 * Ind(c)
  {
  }

  lemma {:induction false} PairSize(c: bool, k: nat)
    ensures SizeOf(When(c, [BoneIndex(k), BoneWeight(k)])) == 8 * Ind(c)
  {
    if c {
      var w := [BoneWeight(k)];
      assert w[1..] == [];
      assert SizeOf(w) == 4;
      assert [BoneIndex(k), BoneWeight(k)][1..] == w;
    }
  }

  lemma {:induction false} BonePartSize(b: FlagBits)
    ensures SizeOf(BonePart(b)) == 8 * BoneCount(b)
  {
    var b0, b1 := When(b[7], [BoneIndex(0), BoneWeight(0)]), When(b[8], [BoneIndex(1), BoneWeight(1)]);
    var b2, b3 := When(b[9], [BoneIndex(2), BoneWeight(2)]), When(b[10], [BoneIndex(3), BoneWeight(3)]);
    PairSize(b[7], 0); PairSize(b[8], 1); PairSize(b[9], 2); PairSize(b[10], 3);
    SizeOfConcat(b0 + b1 + b2, b3);
    SizeOfConcat(b0 + b1, b2);
    SizeOfConcat(b0, b1);
  }

  /** The size the reader multiplies by the vertex count is the size of the
      record its field list describes, and follows the bit-count formula. */
  lemma {:induction false} StrideFormula(flags: nat)
    ensures SizeOf(Layout(flags)) == VertexSize(flags)
    ensures VertexSize(flags)
         == 12 + 12 * Ind(Bit(flags, 0x1)) + 4 * Ind(Bit(flags, 0x2)) + 4 * Ind(Bit(flags, 0x4))
            + 8 * UvCount(Bits(flags)) + 8 * BoneCount(Bits(flags))
    ensures 12 <= VertexSize(flags) <= 96
  {
    StrideFormulaOf(Bits(flags));
  }

  lemma {:induction false} StrideFormulaOf(b: FlagBits)
    ensures SizeOf(LayoutOf(b)) == VertexSizeOf(b)
    ensures VertexSizeOf(b)
         == 12 + 12 * Ind(b[0]) + 4 * Ind(b[1]) + 4 * Ind(b[2]) + 8 * UvCount(b) + 8 * BoneCount(b)
    ensures 12 <= VertexSizeOf(b) <= 96
  {
    LayoutSize(b);
    SizeFormula(b);
  }

  lemma {:induction false} SizeFormula(b: FlagBits)
    ensures VertexSizeOf(b)
         == 12 + 12 * Ind(b[0]) + 4 * Ind(b[1]) + 4 * Ind(b[2]) + 8 * UvCount(b) + 8 * BoneCount(b)
  {
    assert (if b[0] then 12 else 0) == 12 * Ind(b[0]);
    assert (if b[1] then 4 else 0) + (if b[2] then 4 else 0) == 4 * Ind(b[1]) + 4 * Ind(b[2]);
    assert (if b[3] then 8 else 0) + (if b[4] then 8 else 0) + (if b[5] then 8 else 0) + (if b[6] then 8 else 0)
        == 8 * UvCount(b);
    assert (if b[7] then 8 else 0) + (if b[8] then 8 else 0) + (if b[9] then 8 else 0) + (if b[10] then 8 else 0)
        == 8 * BoneCount(b);
  }

  lemma {:induction false} LayoutSize(b: FlagBits)
    ensures SizeOf(LayoutOf(b))
         == 12 + 12 * Ind(b[0]) + 4 * Ind(b[1]) + 4 * Ind(b[2]) + 8 * UvCount(b) + 8 * BoneCount(b)
  {
    var n := When(b[0], [Normal]);
    assert SizeOf([Position]) == 12;
    assert SizeOf(n) == 12 * Ind(b[0]) by {
      if b[0] { assert SizeOf([Normal]) == 12; }
    }
    SizeOfConcat([Position] + n + ColorPart(b) + UvPart(b), BonePart(b));
    SizeOfConcat([Position] + n + ColorPart(b), UvPart(b));
    SizeOfConcat([Position] + n, ColorPart(b));
    SizeOfConcat([Position], n);
    ColorPartSize(b);
    UvPartSize(b);
    BonePartSize(b);
  }

  /** Flag bits above 0x400 select nothing. */
  lemma {:induction false} HighBitsIgnored(flags: nat)
    ensures Layout(flags) == Layout(flags % 2048)
    ensures VertexSize(flags) == VertexSize(flags % 2048)
  {
    LowBit(flags, 0x1, 2048); LowBit(flags, 0x2, 1024); LowBit(flags, 0x4, 512);
    LowBit(flags, 0x8, 256); LowBit(flags, 0x10, 128); LowBit(flags, 0x20, 64);
    LowBit(flags, 0x40, 32); LowBit(flags, 0x80, 16); LowBit(flags, 0x100, 8);
    LowBit(flags, 0x200, 4); LowBit(flags, 0x400, 2);
    assert Bits(flags) == Bits(flags % 2048);
  }

  /** Position, then normal, colours, UV sets and bone (index, weight) pairs. */
  function Rank(f: Field): nat
  {
    match f
    case Position => 0
    case Normal => 1
    case Color0 => 2
    case Color1 => 3
    case Uv(k) => 4 + k
    case BoneIndex(k) => 8 + 2 * k
    case BoneWeight(k) => 9 + 2 * k
  }

  ghost predicate Ascending(fs: seq<Field>)
  {
    forall i, j :: 0 <= i < j < |fs| ==> Rank(fs[i]) < Rank(fs[j])
  }

  ghost predicate RanksWithin(fs: seq<Field>, lo: nat, hi: nat)
  {
    forall i :: 0 <= i < |fs| ==> lo <= Rank(fs[i]) < hi
  }

  lemma {:induction false} AscendingConcat(a: seq<Field>, b: seq<Field>, lo: nat, mid: nat, hi: nat)
    requires lo <= mid <= hi
    requires Ascending(a) && Ascending(b)
    requires RanksWithin(a, lo, mid) && RanksWithin(b, mid, hi)
    ensures Ascending(a + b) && RanksWithin(a + b, lo, hi)
  {
    forall i | 0 <= i < |a + b|
      ensures lo <= Rank((a + b)[i]) < hi
    {
      if i >= |a| {
        assert (a + b)[i] == b[i - |a|];
      } else {
        assert (a + b)[i] == a[i];
      }
    }
    forall i, j | 0 <= i < j < |a + b|
      ensures Rank((a + b)[i]) < Rank((a + b)[j])
    {
      if j < |a| {
      } else if i >= |a| {
        assert (a + b)[i] == b[i - |a|] && (a + b)[j] == b[j - |a|];
      } else {
        assert (a + b)[i] == a[i] && (a + b)[j] == b[j - |a|];
      }
    }
  }

  lemma {:induction false} ColorsAscending(b: FlagBits)
    ensures Ascending(ColorPart(b)) && RanksWithin(ColorPart(b), 2, 4)
  {
    AscendingConcat(When(b[1], [Color0]), When(b[2], [Color1]), 2, 3, 4);
  }

  lemma {:induction false} UvsAscending(b: FlagBits)
    ensures Ascending(UvPart(b)) && RanksWithin(UvPart(b), 4, 8)
  {
    UvAscending(0); UvAscending(1); UvAscending(2); UvAscending(3);
    var u0, u1, u2, u3 := When(b[3], [Uv(0)]), When(b[4], [Uv(1)]), When(b[5], [Uv(2)]), When(b[6], [Uv(3)]);
    AscendingConcat(u0, u1, 4, 5, 6);
    AscendingConcat(u0 + u1, u2, 4, 6, 7);
    AscendingConcat(u0 + u1 + u2, u3, 4, 7, 8);
  }

  lemma {:induction false} UvAscending(k: nat)
    ensures Ascending([Uv(k)]) && RanksWithin([Uv(k)], 4 + k, 5 + k)
  {
  }

  lemma {:induction false} PairAscending(k: nat)
    ensures Ascending([BoneIndex(k), BoneWeight(k)])
    ensures RanksWithin([BoneIndex(k), BoneWeight(k)], 8 + 2 * k, 10 + 2 * k)
  {
  }

  lemma {:induction false} BonesAscending(b: FlagBits)
    ensures Ascending(BonePart(b)) && RanksWithin(BonePart(b), 8, 16)
  {
    PairAscending(0); PairAscending(1); PairAscending(2); PairAscending(3);
    var b0, b1 := When(b[7], [BoneIndex(0), BoneWeight(0)]), When(b[8], [BoneIndex(1), BoneWeight(1)]);
    var b2, b3 := When(b[9], [BoneIndex(2), BoneWeight(2)]), When(b[10], [BoneIndex(3), BoneWeight(3)]);
    AscendingConcat(b0, b1, 8, 10, 12);
    AscendingConcat(b0 + b1, b2, 8, 12, 14);
    AscendingConcat(b0 + b1 + b2, b3, 8, 14, 16);
  }

  lemma {:induction false} LayoutOfAscending(b: FlagBits)
    ensures Ascending(LayoutOf(b))
  {
    var n := When(b[0], [Normal]);
    assert Ascending(n) && RanksWithin(n, 1, 2);
    assert Ascending([Position]) && RanksWithin([Position], 0, 1);
    ColorsAscending(b);
    UvsAscending(b);
    BonesAscending(b);
    AscendingConcat([Position], n, 0, 1, 2);
    AscendingConcat([Position] + n, ColorPart(b), 0, 2, 4);
    AscendingConcat([Position] + n + ColorPart(b), UvPart(b), 0, 4, 8);
    AscendingConcat([Position] + n + ColorPart(b) + UvPart(b), BonePart(b), 0, 8, 16);
  }

  /** Position first, and every field after the fields of lower bits. */
  lemma {:induction false} LayoutOrdered(flags: nat)
    ensures Layout(flags)[0] == Position
    ensures forall i, j :: 0 <= i < j < |Layout(flags)| ==> Rank(Layout(flags)[i]) < Rank(Layout(flags)[j])
  {
    LayoutOfAscending(Bits(flags));
  }

  /** Normal plus the first UV set: position, normal, uv0 in 32 bytes. */
  lemma {:induction false} NormalUvExample()
    ensures Layout(0x9) == [Position, Normal, Uv(0)]
    ensures VertexSize(0x9) == 32
  {
    assert Bits(0x9) == [true, false, false, true, false, false, false, false, false, false, false];
  }
}

=== FILE: xmc.dfy ===
/** The compiled-XML (XMC) reader of zwoLib/utils/xmc.py: a little-endian
    header of three counts, a table of 16-byte node records, a table of
    8-byte attribute records and a string pool; the name lookup with its
    hexadecimal fallback; and the depth-first walk that renders the tree
    as XML text, guarded by a visited set. XML text is a `seq<char>`; the
    pool stays bytes until a value is rendered. */
module Xmc {
  import opened Bytes

  // ---------------------------------------------------------------
  // Records

  const HEADER_SIZE: nat := 12
  const NODE_SIZE: nat := 16
  const ATTR_SIZE: nat := 8

  /** A node record: the tag-name hash, then five signed 16-bit fields;
      the last two bytes of the record are padding. */
  datatype Node = Node(
    tagCrc: u32,
    parent: int,
    childCount: int,
    firstChild: int,
    attrCount: int,
    firstAttr: int)

  /** An attribute record: the name hash and the value's offset in the pool. */
  datatype Attribute = Attribute(nameCrc: u32, valueOffset: u32)

  datatype Document = Document(nodes: seq<Node>, attributes: seq<Attribute>, pool: seq<byte>)

  /** A little-endian signed 16-bit field. */
  function I16(b: seq<byte>): (r: int)
    requires |b| == 2
    ensures -0x8000 <= r < 0x8000
  {
    Signed16(ValueU16(b, Little))
  }

  function DecodeNode(b: seq<byte>): Node
    requires |b| == NODE_SIZE
  {
    Node(ValueU32(b[..4], Little), I16(b[4..6]), I16(b[6..8]), I16(b[8..10]), I16(b[10..12]), I16(b[12..14]))
  }

  function DecodeAttribute(b: seq<byte>): Attribute
    requires |b| == ATTR_SIZE
  {
    Attribute(ValueU32(b[..4], Little), ValueU32(b[4..], Little))
  }

  function ParseNodes(b: seq<byte>, count: nat): (ns: seq<Node>)
    requires |b| == Blocks(count, NODE_SIZE)
    ensures |ns| == count
    decreases count
  {
    if count == 0 then []
    else [DecodeNode(b[..NODE_SIZE])] + ParseNodes(b[NODE_SIZE..], count - 1)
  }

  function ParseAttributes(b: seq<byte>, count: nat): (as_: seq<Attribute>)
    requires |b| == Blocks(count, ATTR_SIZE)
    ensures |as_| == count
    decreases count
  {
    if count == 0 then []
    else [DecodeAttribute(b[..ATTR_SIZE])] + ParseAttributes(b[ATTR_SIZE..], count - 1)
  }

  /** A section of `count` records of `size` bytes; a zero count reads
      nothing. */
  function ReadSection(s: seq<byte>, pos: nat, count: nat, size: nat): (r: Result<Read<seq<byte>>>)
    ensures r.Ok? <==> count == 0 || pos + Blocks(count, size) <= |s|
    ensures r.Ok? ==> r.value.next == pos + Blocks(count, size) && |r.value.value| == Blocks(count, size)
  {
    if count > 0 then ReadBytes(s, pos, Blocks(count, size)) else Ok(Read([], pos))
  }

  /** The whole file: node count, attribute count and pool size, then the
      three sections in that order. Trailing bytes are ignored. */
  function Parse(s: seq<byte>): (r: Result<Read<Document>>)
    ensures r.Ok? ==> r.value.next <= |s|
  {
    var nodeCount :- ReadU32(s, 0, Little);
    var attrCount :- ReadU32(s, nodeCount.next, Little);
    var poolSize :- ReadU32(s, attrCount.next, Little);
    var nodeBytes :- ReadSection(s, poolSize.next, nodeCount.value, NODE_SIZE);
    var attrBytes :- ReadSection(s, nodeBytes.next, attrCount.value, ATTR_SIZE);
    var pool :- if poolSize.value > 0 then ReadBytes(s, attrBytes.next, poolSize.value) else Ok(Read([], attrBytes.next));
    Ok(Read(Document(ParseNodes(nodeBytes.value, nodeCount.value),
                     ParseAttributes(attrBytes.value, attrCount.value),
                     pool.value), pool.next))
  }

  /** The header word at `p`, as read. */
  function Count(s: seq<byte>, p: nat): nat
    requires p + 4 <= |s|
  {
    ValueU32(s[p..p + 4], Little)
  }

  /** Parsing fails exactly when the header or a section it announces
      runs past the end; otherwise it consumes the header, sixteen bytes
      per node, eight per attribute and the pool. */
  lemma {:induction false} ParseExtent(s: seq<byte>)
    ensures Parse(s).Ok? <==>
      && HEADER_SIZE <= |s|
      && HEADER_SIZE + NODE_SIZE * Count(s, 0) + ATTR_SIZE * Count(s, 4) + Count(s, 8) <= |s|
    ensures Parse(s).Ok? ==>
      var d := Parse(s).value;
      && d.next == HEADER_SIZE + NODE_SIZE * |d.value.nodes| + ATTR_SIZE * |d.value.attributes| + |d.value.pool|
      && |d.value.nodes| == Count(s, 0)
      && |d.value.attributes| == Count(s, 4)
      && |d.value.pool| == Count(s, 8)
  {
    if HEADER_SIZE <= |s| {
      var n, a, p := ReadU32(s, 0, Little).value.value, ReadU32(s, 4, Little).value.value, ReadU32(s, 8, Little).value.value;
      U32RoundTrip(n, Little);
      U32RoundTrip(a, Little);
      U32RoundTrip(p, Little);
      BlocksProduct(n, NODE_SIZE);
      BlocksProduct(a, ATTR_SIZE);
    }
  }

  // ---------------------------------------------------------------
  // Writing a document back, as the reader's partner

  predicate I16Fits(v: int) { -0x8000 <= v < 0x8000 }

  predicate NodeFits(n: Node)
  {
    I16Fits(n.parent) && I16Fits(n.childCount) && I16Fits(n.firstChild) && I16Fits(n.attrCount) && I16Fits(n.firstAttr)
  }

  /** The documents the format can hold: counts that fit a uint32 and
      node fields that fit a signed 16-bit field. */
  predicate Encodable(d: Document)
  {
    && |d.nodes| < U32_LIMIT && |d.attributes| < U32_LIMIT && |d.pool| < U32_LIMIT
    && forall n :: n in d.nodes ==> NodeFits(n)
  }

  function EncodeI16(v: int): (r: seq<byte>)
    requires I16Fits(v)
    ensures |r| == 2
  {
    EncodeU16(v % U16_LIMIT, Little)
  }

  function EncodeNode(n: Node): (r: seq<byte>)
    requires NodeFits(n)
    ensures |r| == NODE_SIZE
  {
    EncodeU32(n.tagCrc, Little) + EncodeI16(n.parent) + EncodeI16(n.childCount) + EncodeI16(n.firstChild)
    + EncodeI16(n.attrCount) + EncodeI16(n.firstAttr) + [0, 0]
  }

  function EncodeAttribute(a: Attribute): (r: seq<byte>)
    ensures |r| == ATTR_SIZE
  {
    EncodeU32(a.nameCrc, Little) + EncodeU32(a.valueOffset, Little)
  }

  function EncodeNodes(ns: seq<Node>): (r: seq<byte>)
    requires forall n :: n in ns ==> NodeFits(n)
    ensures |r| == Blocks(|ns|, NODE_SIZE)
  {
    if |ns| == 0 then [] else EncodeNode(ns[0]) + EncodeNodes(ns[1..])
  }

  function EncodeAttributes(as_: seq<Attribute>): (r: seq<byte>)
    ensures |r| == Blocks(|as_|, ATTR_SIZE)
  {
    if |as_| == 0 then [] else EncodeAttribute(as_[0]) + EncodeAttributes(as_[1..])
  }

  function EncodeDocument(d: Document): (r: seq<byte>)
    requires Encodable(d)
  {
    EncodeU32(|d.nodes|, Little) + EncodeU32(|d.attributes|, Little) + EncodeU32(|d.pool|, Little)
    + EncodeNodes(d.nodes) + EncodeAttributes(d.attributes) + d.pool
  }

  lemma {:induction false} I16RoundTrip(v: int)
    requires I16Fits(v)
    ensures I16(EncodeI16(v)) == v
  {
    U16RoundTrip(v % U16_LIMIT, Little);
  }

  lemma {:induction false} NodeRoundTrip(n: Node)
    requires NodeFits(n)
    ensures DecodeNode(EncodeNode(n)) == n
  {
    var b := EncodeNode(n);
    var w := EncodeU32(n.tagCrc, Little);
    var e1, e2, e3, e4, e5 := EncodeI16(n.parent), EncodeI16(n.childCount), EncodeI16(n.firstChild),
                              EncodeI16(n.attrCount), EncodeI16(n.firstAttr);
    assert b[..4] == w;
    assert b[4..6] == e1 && b[6..8] == e2 && b[8..10] == e3 && b[10..12] == e4 && b[12..14] == e5;
    U32RoundTrip(n.tagCrc, Little);
    I16RoundTrip(n.parent);
    I16RoundTrip(n.childCount);
    I16RoundTrip(n.firstChild);
    I16RoundTrip(n.attrCount);
    I16RoundTrip(n.firstAttr);
  }

  lemma {:induction false} AttributeRoundTrip(a: Attribute)
    ensures DecodeAttribute(EncodeAttribute(a)) == a
  {
    var b := EncodeAttribute(a);
    assert b[..4] == EncodeU32(a.nameCrc, Little) && b[4..] == EncodeU32(a.valueOffset, Little);
    U32RoundTrip(a.nameCrc, Little);
    U32RoundTrip(a.valueOffset, Little);
  }

  lemma {:induction false} NodesRoundTrip(ns: seq<Node>)
    requires forall n :: n in ns ==> NodeFits(n)
    ensures ParseNodes(EncodeNodes(ns), |ns|) == ns
    decreases |ns|
  {
    if |ns| > 0 {
      var b := EncodeNodes(ns);
      assert b[..NODE_SIZE] == EncodeNode(ns[0]) && b[NODE_SIZE..] == EncodeNodes(ns[1..]);
      NodeRoundTrip(ns[0]);
      NodesRoundTrip(ns[1..]);
      assert ns == [ns[0]] + ns[1..];
    }
  }

  lemma {:induction false} AttributesRoundTrip(as_: seq<Attribute>)
    ensures ParseAttributes(EncodeAttributes(as_), |as_|) == as_
    decreases |as_|
  {
    if |as_| > 0 {
      var b := EncodeAttributes(as_);
      assert b[..ATTR_SIZE] == EncodeAttribute(as_[0]) && b[ATTR_SIZE..] == EncodeAttributes(as_[1..]);
      AttributeRoundTrip(as_[0]);
      AttributesRoundTrip(as_[1..]);
      assert as_ == [as_[0]] + as_[1..];
    }
  }

  /** The three header reads of an encoded document. */
  lemma {:induction false} HeaderReads(d: Document, s: seq<byte>)
    requires Encodable(d)
    requires |s| >= 12
    requires s[..12] == EncodeU32(|d.nodes|, Little) + EncodeU32(|d.attributes|, Little) + EncodeU32(|d.pool|, Little)
    ensures ReadU32(s, 0, Little) == Ok(Read(|d.nodes|, 4))
    ensures ReadU32(s, 4, Little) == Ok(Read(|d.attributes|, 8))
    ensures ReadU32(s, 8, Little) == Ok(Read(|d.pool|, 12))
  {
    var h1, h2, h3 := EncodeU32(|d.nodes|, Little), EncodeU32(|d.attributes|, Little), EncodeU32(|d.pool|, Little);
    assert s[0..4] == h1 && s[4..8] == h2 && s[8..12] == h3;
    U32RoundTrip(|d.nodes|, Little);
    U32RoundTrip(|d.attributes|, Little);
    U32RoundTrip(|d.pool|, Little);
  }

  /** Parsing, given what each of its reads finds. */
  lemma {:induction false} ParseSteps(s: seq<byte>, n: u32, a: u32, p: u32, nb: seq<byte>, ab: seq<byte>, pool: seq<byte>)
    requires ReadU32(s, 0, Little) == Ok(Read(n, 4))
    requires ReadU32(s, 4, Little) == Ok(Read(a, 8))
    requires ReadU32(s, 8, Little) == Ok(Read(p, 12))
    requires |nb| == Blocks(n, NODE_SIZE) && |ab| == Blocks(a, ATTR_SIZE) && |pool| == p
    requires 12 + |nb| + |ab| + |pool| <= |s|
    requires s[12..12 + |nb|] == nb
    requires s[12 + |nb|..12 + |nb| + |ab|] == ab
    requires s[12 + |nb| + |ab|..12 + |nb| + |ab| + |pool|] == pool
    ensures Parse(s) == Ok(Read(Document(ParseNodes(nb, n), ParseAttributes(ab, a), pool), 12 + |nb| + |ab| + |pool|))
  {
    hide ReadU32, ParseNodes, ParseAttributes, Blocks;
  }

  /** A twelve-byte header followed by three parts: each part is the
      slice where it lands. */
  lemma {:induction false} SlicesOfFour(h: seq<byte>, a: seq<byte>, b: seq<byte>, c: seq<byte>)
    requires |h| == 12
    ensures var s := h + a + b + c;
      && |s| == 12 + |a| + |b| + |c|
      && s[..12] == h
      && s[12..12 + |a|] == a
      && s[12 + |a|..12 + |a| + |b|] == b
      && s[12 + |a| + |b|..12 + |a| + |b| + |c|] == c
  {
  }

  lemma {:induction false} DocumentShape(d: Document)
    requires Encodable(d)
    ensures EncodeDocument(d)
            == EncodeU32(|d.nodes|, Little) + EncodeU32(|d.attributes|, Little) + EncodeU32(|d.pool|, Little)
               + EncodeNodes(d.nodes) + EncodeAttributes(d.attributes) + d.pool
  {
  }

  /** Parsing an encoded document gives the document back and consumes
      the whole encoding. */
  lemma {:induction false} ParseRoundTrip(d: Document)
    requires Encodable(d)
    ensures Parse(EncodeDocument(d)) == Ok(Read(d, |EncodeDocument(d)|))
  {
    hide Parse, EncodeDocument, EncodeNodes, EncodeAttributes, EncodeU32, ReadU32;
    var s := EncodeDocument(d);
    var h := EncodeU32(|d.nodes|, Little) + EncodeU32(|d.attributes|, Little) + EncodeU32(|d.pool|, Little);
    var en, ea := EncodeNodes(d.nodes), EncodeAttributes(d.attributes);
    DocumentShape(d);
    SlicesOfFour(h, en, ea, d.pool);
    HeaderReads(d, s);
    NodesRoundTrip(d.nodes);
    AttributesRoundTrip(d.attributes);
    ParseSteps(s, |d.nodes|, |d.attributes|, |d.pool|, en, ea, d.pool);
  }

  // ---------------------------------------------------------------
  // The string pool

  /** The first NUL at or after `from`, or the end of the pool. */
  function NulFrom(pool: seq<byte>, from: nat): (end: nat)
    requires from <= |pool|
    ensures from <= end <= |pool|
    ensures forall j :: from <= j < end ==> pool[j] != 0
    ensures end == |pool| || pool[end] == 0
    decreases |pool| - from
  {
    if from == |pool| || pool[from] == 0 then from else NulFrom(pool, from + 1)
  }

  /** The pool string at `offset`: empty past the end of the pool,
      otherwise the bytes up to the first NUL or the end of the pool. */
  function GetString(pool: seq<byte>, offset: nat): (r: seq<byte>)
    ensures offset >= |pool| ==> r == []
    ensures offset < |pool| ==>
      && offset + |r| <= |pool|
      && r == pool[offset..offset + |r|]
      && 0 !in r
      && (offset + |r| == |pool| || pool[offset + |r|] == 0)
  {
    if offset >= |pool| then [] else pool[offset..NulFrom(pool, offset)]
  }

  /** A string stored with its terminator reads back whole, whatever
      precedes and follows it. */
  lemma {:induction false} TerminatedString(pre: seq<byte>, str: seq<byte>, post: seq<byte>)
    requires 0 !in str
    ensures GetString(pre + str + [0] + post, |pre|) == str
  {
    var pool := pre + str + [0] + post;
    var r := GetString(pool, |pre|);
    assert pool[|pre| + |str|] == 0;
    assert forall j :: |pre| <= j < |pre| + |str| ==> pool[j] == str[j - |pre|];
    assert pool[|pre|..|pre| + |str|] == str;
  }

  /** A value rendered as text, one character per byte. */
  function Text(b: seq<byte>): (r: seq<char>)
    ensures |r| == |b| && forall i :: 0 <= i < |b| ==> r[i] as int == b[i] as int
  {
    seq(|b|, i requires 0 <= i < |b| => (b[i] as int) as char)
  }

  // ---------------------------------------------------------------
  // Names

  function Pow16(k: nat): (r: nat)
    ensures r > 0
  {
    if k == 0 then 1 else 16 * Pow16(k - 1)
  }

  predicate IsHexDigit(c: char)
  {
    '0' <= c <= '9' || 'A' <= c <= 'F'
  }

  function HexDigit(d: nat): (c: char)
    requires d < 16
    ensures IsHexDigit(c)
  {
    if d < 10 then ('0' as int + d) as char else ('A' as int + d - 10) as char
  }

  function DigitValue(c: char): (d: nat)
    requires IsHexDigit(c)
    ensures d < 16
  {
    if c <= '9' then c as int - '0' as int else c as int - 'A' as int + 10
  }

  /** The number an upper-case hexadecimal numeral denotes. */
  function HexValue(s: seq<char>): nat
    requires forall i :: 0 <= i < |s| ==> IsHexDigit(s[i])
  {
    if |s| == 0 then 0 else HexValue(s[..|s| - 1]) * 16 + DigitValue(s[|s| - 1])
  }

  /** The last `k` hexadecimal digits of `n`, upper case, zero-padded. */
  function HexN(n: nat, k: nat): (r: seq<char>)
    ensures |r| == k && forall i :: 0 <= i < k ==> IsHexDigit(r[i])
  {
    if k == 0 then [] else HexN(n / 16, k - 1) + [HexDigit(n % 16)]
  }

  /** `n` as Python's `format(n, '08X')`, for `n` below 2^32. */
  function Hex8(n: u32): (r: seq<char>)
    ensures |r| == 8 && forall i :: 0 <= i < 8 ==> IsHexDigit(r[i])
    ensures HexValue(r) == n
  {
    HexValue8(n);
    HexN(n, 8)
  }

  lemma {:induction false} ModMul(n: nat, p: nat)
    requires p > 0
    ensures (n / 16 % p) * 16 + n % 16 == n % (16 * p)
  {
    var q, r := n / 16, n % 16;
    var a, b := q / p, q % p;
    assert q == p * a + b;
    assert n == 16 * q + r;
    assert n == (16 * p) * a + (16 * b + r) by {
      assert 16 * q == 16 * (p * a) + 16 * b;
      assert 16 * (p * a) == (16 * p) * a;
    }
    assert 16 * b + r < 16 * p;
    DivUnique(n, 16 * p, a);
  }

  /** The digits read back as the number modulo 16^k. */
  lemma {:induction false} HexNValue(n: nat, k: nat)
    ensures HexValue(HexN(n, k)) == n % Pow16(k)
  {
    if k > 0 {
      var h := HexN(n, k);
      HexNValue(n / 16, k - 1);
      assert h[..k - 1] == HexN(n / 16, k - 1);
      assert DigitValue(h[k - 1]) == n % 16;
      ModMul(n, Pow16(k - 1));
    }
  }

  lemma {:induction false} HexValue8(n: u32)
    ensures HexValue(HexN(n, 8)) == n
  {
    HexNValue(n, 8);
    Pow16Eight();
  }

  lemma {:induction false} Pow16Eight()
    ensures Pow16(8) == U32_LIMIT
  {
    assert Pow16(0) == 1;
    assert Pow16(1) == 16;
    assert Pow16(2) == 0x100;
    assert Pow16(3) == 0x1000;
    assert Pow16(4) == 0x1_0000;
    assert Pow16(5) == 0x10_0000;
    assert Pow16(6) == 0x100_0000;
    assert Pow16(7) == 0x1000_0000;
  }

  /** A hash's name: the dictionary's entry when there is one, otherwise
      the prefix, an underscore and the hash as eight upper-case
      hexadecimal digits. An absent dictionary is the empty map. */
  function ResolveName(crc: u32, names: map<nat, seq<char>>, prefix: seq<char>): (r: seq<char>)
    ensures crc in names ==> r == names[crc]
    ensures crc !in names ==>
      && |r| == |prefix| + 9
      && r[..|prefix|] == prefix
      && r[|prefix|] == '_'
      && (forall i :: |prefix| < i < |r| ==> IsHexDigit(r[i]))
      && HexValue(r[|prefix| + 1..]) == crc
  {
    if crc in names then names[crc]
    else
      var r := prefix + "_" + Hex8(crc);
      assert r[|prefix| + 1..] == Hex8(crc);
      r
  }

  // ---------------------------------------------------------------
  // A node's attributes

  /** Indices `first .. first + count - 1` that fall inside a table of
      `n` records, in increasing order. */
  function InRange(first: int, count: int, n: nat): (r: seq<nat>)
    ensures forall j :: 0 <= j < |r| ==> r[j] < n && first <= r[j] < first + count
    ensures forall j, k :: 0 <= j < k < |r| ==> r[j] < r[k]
    ensures forall x: nat :: first <= x < first + count && x < n ==> x in r
    decreases if count > 0 then count else 0
  {
    if count <= 0 then []
    else (if 0 <= first < n then [first as nat] else []) + InRange(first + 1, count - 1, n)
  }

  /** One attribute as a (name, value) pair. */
  function AttrPair(doc: Document, names: map<nat, seq<char>>, a: Attribute): (seq<char>, seq<char>)
  {
    (ResolveName(a.nameCrc, names, "attr"), Text(GetString(doc.pool, a.valueOffset)))
  }

  /** The loop over `count` attribute indices from `first`, skipping any
      index outside the table; a count of zero or less gives nothing. */
  function NodeAttributes(doc: Document, names: map<nat, seq<char>>, first: int, count: int): seq<(seq<char>, seq<char>)>
    decreases if count > 0 then count else 0
  {
    if count <= 0 then []
    else
      (if 0 <= first < |doc.attributes| then [AttrPair(doc, names, doc.attributes[first])] else [])
      + NodeAttributes(doc, names, first + 1, count - 1)
  }

  /** The attributes are exactly the records at the in-range indices, in
      order. */
  lemma {:induction false} AttributesInRange(doc: Document, names: map<nat, seq<char>>, first: int, count: int)
    ensures var idx := InRange(first, count, |doc.attributes|);
      var r := NodeAttributes(doc, names, first, count);
      && |r| == |idx|
      && forall j :: 0 <= j < |r| ==> r[j] == AttrPair(doc, names, doc.attributes[idx[j]])
    decreases if count > 0 then count else 0
  {
    if count > 0 {
      AttributesInRange(doc, names, first + 1, count - 1);
      var idx := InRange(first, count, |doc.attributes|);
      var rest := InRange(first + 1, count - 1, |doc.attributes|);
      var r := NodeAttributes(doc, names, first, count);
      var tail := NodeAttributes(doc, names, first + 1, count - 1);
      if 0 <= first < |doc.attributes| {
        assert idx == [first as nat] + rest;
        assert r == [AttrPair(doc, names, doc.attributes[first])] + tail;
        forall j | 0 < j < |r|
          ensures r[j] == AttrPair(doc, names, doc.attributes[idx[j]])
        {
          assert r[j] == tail[j - 1] && idx[j] == rest[j - 1];
        }
      } else {
        assert idx == rest && r == tail;
      }
    }
  }

  // ---------------------------------------------------------------
  // Escaping

  /** Every occurrence of `c` replaced by `rep`, as `str.replace`. */
  function Replace(s: seq<char>, c: char, rep: seq<char>): seq<char>
  {
    if |s| == 0 then [] else (if s[0] == c then rep else [s[0]]) + Replace(s[1..], c, rep)
  }

  /** The five replacements in the order the source makes them, `&`
      first. */
  function Escape(t: seq<char>): seq<char>
  {
    Replace(Replace(Replace(Replace(Replace(t, '&', "&amp;"), '<', "&lt;"), '>', "&gt;"), '"', "&quot;"), '\'', "&apos;")
  }

  /** The escape of a single character, as a one-pass escaper would
      produce it. */
  function EscapeChar(c: char): seq<char>
  {
    if c == '&' then "&amp;"
    else if c == '<' then "&lt;"
    else if c == '>' then "&gt;"
    else if c == '"' then "&quot;"
    else if c == '\'' then "&apos;"
    else [c]
  }

  /** A one-pass escaper: each character replaced by its escape. */
  function EscapeEach(t: seq<char>): seq<char>
  {
    if |t| == 0 then [] else EscapeChar(t[0]) + EscapeEach(t[1..])
  }

  predicate Special(c: char)
  {
    c == '&' || c == '<' || c == '>' || c == '"' || c == '\''
  }

  lemma {:induction false} ReplaceConcat(a: seq<char>, b: seq<char>, c: char, rep: seq<char>)
    ensures Replace(a + b, c, rep) == Replace(a, c, rep) + Replace(b, c, rep)
    decreases |a|
  {
    if |a| > 0 {
      assert (a + b)[1..] == a[1..] + b;
      ReplaceConcat(a[1..], b, c, rep);
    } else {
      assert a + b == b;
    }
  }

  lemma {:induction false} ReplaceAbsent(s: seq<char>, c: char, rep: seq<char>)
    requires c !in s
    ensures Replace(s, c, rep) == s
    decreases |s|
  {
    if |s| > 0 {
      ReplaceAbsent(s[1..], c, rep);
    }
  }

  /** A character of the result comes from `rep` or is a character of
      `s` other than `c`. */
  lemma {:induction false} ReplaceOrigin(s: seq<char>, c: char, rep: seq<char>)
    ensures forall d :: d in Replace(s, c, rep) ==> d in rep || (d in s && d != c)
    decreases |s|
  {
    if |s| > 0 {
      ReplaceOrigin(s[1..], c, rep);
      var head := if s[0] == c then rep else [s[0]];
      assert Replace(s, c, rep) == head + Replace(s[1..], c, rep);
      forall d | d in Replace(s, c, rep)
        ensures d in rep || (d in s && d != c)
      {
        if d in Replace(s[1..], c, rep) {
          assert d in rep || (d in s[1..] && d != c);
        }
      }
    }
  }

  lemma {:induction false} EscapeConcat(a: seq<char>, b: seq<char>)
    ensures Escape(a + b) == Escape(a) + Escape(b)
  {
    var a1, b1 := Replace(a, '&', "&amp;"), Replace(b, '&', "&amp;");
    ReplaceConcat(a, b, '&', "&amp;");
    var a2, b2 := Replace(a1, '<', "&lt;"), Replace(b1, '<', "&lt;");
    ReplaceConcat(a1, b1, '<', "&lt;");
    var a3, b3 := Replace(a2, '>', "&gt;"), Replace(b2, '>', "&gt;");
    ReplaceConcat(a2, b2, '>', "&gt;");
    var a4, b4 := Replace(a3, '"', "&quot;"), Replace(b3, '"', "&quot;");
    ReplaceConcat(a3, b3, '"', "&quot;");
    ReplaceConcat(a4, b4, '\'', "&apos;");
  }

  /** The passes after the first leave an entity alone. */
  lemma {:induction false} LaterPassesKeep(e: seq<char>)
    requires '<' !in e && '>' !in e && '"' !in e && '\'' !in e
    ensures Replace(Replace(Replace(Replace(e, '<', "&lt;"), '>', "&gt;"), '"', "&quot;"), '\'', "&apos;") == e
  {
    ReplaceAbsent(e, '<', "&lt;");
    ReplaceAbsent(e, '>', "&gt;");
    ReplaceAbsent(e, '"', "&quot;");
    ReplaceAbsent(e, '\'', "&apos;");
  }

  lemma {:induction false} ReplaceSingle(c: char, d: char, rep: seq<char>)
    ensures Replace([c], d, rep) == if c == d then rep else [c]
  {
    assert [c][1..] == [];
    assert Replace([c][1..], d, rep) == [];
  }

  lemma {:induction false} EscapeOne(c: char)
    ensures Escape([c]) == EscapeChar(c)
  {
    hide Replace;
    ReplaceSingle(c, '&', "&amp;");
    if c == '&' {
      LaterPassesKeep("&amp;");
    } else {
      ReplaceSingle(c, '<', "&lt;");
      if c == '<' {
        ReplaceAbsent("&lt;", '>', "&gt;");
        ReplaceAbsent("&lt;", '"', "&quot;");
        ReplaceAbsent("&lt;", '\'', "&apos;");
      } else {
        ReplaceSingle(c, '>', "&gt;");
        if c == '>' {
          ReplaceAbsent("&gt;", '"', "&quot;");
          ReplaceAbsent("&gt;", '\'', "&apos;");
        } else {
          ReplaceSingle(c, '"', "&quot;");
          if c == '"' {
            ReplaceAbsent("&quot;", '\'', "&apos;");
          } else {
            ReplaceSingle(c, '\'', "&apos;");
          }
        }
      }
    }
  }

  /** Because `&` is replaced first, no entity the later passes insert is
      escaped again: the five passes equal the one-pass escaper. */
  lemma {:induction false} EscapeIsOnePass(t: seq<char>)
    ensures Escape(t) == EscapeEach(t)
    decreases |t|
  {
    if |t| == 0 {
      assert Escape(t) == [];
    } else {
      assert t == [t[0]] + t[1..];
      EscapeConcat([t[0]], t[1..]);
      EscapeOne(t[0]);
      EscapeIsOnePass(t[1..]);
    }
  }

  /** Escaped text holds no `<`, `>`, `"` or `'`. */
  lemma {:induction false} EscapeRemovesMarkup(t: seq<char>)
    ensures '<' !in Escape(t) && '>' !in Escape(t) && '"' !in Escape(t) && '\'' !in Escape(t)
  {
    var r1 := Replace(t, '&', "&amp;");
    var r2 := Replace(r1, '<', "&lt;");
    var r3 := Replace(r2, '>', "&gt;");
    var r4 := Replace(r3, '"', "&quot;");
    ReplaceOrigin(t, '&', "&amp;");
    ReplaceOrigin(r1, '<', "&lt;");
    ReplaceOrigin(r2, '>', "&gt;");
    ReplaceOrigin(r3, '"', "&quot;");
    ReplaceOrigin(r4, '\'', "&apos;");
    assert '<' !in r2;
    assert '<' !in r3 && '>' !in r3;
    assert '<' !in r4 && '>' !in r4 && '"' !in r4;
  }

  /** Text with none of the five characters comes back unchanged. */
  lemma {:induction false} EscapePlain(t: seq<char>)
    requires forall i :: 0 <= i < |t| ==> !Special(t[i])
    ensures Escape(t) == t
  {
    ReplaceAbsent(t, '&', "&amp;");
    ReplaceAbsent(t, '<', "&lt;");
    ReplaceAbsent(t, '>', "&gt;");
    ReplaceAbsent(t, '"', "&quot;");
    ReplaceAbsent(t, '\'', "&apos;");
  }

  // ---------------------------------------------------------------
  // Rendering the tree as XML

  const DECLARATION: seq<char> := "<?xml version=\"1.0\" encoding=\"UTF-8\"?>\n"

  /** Two spaces per level. */
  function Indent(k: nat): seq<char>
  {
    seq(2 * k, _ => ' ')
  }

  function DecDigit(d: nat): char
    requires d < 10
  {
    "0123456789"[d]
  }

  /** `n` in decimal, as Python's `str` of an int writes it. */
  function Dec(n: nat): seq<char>
    decreases n
  {
    if n < 10 then [DecDigit(n)] else Dec(n / 10) + [DecDigit(n % 10)]
  }

  /** The line written in place of a node already on the current path. */
  function Comment(indent: nat, idx: nat): seq<char>
  {
    Indent(indent) + "<!-- Circular reference to node " + Dec(idx) + " -->\n"
  }

  /** The attribute list of an opening tag: ` name="escaped value"` per
      pair. */
  function AttrText(pairs: seq<(seq<char>, seq<char>)>): seq<char>
  {
    if |pairs| == 0 then []
    else " " + pairs[0].0 + "=\"" + Escape(pairs[0].1) + "\"" + AttrText(pairs[1..])
  }

  /** Indentation, `<`, the resolved tag name and the attributes. */
  function OpenTag(doc: Document, names: map<nat, seq<char>>, node: Node, indent: nat): seq<char>
  {
    Indent(indent) + "<" + ResolveName(node.tagCrc, names, "tag")
      + AttrText(NodeAttributes(doc, names, node.firstAttr, node.attrCount))
  }

  function CloseTag(names: map<nat, seq<char>>, node: Node, indent: nat): seq<char>
  {
    Indent(indent) + "</" + ResolveName(node.tagCrc, names, "tag") + ">\n"
  }

  /** Node indices not in the visited set: the walk's termination measure. */
  function Unvisited(doc: Document, visited: set<nat>): set<nat>
  {
    set i: nat | i < |doc.nodes| && i !in visited
  }

  lemma {:induction false} UnvisitedShrinks(doc: Document, visited: set<nat>, idx: nat)
    requires idx < |doc.nodes| && idx !in visited
    ensures Unvisited(doc, visited + {idx}) < Unvisited(doc, visited)
  {
    assert idx in Unvisited(doc, visited);
    assert idx !in Unvisited(doc, visited + {idx});
  }

  /** The recursive walk. The visited set is threaded through the calls as
      the source mutates it: a node is added on entry and removed on exit,
      so every call hands back the set it was given. An index outside the
      table renders as nothing; a node already in the set renders as the
      circular-reference comment. */
  function Build(doc: Document, names: map<nat, seq<char>>, idx: int, indent: nat, visited: set<nat>): (r: (seq<char>, set<nat>))
    ensures r.1 == visited
    ensures (idx < 0 || idx >= |doc.nodes|) <==> r.0 == []
    decreases Unvisited(doc, visited), 0, 0
  {
    if idx < 0 || idx >= |doc.nodes| then ([], visited)
    else if idx in visited then (Comment(indent, idx), visited)
    else
      var node := doc.nodes[idx];
      var inner := visited + {idx};
      var open := OpenTag(doc, names, node, indent);
      if node.childCount > 0 then
        UnvisitedShrinks(doc, visited, idx);
        var body := Children(doc, names, node.firstChild, 0, node.childCount, indent + 1, inner);
        (open + ">\n" + body.0 + CloseTag(names, node, indent), body.1 - {idx})
      else
        (open + " />\n", inner - {idx})
  }

  /** The loop over child indices `first + i .. first + count - 1`,
      skipping any index outside the node table. */
  function Children(doc: Document, names: map<nat, seq<char>>, first: int, i: nat, count: int, indent: nat, visited: set<nat>): (r: (seq<char>, set<nat>))
    ensures r.1 == visited
    decreases Unvisited(doc, visited), 1, if count > i then count - i else 0
  {
    if i >= count then ([], visited)
    else if 0 <= first + i < |doc.nodes| then
      var head := Build(doc, names, first + i, indent, visited);
      var rest := Children(doc, names, first, i + 1, count, indent, head.1);
      (head.0 + rest.0, rest.1)
    else
      Children(doc, names, first, i + 1, count, indent, visited)
  }

  /** A stateless reference walk: each call is handed the set of its
      ancestors and passes that set plus itself to its children. */
  function Render(doc: Document, names: map<nat, seq<char>>, idx: int, indent: nat, ancestors: set<nat>): seq<char>
    decreases Unvisited(doc, ancestors), 0, 0
  {
    if idx < 0 || idx >= |doc.nodes| then []
    else if idx in ancestors then Comment(indent, idx)
    else
      var node := doc.nodes[idx];
      var open := OpenTag(doc, names, node, indent);
      if node.childCount > 0 then
        UnvisitedShrinks(doc, ancestors, idx);
        open + ">\n"
          + RenderChildren(doc, names, node.firstChild, 0, node.childCount, indent + 1, ancestors + {idx})
          + CloseTag(names, node, indent)
      else
        open + " />\n"
  }

  function RenderChildren(doc: Document, names: map<nat, seq<char>>, first: int, i: nat, count: int, indent: nat, ancestors: set<nat>): seq<char>
    decreases Unvisited(doc, ancestors), 1, if count > i then count - i else 0
  {
    if i >= count then []
    else
      (if 0 <= first + i < |doc.nodes| then Render(doc, names, first + i, indent, ancestors) else [])
      + RenderChildren(doc, names, first, i + 1, count, indent, ancestors)
  }

  /** Because every call restores the visited set, the set seen by a call
      is exactly its ancestors: a node reached along two different paths
      is rendered in full both times, and only a node that is its own
      ancestor becomes a circular-reference comment. */
  lemma {:induction false} BuildIsRender(doc: Document, names: map<nat, seq<char>>, idx: int, indent: nat, visited: set<nat>)
    ensures Build(doc, names, idx, indent, visited).0 == Render(doc, names, idx, indent, visited)
    decreases Unvisited(doc, visited), 0, 0
  {
    if 0 <= idx < |doc.nodes| && idx !in visited && doc.nodes[idx].childCount > 0 {
      var node := doc.nodes[idx];
      UnvisitedShrinks(doc, visited, idx);
      ChildrenIsRender(doc, names, node.firstChild, 0, node.childCount, indent + 1, visited + {idx});
    }
  }

  lemma {:induction false} ChildrenIsRender(doc: Document, names: map<nat, seq<char>>, first: int, i: nat, count: int, indent: nat, visited: set<nat>)
    ensures Children(doc, names, first, i, count, indent, visited).0
         == RenderChildren(doc, names, first, i, count, indent, visited)
    decreases Unvisited(doc, visited), 1, if count > i then count - i else 0
  {
    hide Build, Render, Children, RenderChildren, Unvisited;
    if i < count {
      ChildrenStep(doc, names, first, i, count, indent, visited);
      ChildrenIsRender(doc, names, first, i + 1, count, indent, visited);
      if 0 <= first + i < |doc.nodes| {
        BuildIsRender(doc, names, first + i, indent, visited);
      }
    } else {
      ChildrenEnd(doc, names, first, i, count, indent, visited);
    }
  }

  lemma {:induction false} ChildrenEnd(doc: Document, names: map<nat, seq<char>>, first: int, i: nat, count: int, indent: nat, visited: set<nat>)
    requires i >= count
    ensures Children(doc, names, first, i, count, indent, visited).0 == []
    ensures RenderChildren(doc, names, first, i, count, indent, visited) == []
  {
  }

  /** One pass of each loop: the child's text, then the rest of the loop
      from the same set. */
  lemma {:induction false} ChildrenStep(doc: Document, names: map<nat, seq<char>>, first: int, i: nat, count: int, indent: nat, visited: set<nat>)
    requires i < count
    ensures Children(doc, names, first, i, count, indent, visited).0
         == (if 0 <= first + i < |doc.nodes| then Build(doc, names, first + i, indent, visited).0 else [])
            + Children(doc, names, first, i + 1, count, indent, visited).0
    ensures RenderChildren(doc, names, first, i, count, indent, visited)
         == (if 0 <= first + i < |doc.nodes| then Render(doc, names, first + i, indent, visited) else [])
            + RenderChildren(doc, names, first, i + 1, count, indent, visited)
  {
    hide Build, Render;
    if !(0 <= first + i < |doc.nodes|) {
      assert [] + Children(doc, names, first, i + 1, count, indent, visited).0
          == Children(doc, names, first, i + 1, count, indent, visited).0;
    }
  }

  /** The XML text of a document: the declaration, then the walk from
      node 0 with an empty visited set. The declaration stands alone
      exactly when there are no nodes. */
  function ToXml(doc: Document, names: map<nat, seq<char>>): (r: seq<char>)
    ensures |DECLARATION| <= |r| && r[..|DECLARATION|] == DECLARATION
    ensures r == DECLARATION <==> |doc.nodes| == 0
  {
    if |doc.nodes| == 0 then DECLARATION
    else DECLARATION + Build(doc, names, 0, 0, {}).0
  }

  const LOOP_DOC: Document := Document([Node(7, -1, 1, 0, 0, 0)], [], [])
  const LOOP_NAMES: map<nat, seq<char>> := map[7 := "a"]
  const LOOP_COMMENT: seq<char> := "  " + "<!-- Circular reference to node " + "0" + " -->\n"

  lemma {:induction false} LoopTags()
    ensures OpenTag(LOOP_DOC, LOOP_NAMES, LOOP_DOC.nodes[0], 0) == "<a"
    ensures CloseTag(LOOP_NAMES, LOOP_DOC.nodes[0], 0) == "</a>\n"
  {
    assert Indent(0) == [];
    assert NodeAttributes(LOOP_DOC, LOOP_NAMES, 0, 0) == [];
  }

  lemma {:induction false} LoopComment()
    ensures Comment(1, 0) == LOOP_COMMENT
  {
    var indent := Indent(1);
    assert indent == "  ";
    var digits := Dec(0);
    assert digits == "0";
  }

  /** A one-node document whose node lists itself as its only child: the
      guard stops the walk and the child is rendered as a comment. */
  lemma {:induction false} SelfReference()
    ensures ToXml(LOOP_DOC, LOOP_NAMES) == DECLARATION + "<a>\n" + LOOP_COMMENT + "</a>\n"
  {
    LoopTags();
    LoopComment();
    hide OpenTag, CloseTag, Comment;
    var doc, names := LOOP_DOC, LOOP_NAMES;
    assert Build(doc, names, 0, 1, {0}).0 == LOOP_COMMENT;
    assert Children(doc, names, 0, 1, 1, 1, {0}).0 == [];
    assert Children(doc, names, 0, 0, 1, 1, {0}).0 == LOOP_COMMENT;
    assert Build(doc, names, 0, 0, {}).0 == "<a" + ">\n" + LOOP_COMMENT + "</a>\n";
  }
}
